=== FILE: README.md ===
# mplex, modelled in Dafny

A model of the core of js-libp2p-mplex, the stream multiplexer of libp2p.
Many independent byte streams share one connection as numbered frames.
A frame has a varint header, `id << 3 | type`. Frames that carry data
also have a varint length and the payload. The model has these parts:

- **Frame codec** (`Varint`, `Header`, `Message`, `Frame`):
  - the header helpers of `src/utils.js`, including JavaScript's 32-bit `<<`, `|`, `&` and `>>`;
  - the pooled encoder of `src/encode.ts`;
  - a reference decoder, used to state the round trip.
- **Size guard** (`RestrictSize`, `src/restrict-size.js`).
- **Per-stream state machine** (`Stream`, `src/stream.js`):
  - the two halves and how each one closes;
  - the message it sends for every event;
  - how `onEnd` fires.
- **Stream factory** (`StreamInit`, `src/stream.ts`): `createStream` and its `send*` hooks.
- **Muxer** (`Muxer`, `src/index.ts`, with `src/mplex.js` where they agree). It drives the
  streams of `src/stream.js`, the stream that `src/mplex.js` creates. `src/index.ts` imports
  `createStream` from the build of `src/stream.ts`, whose stream leaves closing, resetting and
  aborting to `AbstractStream` of `@libp2p/interface-stream-muxer`:
  - stream ids and the two registries;
  - dispatch of inbound frames;
  - the `streams` getter;
  - the end of the outbound queue, which aborts every stream;
  - the outbound size guard.
- **Registries** (`Registry`): a JavaScript `Map` modelled as an association list in insertion order, with a `map` view as its reference meaning.
- **Legacy pull-stream multiplexer** (`Multiplex`, `src/multiplex.js` and `src/multiplex-channel.js`):
  - odd/even id allocation;
  - `_split`, which routes by flag;
  - a channel's incoming flag mapping;
  - a channel's outgoing frame sequence.
- **End hook** (`PullEnd`, `src/pull-end.js`), which the channels use.

The model works on immutable values: each operation is a function from a
state to the next state. Asynchronous steps (`await`, promise resolution)
are modelled as atomic steps, taken in program order. Bytes are
`seq<byte>`, and ids and lengths are unbounded integers. Where the source
relies on 32-bit arithmetic, that arithmetic is written out (`Header.ToInt32`).

Facts about the code that the model relies on:

- `closeAll` calls `closeWrite` and then `closeRead`. `closeWrite` only
  raises a signal on a running sink; the sink's `catch` reacts later. By
  then `closeRead` has called `source.end(err)`. The model ends the read
  half at that call, so the read half ends first (see `Stream.EndSource`
  under "Left out" for when the code ends it).
- A receiver stream gets the muxer's `maxMsgSize` (src/index.ts:175), as
  in the TypeScript muxer. src/mplex.js passes none.
- A stream's sink can never reach `ERR_STREAM_CLOSED`. `sinkInProgress` is
  never reset, so a sink opened after the write half ended fails with
  `ERR_SINK_ALREADY_OPENED` (`Stream.SinkAfterEnd`).

## Model

| member | source | states |
|---|---|---|
| Varint.DecodeEncode | src/utils.js:15-19 | decoding the varint of a number, followed by any bytes, gives the number back with exactly its own length consumed |
| Varint.SingleByte | src/encode.ts:24-25 | a varint is one byte long exactly when the value is below 128 |
| Varint.HeaderSized | src/encode.ts:24-25 | the varint of a 31-bit header takes at most 5 bytes |
| Decimal.ParseShow | src/stream.js:37-39 | the decimal string used for default names and external ids parses back to the id |
| Decimal.ShowInjective | src/stream.js:37 | distinct ids have distinct decimal strings |
| Header.Pack | src/utils.js:13 | `id << 3 \| flag` stays within 31 bits for ids below 2^28, keeps the flag in its low three bits, and equals `8 * id + flag` |
| Header.ToInt32 | src/utils.js:18-24 | JavaScript's ToInt32 stays in the signed 32-bit range, keeps the low three bits, and is the identity below 2^31 |
| Header.ReadHeader | src/utils.js:18-25 | `readHeader` fails exactly when the varint does not decode; the flag is the low three bits; below 2^31 the id is the header shifted right by three |
| Header.RoundTrip | src/utils.js:5-25 | reading a created header, whatever follows it, gives back the packed value, the flag and the id |
| Header.SingleByteHeader | src/utils.js:13-15 | a created header is one byte long exactly when the packed value is below 128 |
| Message.Normalize | src/encode.ts:27-31 | the peer sees the same id and type, and a payload exactly for the types that carry data |
| Message.NormalizeWellFormed | src/encode.ts:27-31 | a message whose data matches its type is unchanged by the wire |
| Message.MessagesAppend | src/encode.ts:62-71 | flattening a concatenation of messages and batches is the concatenation of the flattenings |
| Message.CrossRouting | src/index.ts:248 | every message, close and reset type one side sends is routed by its low bit into the peer's registry for the other direction |
| Message.TablesDisjoint | src/stream.js:36 | a stream's own type codes never coincide with NEW_STREAM or the other direction's codes, and only the message type carries data |
| Frame.LengthField | src/encode.ts:27-31 | the length varint is the payload length for NEW_STREAM and MESSAGE with data, and 0 otherwise |
| Frame.HeaderBytesSized | src/encode.ts:24-33 | a frame header (type varint and length varint) is at most 13 bytes |
| Frame.Write | src/encode.ts:20-54 | `write` returns the header alone, or the header and the data for types that carry data; the pool is replaced when fewer than 100 bytes would remain, and otherwise advances by the header's length |
| Frame.WriteAll | src/encode.ts:62-71 | writing a batch of messages yields exactly the concatenated frame bytes and keeps the pool valid |
| Frame.WriteBatch | src/encode.ts:64-67 | the loop over an array message writes its frames in order |
| Frame.EncodeSource | src/encode.ts:62-71 | `encode` over a source of messages and batches yields the frames of all messages in order and keeps the pool valid |
| Frame.DecodeFrameBytes | src/encode.ts:20-54 | a reference decoder reads one written frame back as the normalised message and consumes exactly its bytes |
| Frame.RoundTrip | src/encode.ts:20-71 | decoding the bytes of encoded messages gives back the messages, normalised |
| Frame.RoundTripWellFormed | src/encode.ts:20-71 | for well-formed messages, decoding after encoding is the identity |
| RestrictSize.EffectiveMax | src/restrict-size.js:3-6 | an absent or zero maximum means 1 MiB; otherwise the maximum is used |
| RestrictSize.Guard | src/restrict-size.js:8-25 | the guard yields a prefix of the source in which every item fits; it errors exactly when it stopped early, and then at an item that does not fit |
| RestrictSize.FirstOversize | src/restrict-size.js:14-25 | the guard passes exactly the items before the first oversized one, then fails with ERR_MSG_TOO_BIG |
| RestrictSize.GuardError | src/restrict-size.js:10 | the only error the guard reports is ERR_MSG_TOO_BIG |
| RestrictSize.Boundary | src/restrict-size.js:9 | a payload exactly at the limit passes; one byte longer fails |
| RestrictSize.BatchAllOrNothing | src/restrict-size.js:17-19 | one oversized element fails a whole array |
| RestrictSize.NoDataPasses | src/restrict-size.js:9 | a message without data passes whatever the limit |
| PullEnd.PassThrough | src/pull-end.js:9-24 | values before the end pass through unchanged |
| PullEnd.Sticky | src/pull-end.js:10-12 | after a clean end, every read reports end and the hook does not run again |
| PullEnd.CleanEnd | src/pull-end.js:14-18 | a clean end yields the hook's value once, after the values; the hook runs exactly once |
| PullEnd.ErrorEnd | src/pull-end.js:14-21 | an error end is forwarded without running the hook |
| PullEnd.RunAppend | src/pull-end.js:8-25 | running over `a + b` is running over `a` and then, from that state, over `b` |
| Stream.Create | src/stream.js:32-47 | a new stream satisfies the stream invariant, has both halves open and has sent nothing; it is named after its id and is an initiator with a 1 MiB limit unless told otherwise |
| Stream.ExternalId | src/stream.js:37 | the external id is `i` or `r` for the direction, followed by the decimal id |
| Stream.ExternalIdInjective | src/stream.js:37 | the external id determines the direction and the numeric id |
| Stream.End | src/stream.js:49-67 | ending a half is idempotent; the first half to end records the error; `onEnd` runs when the second half ends, with the recorded error |
| Stream.Send | src/stream.js:102 | a message is sent only while the write half is open |
| Stream.OpenSink | src/stream.js:122-140 | opening an opened sink fails with ERR_SINK_ALREADY_OPENED; otherwise a closed one fails with ERR_STREAM_CLOSED; an initiator announces NEW_STREAM with its name, a receiver sends nothing |
| Stream.Chunks | src/stream.js:143-153 | a write is cut into non-empty pieces of at most the maximum size, all but the last of exactly that size, which concatenate back to the write |
| Stream.SliceItem | src/stream.js:144-152 | the slicing loop produces exactly those pieces |
| Stream.Write | src/stream.js:143-153 | a write only appends to what was sent: MESSAGE frames of the stream's id and direction, each carrying between 1 and `maxMsgSize` bytes, whose payloads concatenate back to the item |
| Stream.Code | src/stream.js:13-15 | an error's code is ERR_MPLEX_STREAM_RESET exactly for the reset error and for an outside error carrying that code, and likewise for MPLEX_WRITE_STREAM_CLOSED |
| Stream.FinishSink | src/stream.js:154-170 | judged by the error's code: on a clean end or MPLEX_WRITE_STREAM_CLOSED the sink sends CLOSE and ends without an error; on any other code it sends RESET (nothing for ERR_MPLEX_STREAM_RESET), ends the read half with the error, and ends |
| Stream.CloseWrite | src/stream.js:69-81 | closing the write half leaves a closed one alone, and otherwise always ends it |
| Stream.CloseRead | src/stream.js:83-93 | closing the read half ends it and sends nothing |
| Stream.CloseAll | src/stream.js:95-100 | close, abort and reset end both halves |
| Stream.Push | src/stream.js:172 | data pushed after the read half ended is dropped; otherwise it is queued |
| Stream.Step | src/stream.js:105-172 | of all events only opening the sink throws: ERR_SINK_ALREADY_OPENED while a sink is in progress, ERR_STREAM_CLOSED after the write half ended without one |
| Stream.EndingEvent | src/stream.js:105-121 | `close()` and `reset()` end both halves, so `onEnd` has run once; nothing sent is taken back |
| Stream.StepInv | src/stream.js:32-181 | every event keeps the stream invariant: `onEnd` ran exactly when both halves ended, NEW_STREAM comes first for an initiator, every message carries the id and a type of its direction, and CLOSE or RESET is last and only after the sink ended |
| Stream.WriteInv | src/stream.js:143-153 | a write keeps the stream invariant |
| Stream.FinishSinkInv | src/stream.js:154-170 | finishing the sink keeps the stream invariant |
| Stream.CloseWriteInv | src/stream.js:69-81 | closing the write half keeps the stream invariant |
| Stream.SinkAfterEnd | src/stream.js:122-129 | once the write half has ended, opening the sink fails with ERR_SINK_ALREADY_OPENED |
| Stream.SentOnlyGrows | src/stream.js:102 | events only append to what the stream has sent, and nothing is sent after the write half ended |
| Stream.EndErrFixed | src/stream.js:55-60 | once a half has ended, the error given to `onEnd` no longer changes |
| Stream.OnEndOnce | src/stream.js:49-61 | `onEnd` runs at most once, and when both halves have ended it has run with the recorded error |
| Stream.HalfClose | src/stream.js:83-93 | closing the read half of a running stream leaves its write half running |
| Stream.CloseRunning | src/stream.js:106-107 | `close` on a running sink sends CLOSE; if the read half was still open, `onEnd` runs without an error |
| Stream.CloseUnopened | src/stream.js:79 | `close` on a stream whose sink never opened opens it, sends its announcement if it is an initiator, then sends CLOSE |
| Stream.AbortRunning | src/stream.js:113-116 | `abort` on a running sink sends RESET, fails the read half with the abort's error and reports that error to `onEnd` |
| Stream.ResetRunning | src/stream.js:118-121 | `reset` sends nothing, fails the read half with ERR_MPLEX_STREAM_RESET and reports it to `onEnd` |
| Stream.SourceFailure | src/stream.js:154-170 | a failing user source sends RESET and ends both halves with its error; if its code is MPLEX_WRITE_STREAM_CLOSED it sends CLOSE and leaves the read half open; if its code is ERR_MPLEX_STREAM_RESET it sends nothing but still ends both halves with it |
| Stream.AbortWith | src/stream.js:113-116 | `abort(err)` ends both halves; a read half still open fails with `err`, and `onEnd` reports `err` when neither half had ended |
| Stream.ResetSends | src/stream.js:118-121 | `reset()` on a stream whose sink was opened sends nothing |
| Stream.WriteDelivers | src/stream.js:143-153 | the payloads a write sends concatenate to the data written |
| Stream.StepKeepsIdentity | src/stream.js:32-47 | no event changes a stream's id, direction, name or limit |
| Stream.NewSends | src/stream.js:102 | an event only appends to what the stream has sent; the messages it sends are that suffix |
| StreamInit.CreateStream | src/stream.ts:59-71 | the factory sets the external id, the direction, the default name and the 1 MiB default limit |
| StreamInit.Sent | src/stream.ts:38-56 | each hook sends exactly one message of the stream's direction with its id, except `sendCloseRead`, which sends nothing |
| StreamInit.FactoriesAgree | src/stream.ts:59-71 | the TypeScript factory and the JavaScript stream agree on external id, name, direction and limit |
| StreamInit.HooksRouteToPeer | src/stream.ts:32-52 | every data, close and reset message a stream sends reaches the peer's registry for the opposite direction |
| StreamInit.NewStreamTypeFixed | src/stream.ts:38-40 | NEW_STREAM is sent with type 0 and the name, whatever the direction |
| Registry.Get | src/index.ts:249 | `get` finds the entry with the key, or reports that none exists |
| Registry.GetSet | src/index.ts:176 | after `set`, `get` of the key finds the value set |
| Registry.Set | src/index.ts:176 | `set` replaces the value of a present key in place, keeping every key where it was, and otherwise appends a new entry |
| Registry.Delete | src/index.ts:168 | `delete` removes every entry with the key and keeps every other entry; deleting a missing key changes nothing |
| Registry.DeleteAppend | src/index.ts:168 | `delete` acts on each entry on its own, so the surviving entries keep their order |
| Registry.DeleteFirst | src/index.ts:220-222 | deleting the first key leaves the remaining entries in order |
| Registry.GetView | src/index.ts:249 | `get` agrees with the map the registry stands for |
| Registry.SetView | src/index.ts:176 | `set` is a map update of the registry's map |
| Registry.DeleteView | src/index.ts:168 | `delete` removes the key from the registry's map |
| Registry.SetDistinct | src/index.ts:176 | `set` keeps keys distinct |
| Registry.DeleteDistinct | src/index.ts:168 | `delete` keeps keys distinct |
| Registry.ViewDomain | src/index.ts:148 | a key is in the registry's map exactly when some entry has it |
| Muxer.Create | src/index.ts:69-97 | a new muxer satisfies the muxer invariant, starts ids at 0 and has no streams |
| Muxer.Streams | src/index.ts:102-112 | the `streams` getter lists initiator streams, then receiver streams, each in registry order |
| Muxer.NewStream | src/index.ts:118-178 | `newStream` always advances the id counter and changes nothing but the counter and the initiator registry; it throws exactly when the id is already registered, leaving the registry as it was, and otherwise appends the new initiator stream under the old counter value |
| Muxer.NewStreamSucceeds | src/index.ts:118-178 | under the invariant `newStream` never throws; it appends one new stream, named after its id unless a name is given, and every earlier entry keeps its stream |
| Muxer.NewInitiator | src/index.ts:118-123 | the stream `newStream` creates is a fresh initiator under the next id, named after it unless a name is given |
| Muxer.Apply | src/index.ts:154-176 | applying a stream event keeps the muxer invariant and leaves the other registry alone |
| Muxer.Accept | src/index.ts:243-245 | NEW_STREAM with an `onStream` handler keeps the muxer invariant, and a throw changes nothing |
| Muxer.Dispatch | src/index.ts:248-270 | any frame other than NEW_STREAM, whether or not its id is registered, keeps the muxer invariant and leaves the queue's state and the options alone |
| Muxer.HandleAll | src/index.ts:196-198 | handling frames in order keeps the muxer invariant |
| Muxer.SinkRun | src/index.ts:184-210 | the muxer's sink keeps the invariant and always ends the outbound queue |
| Muxer.HandleIncoming | src/index.ts:235-271 | handling a frame keeps the muxer invariant; a throw changes nothing |
| Muxer.DuplicateReceiver | src/index.ts:148-150 | NEW_STREAM for a receiver id already in use throws "already exists" and changes nothing |
| Muxer.AcceptStream | src/index.ts:243-245 | an accepted NEW_STREAM appends a receiver stream named by the frame's data and is reported to `onStream` |
| Muxer.UnknownIdDropped | src/index.ts:248-253 | a frame for an id missing from the registry its low bit selects changes nothing |
| Muxer.DispatchMessage | src/index.ts:248-259 | MESSAGE for a registered stream pushes the frame's data onto that stream's read queue, and sends and ends nothing |
| Muxer.DispatchEnd | src/index.ts:260-267 | CLOSE calls `close()` and RESET calls `reset()` on the registered stream; both end it, so it is dropped from its registry, its end is reported with its final state, and what it sends reaches the queue while the queue is open |
| Muxer.DispatchClose | src/index.ts:260-263 | CLOSE on a stream whose sink is running answers with the stream's own CLOSE |
| Muxer.DispatchReset | src/index.ts:264-267 | RESET on a stream whose sink was opened sends nothing back |
| Muxer.HandleLocal | src/index.ts:248-270 | handling a frame leaves every other id's stream as it was, in both registries |
| Muxer.HandleAllAppend | src/index.ts:196-198 | frames are handled one after another, stopping at the first throw |
| Muxer.AbortEnds | src/index.ts:220-222 | aborting the first stream of a registry removes it and reports its end, handing over the stream as `abort(err)` left it |
| Muxer.AbortEachEmpties | src/index.ts:217-226 | aborting every stream in registry order empties the registry, since each abort removes its stream |
| Muxer.AbortEachReports | src/index.ts:166-172 | the sweep reports each stream's end once, in registry order |
| Muxer.AbortEachQuiet | src/index.ts:154-164 | aborts during the sweep send nothing more, since the outbound queue has ended |
| Muxer.EndOutbound | src/index.ts:216-227 | the queue's end runs once and keeps the muxer invariant |
| Muxer.AbortEachDrops | src/index.ts:217-226 | the sweep hands over every stream of the registry, in order, as `abort(err)` left it |
| Muxer.AbortAll | src/index.ts:216-226 | when the outbound queue ends, every initiator and then every receiver stream is aborted with the queue's error and dropped; the streams handed over are exactly those streams after `abort(err)`, in that order |
| Muxer.SinkEndsAll | src/index.ts:184-210 | however the inbound side ends, no stream survives |
| Muxer.OversizeStops | src/index.ts:193-205 | an oversized inbound frame ends the outbound queue with ERR_MSG_TOO_BIG after the frames before it were handled |
| Muxer.StreamEvent | src/index.ts:154-176 | a user's event on a registered stream throws only when it opens a sink already opened, and otherwise keeps the invariant |
| Muxer.ForwardsSends | src/index.ts:154-164 | what a stream sends is appended to the outbound queue, in order, while the queue is open |
| Muxer.EncodeOutbound | src/mplex.js:87-105 | outbound batches pass the size guard and then the encoder of src/encode.ts; the bytes decode to the messages that passed |
| Multiplex.InChannel | src/multiplex-channel.js:17-61 | a channel yields at most one value per frame, and never ends by itself unless handed an end or error frame |
| Multiplex.InChannelFlags | src/multiplex-channel.js:40-56 | flags 1 and 2 yield the data; 3 and 4 stall; 5 and 6 fail with the data or "Channel destroyed"; 0 and the rest yield nothing |
| Multiplex.InChannelWrites | src/multiplex-channel.js:43-45 | a run of data frames yields exactly their data, in order |
| Multiplex.InChannelData | src/multiplex-channel.js:40-45 | after the open frame, the channel yields exactly the data frames' data |
| Multiplex.ErrorMessage | src/multiplex.js:79 | an error's message is the frame's data, or "Channel destroyed" when the data is empty |
| Multiplex.OutChannel | src/multiplex-channel.js:63-108 | a channel sends nothing until its first value; then the open header and the name (the decimal id by default) come first |
| Multiplex.OutChannelPairs | src/multiplex-channel.js:72-105 | paired in twos, a channel's output is the open pair with the name, then one pair per write with flag 2, then one pair with flag 3 (clean end) or 5 (error) and the flush signal |
| Multiplex.CleanEndHook | src/multiplex-channel.js:83-87 | on a clean end the hook adds the flush signal after the writes, matching the flag-3 item |
| Multiplex.ErrorEndHook | src/multiplex-channel.js:83-92 | an error passes the end hook by and reaches the catch, which yields the flag-5 flush item |
| Multiplex.NextId | src/multiplex.js:102-111 | each allocation advances the counter by two; an initiator gets an odd id and otherwise an even one, never below the counter |
| Multiplex.NextIdIncreases | src/multiplex.js:102-111 | successive allocations give strictly increasing ids |
| Multiplex.NewChannel | src/multiplex-channel.js:110-123 | a channel's name defaults to the decimal id |
| Multiplex.CreateStream | src/multiplex.js:113-123 | `createStream` appends a new channel and registers it under the given id, or under the fresh odd id `localIds + 1`, replacing any entry already there, and adds its outgoing side to the merged source |
| Multiplex.PeersCollide | src/multiplex.js:114 | as written, two fresh peers each opening a stream both pick id 1 |
| Multiplex.ReplacesAccepted | src/multiplex.js:114-119 | as written, a peer that accepted the other side's stream 1 and then opens its own replaces the accepted channel |
| Multiplex.CreateStreamAs | src/multiplex.js:102-123 | with the role passed to the allocator, a receiver's fresh ids are even and an initiator's odd; the channel is appended and registered under its id as in `createStream` |
| Multiplex.PeersApart | src/multiplex.js:102-111 | with the role passed, the two peers' fresh ids never coincide |
| Multiplex.KeepsPeerStreams | src/multiplex.js:113-123 | with the role passed, a receiver opening a stream leaves every odd id's entry alone |
| Multiplex.SplitOne | src/multiplex.js:45-93 | the splitter keeps the multiplexer invariant, and an input without a header changes nothing |
| Multiplex.SplitAll | src/multiplex.js:45-93 | the splitter over a run of inputs keeps the invariant and stops with the first input's error if that one throws |
| Multiplex.Pairs | src/multiplex.js:33 | `batch(2)` pairs buffer 2i as the header with buffer 2i+1 as the data; a lone last buffer has no data |
| Multiplex.Readable | src/multiplex-channel.js:17-61 | a channel's readable side yields what its frames yield; if they left it open, the splitter's abort ends it cleanly or fails it with the abort's message |
| Multiplex.MissingThrows | src/multiplex.js:73-92 | any frame other than an open frame, for an id without a live channel, throws on the missing channel; an error frame without data throws on reading its data first |
| Multiplex.EndNulls | src/multiplex.js:73-89 | an end frame (flag 3 or 4) nulls the entry and ends the channel's incoming side; a later data frame for the id throws |
| Multiplex.ErrorFails | src/multiplex.js:78-83 | an error frame (flag 5 or 6) nulls the entry, fails the channel with its message and emits 'error' |
| Multiplex.ErrorWithoutListener | src/multiplex.js:83 | an error frame (flag 5 or 6) with no 'error' listener throws with its message |
| Multiplex.OpenReuses | src/multiplex.js:59-70 | an open frame for a live id reuses its channel and announces nothing |
| Multiplex.StepOpen | src/multiplex.js:59-70 | an open frame for an id without a live channel registers a channel named by the id, emits 'stream', and hands it the frame |
| Multiplex.StepData | src/multiplex.js:92 | a frame with flag 1, 2 or the unassigned 7 for a live channel is handed to it, data or not, and the splitter goes on |
| Multiplex.StepEnd | src/multiplex.js:73-89 | a channel's end pair (flag 3 or 5 with the flush signal) takes the splitter to the end step, without throwing |
| Multiplex.EndStepChannel | src/multiplex.js:73-89 | the end step keeps the channel's id, name and frames, aborts it (with the flush signal as the error for flag 5) and adds an 'error' event only for flag 5 |
| Multiplex.FeedEnd | src/multiplex.js:73-89 | a channel's end pair alone, or no pair for a channel still open, leads to the end step |
| Multiplex.FeedWrites | src/multiplex.js:45-93 | the splitter runs through a channel's data pairs and end pair without throwing, reaching the state that hands each write on and then takes the end step |
| Multiplex.FeedChannel | src/multiplex.js:73-92 | in that state the channel holds every write as a data frame, in order, after what it held before, and is aborted as the end pair says |
| Multiplex.PeerReads | src/multiplex-channel.js:63-108 | one channel's output, split by a peer, opens one channel named by the id (the name sent is not used); it reads back every write in order, and ends cleanly, or fails with the flush signal, as the sender's end did |
| Multiplex.SplitAllKeeps | src/multiplex.js:73-92 | the splitter never hands a channel an end or error frame, so a channel never stalls or crashes on its own frames |

## Findings

| source | as written | input that shows it | evidently intended | confidence | as-written member | corrected member |
|---|---|---|---|---|---|---|
| src/multiplex.js:114 | `createStream` allocates with `_nextId(true)` on both peers, so both sides draw odd ids 1, 3, 5, … from the one `_streams` table. Only callers that omit the id on both peers collide. No caller in the repository does: the libp2p wrapper (src/muxer.js:38-44) always passes an id, split by `isListener` | both peers call `createStream()` once; the second side has already accepted stream 1, so its own stream replaces that channel under id 1 | the odd/even split of `_nextId(initiator)` keeps the two sides' ids apart; the allocating side's role must be passed through | medium; not executed | Multiplex.ReplacesAccepted | Multiplex.KeepsPeerStreams |

`Multiplex.CreateStream` models the code as written. `Multiplex.CreateStreamAs`
is the corrected allocation, and the id-separation lemmas
(`Multiplex.PeersApart`, `Multiplex.KeepsPeerStreams`) are stated about it.

## Left out

- Asynchronous scheduling (promises, `await`, `p-defer`, `it-pipe`, pull-stream callbacks). Each operation is modelled as one atomic step taken in program order. Interleavings that depend on timing are not modelled.
- Buffering in `it-pushable` and `pull-pair`: pushed data is modelled as the stream's inbox. The outbound queue's `onEnd` runs immediately when the queue ends.
- src/decode.ts is not part of this model. A reference decoder (`Frame.DecodeFrame`, `Frame.DecodeAll`) stands in for it, only to state the encoder's round trip.
- UTF-8 conversion (`toString`, `uint8ArrayFromString`): stream names, and the error messages that src/multiplex.js:79 and src/multiplex-channel.js:52 build with `data.toString()`, are carried as bytes (`Multiplex.ErrorMessage`, `Multiplex.Failed`).
- `timeline`, `Date.now` and logging: they do not affect behaviour.
- The `AbortSignal` option of the muxer's sink: a failing or aborted connection source is the `failure` parameter of `Muxer.SinkRun`.
- Limits on the number of streams, resets when a stream's buffer is full, and `minSendBytes`: they are not in this version of the code.
- `onStreamEnd` is modelled as the list of ended (direction, id) pairs, with the ended streams' final states beside it.
- A stream removed from its registry can still be used by the caller holding it. The model only tracks registered streams.
- Stream.EndSource: ends the read half as soon as `source.end(err)` is called. In the code, `end` is it-pushable's end hook (src/stream.js:172), which runs only when the stream's reader reads the end. A stream whose reader never drains stays registered (src/index.ts:166-168), so `Muxer.SinkEndsAll` and `Muxer.AbortEachEmpties` hold only when readers drain. On `abort` of a running sink, the sink's `catch` may end the write half first, and `onEnd` then gets ERR_MPLEX_STREAM_ABORT rather than `err` (`Stream.AbortRunning`, `Stream.AbortWith`).
- Muxer: the behaviour of `AbstractStream` (`@libp2p/interface-stream-muxer`), which the stream of src/stream.ts relies on for closing, resetting and aborting, is not part of this model. The muxer drives the stream of src/stream.js instead.
- Muxer.EncodeOutbound: src/mplex.js encodes with `Coder.encode` (src/coder), which is not part of this model. The encoder of src/encode.ts stands in for it.
- Frame.Write: requires ids below 2^28, and so do `Frame.WriteAll`, `Frame.WriteBatch` and `Frame.EncodeSource`. src/encode.ts:24 accepts any id and wraps `id << 3 | type` to 32 bits before the varint encoder sees it. A receiver stream keeps whatever id the peer sent, so this can happen.
- Varint.Decode: accepts varints of any length and returns unbounded naturals. The `varint` package (called at src/utils.js:19) throws a RangeError past 8 bytes and loses precision above 2^53. So `Header.ReadHeader` and `Multiplex.SplitOne` accept headers that the code rejects or misreads.
- Stream.Create: requires a nonzero `maxMsgSize`. With 0, the slicing loop of src/stream.js:144-152 never ends.
- Header.Pack: requires ids below 2^28. Beyond that, `id << 3` overflows 32 bits in src/utils.js:13.
- Multiplex.OutChannel: requires ids below 2^28, for the same reason. Channels opened by the peer under negative ids are not sent on.
- Multiplex: frames are routed by `pull-switch` and merged by `pull-many`, which are not part of this model. The interleaving of several channels' buffers on one connection is not modelled. `Multiplex.PeerReads` pairs one channel's output on its own.
- Multiplex: `destroy`, the `close` event and the length-prefix framing (`pull-length-prefixed`) are not modelled.
- Multiplex.Readable: a channel's incoming side is modelled as everything handed to it before the splitter's abort. pull-abortable may drop values that were not yet read.
- src/pull-switch.js, src/muxer.js, src/index.js and src/types.d.ts are not part of this model: they wire the components together or declare types.

=== FILE: decimal.dfy ===
/** Decimal renderings of stream ids, as JavaScript's `String(id)` produces them. */
module Decimal {
  import opened Varint

  predicate IsDigit(c: char) {
    '0' <= c <= '9'
  }

  function DigitChar(d: nat): (c: char)
    requires d < 10
    ensures IsDigit(c)
  {
    ('0' as int + d) as char
  }

  /** `String(n)`: the shortest decimal numeral of `n`. */
  function Show(n: nat): (r: string)
    ensures 1 <= |r|
    ensures forall i :: 0 <= i < |r| ==> IsDigit(r[i])
    ensures 1 < |r| ==> r[0] != '0'
  {
    if n < 10 then [DigitChar(n)] else Show(n / 10) + [DigitChar(n % 10)]
  }

  /** The value of a numeral; the inverse of Show. */
  function Parse(s: string): nat
    requires forall i :: 0 <= i < |s| ==> IsDigit(s[i])
  {
    if |s| == 0 then 0
    else
      assert IsDigit(s[|s| - 1]);
      10 * Parse(s[..|s| - 1]) + (s[|s| - 1] as int - '0' as int)
  }

  lemma {:induction false} ParseShow(n: nat)
    ensures Parse(Show(n)) == n
  {
    if n >= 10 {
      var s := Show(n);
      assert s[..|s| - 1] == Show(n / 10);
      ParseShow(n / 10);
    }
  }

  /** Distinct ids have distinct names. */
  lemma ShowInjective(a: nat, b: nat)
    requires Show(a) == Show(b)
    ensures a == b
  {
    ParseShow(a);
    ParseShow(b);
  }

  /** The ASCII bytes of Show(n), the default stream name as it travels on the wire. */
  function ShowBytes(n: nat): (r: seq<byte>)
    ensures |r| == |Show(n)|
    ensures forall i :: 0 <= i < |r| ==> r[i] as int == Show(n)[i] as int
  {
    var s := Show(n);
    seq(|s|, i requires 0 <= i < |s| => s[i] as int as byte)
  }

  lemma Examples()
    ensures Show(0) == "0"
    ensures Show(17) == "17"
  {
  }
}

=== FILE: frame.dfy ===
/**
 * The frame encoder (src/encode.ts): each message becomes
 * `varint(id << 3 | type)` `varint(length)` written into a reusable pool
 * buffer, followed by the payload passed through untouched. A reference
 * decoder states what the encoding means.
 */
module Frame {
  import opened Wrappers
  import opened Varint
  import opened Message
  import Header

  const POOL_SIZE: nat := 10 * 1024
  /** A new pool block is taken when less than this much room is left. */
  const POOL_MARGIN: nat := 100

  /** The encoder's pool block and the offset at which the next header is written. */
  datatype Pool = Pool(bytes: seq<byte>, offset: nat)

  /** The pool invariant: a full-sized block with at least POOL_MARGIN bytes left after the offset. */
  predicate ValidPool(p: Pool) {
    |p.bytes| == POOL_SIZE && p.offset + POOL_MARGIN <= POOL_SIZE
  }

  /** The length field: the payload length on data-carrying types that have data, 0 otherwise. */
  function LengthField(m: Message): (n: nat)
    ensures n == |WirePayload(m)|
  {
    if CarriesData(m.kind) && m.data.Some? then |m.data.value| else 0
  }

  /** The header block of a frame on the wire: the varint of `8 * id + type` followed by the varint length. */
  function HeaderBytes(m: Message): seq<byte>
    requires Encodable(m)
  {
    Encode(8 * m.id + m.kind) + Encode(LengthField(m))
  }

  lemma HeaderBytesSized(m: Message)
    requires Encodable(m)
    ensures |HeaderBytes(m)| <= 13
  {
    assert Header.Pack(m.id, m.kind) == 8 * m.id + m.kind;
    HeaderSized(8 * m.id + m.kind);
    SafeIntegerSized(LengthField(m));
  }

  /** A whole frame as it appears on the wire. */
  function FrameBytes(m: Message): seq<byte>
    requires Encodable(m)
  {
    HeaderBytes(m) + WirePayload(m)
  }

  /** The wire bytes of a sequence of messages. */
  predicate AllEncodable(ms: seq<Message>) {
    forall i :: 0 <= i < |ms| ==> Encodable(ms[i])
  }

  function WireBytes(ms: seq<Message>): seq<byte>
    requires AllEncodable(ms)
  {
    if |ms| == 0 then [] else FrameBytes(ms[0]) + WireBytes(ms[1..])
  }

  /** `varint.encode(n, buf, offset)`: overwrite `buf` at `offset` with `bytes`. */
  function WriteAt(buf: seq<byte>, offset: nat, bytes: seq<byte>): (r: seq<byte>)
    requires offset + |bytes| <= |buf|
    ensures |r| == |buf|
  {
    buf[..offset] + bytes + buf[offset + |bytes|..]
  }

  /** Two adjacent writes leave both values side by side and the bytes before them untouched. */
  lemma WriteTwice(buf: seq<byte>, off: nat, a: seq<byte>, b: seq<byte>)
    requires off + |a| + |b| <= |buf|
    ensures var r := WriteAt(WriteAt(buf, off, a), off + |a|, b);
      && r[off..off + |a| + |b|] == a + b
      && r[..off] == buf[..off]
  {
    var b1 := WriteAt(buf, off, a);
    assert b1[..off + |a|] == buf[..off] + a;
    var r := WriteAt(b1, off + |a|, b);
    assert r == buf[..off] + a + b + b1[off + |a| + |b|..];
  }

  function Flatten(chunks: seq<seq<byte>>): seq<byte> {
    if |chunks| == 0 then [] else chunks[0] + Flatten(chunks[1..])
  }

  lemma {:induction false} FlattenAppend(a: seq<seq<byte>>, b: seq<seq<byte>>)
    ensures Flatten(a + b) == Flatten(a) + Flatten(b)
    decreases |a|
  {
    if |a| == 0 {
      assert a + b == b;
    } else {
      assert (a + b)[1..] == a[1..] + b;
      FlattenAppend(a[1..], b);
    }
  }

  datatype Written = Written(pool: Pool, chunks: seq<seq<byte>>)

  /**
   * `Encoder.write(msg)`. `spare` is the uninitialised block `allocUnsafe`
   * returns when the pool is replaced; its contents never reach the output.
   */
  function Write(p: Pool, m: Message, spare: seq<byte>): (r: Written)
    requires ValidPool(p) && Encodable(m) && |spare| == POOL_SIZE
    ensures ValidPool(r.pool)
    ensures 1 <= |r.chunks| && r.chunks[0] == HeaderBytes(m)
    ensures CarriesData(m.kind) && m.data.Some? ==> r.chunks == [HeaderBytes(m), m.data.value]
    ensures !(CarriesData(m.kind) && m.data.Some?) ==> r.chunks == [HeaderBytes(m)]
    ensures Flatten(r.chunks) == FrameBytes(m)
    ensures POOL_SIZE - (p.offset + |HeaderBytes(m)|) < POOL_MARGIN ==> r.pool == Pool(spare, 0)
    ensures POOL_SIZE - (p.offset + |HeaderBytes(m)|) >= POOL_MARGIN ==>
              && r.pool.offset == p.offset + |HeaderBytes(m)|
              && r.pool.bytes[p.offset..r.pool.offset] == r.chunks[0]
              && r.pool.bytes[..p.offset] == p.bytes[..p.offset]
  {
    HeaderBytesSized(m);
    var h := Header.Pack(m.id, m.kind);
    assert h == 8 * m.id + m.kind;
    var hv := Encode(h);
    var lv := Encode(LengthField(m));
    assert hv + lv == HeaderBytes(m);
    var off2 := p.offset + |hv| + |lv|;
    var b2 := WriteAt(WriteAt(p.bytes, p.offset, hv), p.offset + |hv|, lv);
    WriteTwice(p.bytes, p.offset, hv, lv);
    var header := b2[p.offset..off2];
    assert header == HeaderBytes(m);
    var pool' := if POOL_SIZE - off2 < POOL_MARGIN then Pool(spare, 0) else Pool(b2, off2);
    var chunks := if CarriesData(m.kind) && m.data.Some? then [header, m.data.value] else [header];
    FlattenPair(header, WirePayload(m));
    Written(pool', chunks)
  }

  lemma FlattenPair(x: seq<byte>, y: seq<byte>)
    ensures Flatten([x]) == x
    ensures Flatten([x, y]) == x + y
  {
    assert [x][1..] == [];
    assert [y][1..] == [];
    assert [x, y][1..] == [y];
    assert Flatten([y]) == y;
  }

  /** The chunks the `encode` generator yields for a flat sequence of messages, and the pool afterwards. */
  function WriteAll(p: Pool, ms: seq<Message>, spare: seq<byte>): (r: Written)
    requires ValidPool(p) && |spare| == POOL_SIZE
    requires AllEncodable(ms)
    ensures ValidPool(r.pool)
    ensures Flatten(r.chunks) == WireBytes(ms)
    decreases |ms|
  {
    if |ms| == 0 then Written(p, [])
    else
      var w := Write(p, ms[0], spare);
      var rest := WriteAll(w.pool, ms[1..], spare);
      FlattenAppend(w.chunks, rest.chunks);
      Written(rest.pool, w.chunks + rest.chunks)
  }

  lemma {:induction false} WireBytesAppend(a: seq<Message>, b: seq<Message>)
    requires AllEncodable(a) && AllEncodable(b)
    ensures AllEncodable(a + b)
    ensures WireBytes(a + b) == WireBytes(a) + WireBytes(b)
    decreases |a|
  {
    forall i | 0 <= i < |a + b| ensures Encodable((a + b)[i]) {
      if i < |a| { assert (a + b)[i] == a[i]; } else { assert (a + b)[i] == b[i - |a|]; }
    }
    if |a| == 0 {
      assert a + b == b;
    } else {
      assert (a + b)[1..] == a[1..] + b;
      assert AllEncodable(a[1..]) by {
        forall i | 0 <= i < |a[1..]| ensures Encodable(a[1..][i]) { assert a[1..][i] == a[i + 1]; }
      }
      WireBytesAppend(a[1..], b);
      assert (a + b)[0] == a[0];
    }
  }

  /** The chunks `Encoder.write` yields for each message of one array, in order. */
  method WriteBatch(p: Pool, batch: seq<Message>, spare: seq<byte>) returns (pool: Pool, out: seq<seq<byte>>)
    requires ValidPool(p) && |spare| == POOL_SIZE
    requires AllEncodable(batch)
    ensures ValidPool(pool)
    ensures Flatten(out) == WireBytes(batch)
  {
    pool, out := p, [];
    var j := 0;
    PrefixEncodable(batch, 0);
    while j < |batch|
      invariant 0 <= j <= |batch|
      invariant ValidPool(pool)
      invariant AllEncodable(batch[..j])
      invariant Flatten(out) == WireBytes(batch[..j])
    {
      var w := Write(pool, batch[j], spare);
      WriteStep(out, w.chunks, batch, j);
      PrefixEncodable(batch, j + 1);
      pool, out := w.pool, out + w.chunks;
      j := j + 1;
    }
    assert batch[..j] == batch;
  }

  lemma PrefixEncodable(ms: seq<Message>, j: nat)
    requires j <= |ms| && AllEncodable(ms)
    ensures AllEncodable(ms[..j])
  {
    forall i | 0 <= i < j ensures Encodable(ms[..j][i]) {
      assert ms[..j][i] == ms[i];
    }
  }

  lemma WriteStep(out: seq<seq<byte>>, chunks: seq<seq<byte>>, batch: seq<Message>, j: nat)
    requires j < |batch| && AllEncodable(batch) && AllEncodable(batch[..j])
    requires Flatten(out) == WireBytes(batch[..j]) && Flatten(chunks) == FrameBytes(batch[j])
    ensures AllEncodable(batch[..j + 1])
    ensures Flatten(out + chunks) == WireBytes(batch[..j + 1])
  {
    TakeOneMore(batch, j);
    SnocStep(out, chunks, batch[..j], batch[j]);
  }

  lemma TakeOneMore<T>(s: seq<T>, j: nat)
    requires j < |s|
    ensures s[..j + 1] == s[..j] + [s[j]]
  {
  }

  lemma SnocStep(out: seq<seq<byte>>, chunks: seq<seq<byte>>, done: seq<Message>, m: Message)
    requires AllEncodable(done) && Encodable(m)
    requires Flatten(out) == WireBytes(done) && Flatten(chunks) == FrameBytes(m)
    ensures AllEncodable(done + [m])
    ensures Flatten(out + chunks) == WireBytes(done + [m])
  {
    SingleWire(m);
    AppendStep(out, chunks, done, [m]);
  }

  lemma SingleWire(m: Message)
    requires Encodable(m)
    ensures AllEncodable([m]) && WireBytes([m]) == FrameBytes(m)
  {
    assert [m][1..] == [];
  }

  /** Output for `done` followed by output for `batch` is the output for `done + batch`. */
  lemma AppendStep(out: seq<seq<byte>>, chunks: seq<seq<byte>>, done: seq<Message>, batch: seq<Message>)
    requires AllEncodable(done) && AllEncodable(batch)
    requires Flatten(out) == WireBytes(done) && Flatten(chunks) == WireBytes(batch)
    ensures AllEncodable(done + batch)
    ensures Flatten(out + chunks) == WireBytes(done + batch)
  {
    FlattenAppend(out, chunks);
    WireBytesAppend(done, batch);
  }

  /**
   * The `encode` generator: for each item of the source, arrays flattened,
   * the chunks of `Encoder.write`, in order. The encoder's pool persists
   * across messages.
   */
  method EncodeSource(p: Pool, items: seq<Item>, spare: seq<byte>) returns (pool: Pool, out: seq<seq<byte>>)
    requires ValidPool(p) && |spare| == POOL_SIZE
    requires AllEncodable(Messages(items))
    ensures ValidPool(pool)
    ensures Flatten(out) == WireBytes(Messages(items))
  {
    pool, out := p, [];
    var i := 0;
    assert items[..0] == [] && items[0..] == items;
    while i < |items|
      invariant 0 <= i <= |items|
      invariant ValidPool(pool)
      invariant AllEncodable(Messages(items[..i])) && AllEncodable(Messages(items[i..]))
      invariant Flatten(out) == WireBytes(Messages(items[..i]))
    {
      var batch := ItemMessages(items[i]);
      SourceStep(items, i);
      EncodableSplit(batch, Messages(items[i + 1..]));
      var w, chunks := WriteBatch(pool, batch, spare);
      AppendStep(out, chunks, Messages(items[..i]), batch);
      pool, out := w, out + chunks;
      i := i + 1;
    }
    assert items[..i] == items;
  }

  /** Taking one more item of the source moves its messages from the rest to the done part. */
  lemma SourceStep(items: seq<Item>, i: nat)
    requires i < |items|
    ensures Messages(items[i..]) == ItemMessages(items[i]) + Messages(items[i + 1..])
    ensures Messages(items[..i + 1]) == Messages(items[..i]) + ItemMessages(items[i])
  {
    assert items[i..][1..] == items[i + 1..];
    assert items[..i + 1] == items[..i] + [items[i]];
    MessagesAppend(items[..i], [items[i]]);
    assert Messages([items[i]]) == ItemMessages(items[i]) + Messages([]);
  }

  lemma EncodableSplit(a: seq<Message>, b: seq<Message>)
    requires AllEncodable(a + b)
    ensures AllEncodable(a) && AllEncodable(b)
  {
    forall i | 0 <= i < |a| ensures Encodable(a[i]) {
      assert a[i] == (a + b)[i];
    }
    forall i | 0 <= i < |b| ensures Encodable(b[i]) {
      assert b[i] == (a + b)[|a| + i];
    }
  }

  /** The message a decoded header and payload stand for: id and type from the header, the payload only on data-carrying types. */
  function FrameMessage(h: nat, payload: seq<byte>): Message {
    Message(h / 8, h % 8, if CarriesData(h % 8) then Some(payload) else None)
  }

  /**
   * Reference decoder for the frame at the front of `s`: the message and the
   * number of bytes it used. Only data-carrying types report a payload.
   */
  function DecodeFrame(s: seq<byte>): Option<(Message, nat)>
  {
    match Decode(s)
    case None => None
    case Some((h, k1)) => DecodeBody(s, h, k1)
  }

  /** The rest of a frame once its header `h` has been read from the first `k1` bytes: the length, then the payload. */
  function DecodeBody(s: seq<byte>, h: nat, k1: nat): Option<(Message, nat)>
    requires k1 <= |s|
  {
    match Decode(s[k1..])
    case None => None
    case Some((len, k2)) =>
      if k1 + k2 + len > |s| then None
      else Some((FrameMessage(h, s[k1 + k2..k1 + k2 + len]), k1 + k2 + len))
  }

  /** A decoded frame uses at least one byte and no more than there are. */
  lemma DecodeFrameProgress(s: seq<byte>)
    ensures DecodeFrame(s).Some? ==> 1 <= DecodeFrame(s).value.1 <= |s|
  {
  }

  /** Reference decoder for a whole byte stream; None on a malformed or truncated frame. */
  function DecodeAll(s: seq<byte>): Option<seq<Message>>
    decreases |s|
  {
    if |s| == 0 then Some([])
    else
      match DecodeFrame(s)
      case None => None
      case Some((m, k)) =>
        DecodeFrameProgress(s);
        match DecodeAll(s[k..])
        case None => None
        case Some(rest) => Some([m] + rest)
  }

  /** A frame decodes back to the message, as the peer's decoder reports it, whatever follows. */
  lemma DecodeFrameBytes(m: Message, rest: seq<byte>)
    requires Encodable(m)
    ensures DecodeFrame(FrameBytes(m) + rest) == Some((Normalize(m), |FrameBytes(m)|))
  {
    var h := 8 * m.id + m.kind;
    var len := LengthField(m);
    assert FrameBytes(m) == Encode(h) + Encode(len) + WirePayload(m);
    DecodeLayout(h, len, WirePayload(m), rest);
    NormalizeFrame(m);
  }

  /** Header varint, length varint and payload, whatever follows, decode as one frame. */
  lemma DecodeLayout(h: nat, len: nat, p: seq<byte>, rest: seq<byte>)
    requires |p| == len
    ensures DecodeFrame(Encode(h) + Encode(len) + p + rest)
         == Some((FrameMessage(h, p), |Encode(h) + Encode(len) + p|))
  {
    var s := Encode(h) + Encode(len) + p + rest;
    FrameFields(h, len, p, rest);
    DecodeFrameOf(s, h, |Encode(h)|, len, |Encode(len)|);
  }

  /** The message read back from a frame's header and payload is the normalised original. */
  lemma NormalizeFrame(m: Message)
    requires Encodable(m)
    ensures FrameMessage(8 * m.id + m.kind, WirePayload(m)) == Normalize(m)
  {
    var h := 8 * m.id + m.kind;
    assert h / 8 == m.id && h % 8 == m.kind;
  }

  /** The header varint, the length varint and the payload are read back from a frame's bytes. */
  lemma FrameFields(h: nat, len: nat, p: seq<byte>, rest: seq<byte>)
    requires |p| == len
    ensures var s := Encode(h) + Encode(len) + p + rest;
      var k1, k2 := |Encode(h)|, |Encode(len)|;
      && Decode(s) == Some((h, k1))
      && Decode(s[k1..]) == Some((len, k2))
      && k1 + k2 + len <= |s|
      && s[k1 + k2..k1 + k2 + len] == p
  {
    var e1, e2 := Encode(h), Encode(len);
    Layout(e1, e2, p, rest);
    DecodeEncode(h, e2 + p + rest);
    DecodeEncode(len, p + rest);
  }

  /** Where the parts of `e1 + e2 + p + rest` sit. */
  lemma Layout(e1: seq<byte>, e2: seq<byte>, p: seq<byte>, rest: seq<byte>)
    ensures var s := e1 + e2 + p + rest;
      && s == e1 + (e2 + p + rest)
      && s[|e1|..] == e2 + (p + rest)
      && s[|e1| + |e2|..|e1| + |e2| + |p|] == p
  {
  }

  lemma DecodeFrameOf(s: seq<byte>, h: nat, k1: nat, len: nat, k2: nat)
    requires Decode(s) == Some((h, k1))
    requires k1 <= |s| && Decode(s[k1..]) == Some((len, k2))
    requires k1 + k2 + len <= |s|
    ensures DecodeFrame(s) == Some((FrameMessage(h, s[k1 + k2..k1 + k2 + len]), k1 + k2 + len))
  {
    DecodeBodyOf(s, h, k1, len, k2);
  }

  lemma DecodeBodyOf(s: seq<byte>, h: nat, k1: nat, len: nat, k2: nat)
    requires k1 <= |s| && Decode(s[k1..]) == Some((len, k2))
    requires k1 + k2 + len <= |s|
    ensures DecodeBody(s, h, k1) == Some((FrameMessage(h, s[k1 + k2..k1 + k2 + len]), k1 + k2 + len))
  {
  }

  function NormalizeAll(ms: seq<Message>): (r: seq<Message>)
    ensures |r| == |ms|
    ensures forall i :: 0 <= i < |ms| ==> r[i] == Normalize(ms[i])
  {
    if |ms| == 0 then [] else [Normalize(ms[0])] + NormalizeAll(ms[1..])
  }

  /** Encoding then decoding gives back every message, in order. */
  lemma {:induction false} RoundTrip(ms: seq<Message>)
    requires AllEncodable(ms)
    ensures DecodeAll(WireBytes(ms)) == Some(NormalizeAll(ms))
    decreases |ms|
  {
    if |ms| > 0 {
      var s := WireBytes(ms);
      DecodeFrameBytes(ms[0], WireBytes(ms[1..]));
      assert s[|FrameBytes(ms[0])|..] == WireBytes(ms[1..]);
      RoundTrip(ms[1..]);
    }
  }

  /** Messages built the protocol's way come back exactly. */
  lemma RoundTripWellFormed(ms: seq<Message>)
    requires AllEncodable(ms)
    requires forall i :: 0 <= i < |ms| ==> WellFormed(ms[i])
    ensures DecodeAll(WireBytes(ms)) == Some(ms)
  {
    RoundTrip(ms);
    assert NormalizeAll(ms) == ms;
  }
}

=== FILE: header.dfy ===
/**
 * Frame-header bit packing (src/utils.js): the header is `id << 3 | flag`,
 * written as a varint, and read back as `flag = header & 7`, `id = header >> 3`.
 * JavaScript evaluates `<<`, `|`, `&` and `>>` on 32-bit signed integers; the
 * model writes that arithmetic out.
 */
module Header {
  import opened Wrappers
  import opened Varint

  /** Ids from 2^28 up overflow the 32-bit `id << 3`. */
  const ID_LIMIT: nat := 0x1000_0000
  const INT32_LIMIT: nat := 0x8000_0000

  /** Bitwise OR of two naturals. */
  function BitOr(a: nat, b: nat): nat
    decreases a + b
  {
    if a == 0 then b
    else if b == 0 then a
    else 2 * BitOr(a / 2, b / 2) + (if a % 2 == 1 || b % 2 == 1 then 1 else 0)
  }

  lemma BitOrDouble(a: nat, f: nat)
    ensures BitOr(2 * a, f) == 2 * BitOr(a, f / 2) + f % 2
  {
  }

  /** OR-ing into a value shifted left by three leaves the low three bits to the flag. */
  lemma BitOrShift3(a: nat, f: nat)
    ensures BitOr(8 * a, f) == 8 * BitOr(a, f / 8) + f % 8
  {
    var f2, f4, f8 := f / 2, f / 4, f / 8;
    assert f2 / 2 == f4 && f4 / 2 == f8;
    BitOrDouble(4 * a, f);
    BitOrDouble(2 * a, f2);
    BitOrDouble(a, f4);
    assert 2 * (4 * a) == 8 * a && 2 * (2 * a) == 4 * a;
    var b := BitOr(a, f8);
    assert BitOr(8 * a, f) == 8 * b + 4 * (f4 % 2) + 2 * (f2 % 2) + f % 2;
    LowBits(f);
  }

  lemma LowBits(f: nat)
    ensures f % 8 == 4 * ((f / 4) % 2) + 2 * ((f / 2) % 2) + f % 2
  {
    var f2 := f / 2;
    var f4 := f2 / 2;
    var f8 := f4 / 2;
    var b0, b1, b2 := f % 2, f2 % 2, f4 % 2;
    DivBy2(f);
    DivBy2(f2);
    DivBy2(f4);
    QuotientBy4(f, f4, 2 * b1 + b0);
    QuotientBy8(f, f8, 4 * b2 + 2 * b1 + b0);
  }

  lemma DivBy2(x: nat)
    ensures x == 2 * (x / 2) + x % 2 && x % 2 < 2
  {
  }

  lemma QuotientBy4(x: int, q: int, r: int)
    requires x == 4 * q + r && 0 <= r < 4
    ensures x / 4 == q
  {
  }

  lemma QuotientBy8(x: int, q: int, r: int)
    requires x == 8 * q + r && 0 <= r < 8
    ensures x % 8 == r
  {
  }

  function Pow2(k: nat): (r: nat)
    ensures 1 <= r
  {
    if k == 0 then 1 else 2 * Pow2(k - 1)
  }

  lemma {:induction false} BitOrBound(a: nat, b: nat, k: nat)
    requires a < Pow2(k) && b < Pow2(k)
    ensures BitOr(a, b) < Pow2(k)
    decreases k
  {
    if a != 0 && b != 0 {
      BitOrBound(a / 2, b / 2, k - 1);
    }
  }

  lemma Pow2of31()
    ensures Pow2(31) == INT32_LIMIT
  {
    assert Pow2(8) == 256;
    assert Pow2(16) == 65536 by {
      assert Pow2(16) == 256 * Pow2(8) by {
        assert forall j :: 8 <= j <= 16 ==> Pow2(j) == Pow2(j - 8) * Pow2(8) by {
          forall j | 8 <= j <= 16 ensures Pow2(j) == Pow2(j - 8) * Pow2(8) {
            Pow2Add(j - 8, 8);
          }
        }
      }
    }
    Pow2Add(16, 15);
    assert Pow2(15) == 32768 by {
      Pow2Add(8, 7);
      assert Pow2(7) == 128;
    }
  }

  lemma {:induction false} Pow2Add(a: nat, b: nat)
    ensures Pow2(a + b) == Pow2(a) * Pow2(b)
    decreases a
  {
    if a > 0 {
      Pow2Add(a - 1, b);
    }
  }

  /** JavaScript's `id << 3 | flag` for an id that does not overflow and a non-negative 32-bit flag. */
  function Pack(id: nat, flag: nat): (h: nat)
    requires id < ID_LIMIT
    requires flag < INT32_LIMIT
    ensures h < INT32_LIMIT
    ensures h % 8 == flag % 8
    ensures flag < 8 ==> h == 8 * id + flag
  {
    BitOrShift3(id, flag);
    ShiftedMod8(BitOr(id, flag / 8), flag % 8);
    assert flag < 8 ==> flag / 8 == 0 && BitOr(id, 0) == id;
    Pow2of31();
    BitOrBound(8 * id, flag, 31);
    BitOr(8 * id, flag)
  }

  /** ToInt32: the 32-bit two's-complement reading JavaScript's bit operators apply first. */
  function ToInt32(h: nat): (r: int)
    ensures -(INT32_LIMIT as int) <= r < INT32_LIMIT
    ensures r % 8 == h % 8
    ensures h < INT32_LIMIT ==> r == h
  {
    var w := h % 0x1_0000_0000;
    Int32LowBits(h);
    if w >= INT32_LIMIT then w - 0x1_0000_0000 else w
  }

  /** Wrapping to 32 bits keeps the low three bits. */
  lemma Int32LowBits(h: nat)
    ensures (h % 0x1_0000_0000) % 8 == h % 8
    ensures (h % 0x1_0000_0000 - 0x1_0000_0000) % 8 == h % 8
  {
    var q, w := h / 0x1_0000_0000, h % 0x1_0000_0000;
    assert h == 8 * (q * 0x2000_0000) + w;
    ShiftedMod8(q * 0x2000_0000, w);
    ShiftedMod8(-0x2000_0000, w);
  }

  lemma ShiftedMod8(m: int, w: int)
    ensures (8 * m + w) % 8 == w % 8
  {
  }

  /** How `createHeader` picks the flag: given directly, or by role from a pair of codes. */
  datatype FlagChoice =
    | Plain(flag: nat)
    | ByRole(initiator: bool, codeI: nat, code: nat)

  function ChosenFlag(c: FlagChoice): nat {
    match c
    case Plain(f) => f
    case ByRole(initiator, codeI, code) => if initiator then codeI else code
  }

  /** `createHeader(id, ...)`: the varint of `id << 3 | flag`. */
  function CreateHeader(id: nat, c: FlagChoice): (r: seq<byte>)
    requires id < ID_LIMIT
    requires ChosenFlag(c) < INT32_LIMIT
  {
    Encode(Pack(id, ChosenFlag(c)))
  }

  /** What `readHeader` returns. `id` can be negative: `>>` is an arithmetic shift on 32 bits. */
  datatype Fields = Fields(header: nat, flag: nat, id: int)

  /** `readHeader(raw)`: decode a varint, then split it; None where the varint decoder throws. */
  function ReadHeader(raw: seq<byte>): (r: Option<Fields>)
    ensures r.Some? <==> Decode(raw).Some?
    ensures r.Some? ==> r.value.flag < 8 && r.value.flag == r.value.header % 8
    ensures r.Some? && r.value.header < INT32_LIMIT ==> r.value.id == r.value.header / 8
  {
    match Decode(raw)
    case None => None
    case Some((h, _)) => Some(Fields(h, ToInt32(h) % 8, ToInt32(h) / 8))
  }

  /** Reading a created header gives back the id and the flag. */
  lemma RoundTrip(id: nat, c: FlagChoice, rest: seq<byte>)
    requires id < ID_LIMIT
    requires ChosenFlag(c) < 8
    ensures ReadHeader(CreateHeader(id, c) + rest)
         == Some(Fields(8 * id + ChosenFlag(c), ChosenFlag(c), id))
  {
    DecodeEncode(Pack(id, ChosenFlag(c)), rest);
  }

  /** A header below 128 is sent as a single byte, and only such a header is. */
  lemma SingleByteHeader(id: nat, c: FlagChoice)
    requires id < ID_LIMIT
    requires ChosenFlag(c) < INT32_LIMIT
    ensures |CreateHeader(id, c)| == 1 <==> Pack(id, ChosenFlag(c)) < 128
  {
    SingleByte(Pack(id, ChosenFlag(c)));
  }

  /** The byte vectors the source's unit tests pin down. */
  lemma Examples()
    ensures CreateHeader(2, ByRole(true, 2, 1)) == [18]
    ensures CreateHeader(2, ByRole(false, 2, 1)) == [17]
    ensures CreateHeader(2, Plain(4)) == [20]
    ensures ReadHeader([20]) == Some(Fields(20, 4, 2))
  {
    assert Pack(2, 2) == 18;
    assert Pack(2, 1) == 17;
    assert Pack(2, 4) == 20;
  }
}

=== FILE: message.dfy ===
/**
 * Mplex messages and message-type numbers (the message-format section of the
 * libp2p mplex specification). The low bit of a type tells the receiving
 * side which of its two registries holds the stream.
 */
module Message {
  import opened Wrappers
  import opened Varint
  import Header

  const NEW_STREAM: nat := 0
  const MESSAGE_RECEIVER: nat := 1
  const MESSAGE_INITIATOR: nat := 2
  const CLOSE_RECEIVER: nat := 3
  const CLOSE_INITIATOR: nat := 4
  const RESET_RECEIVER: nat := 5
  const RESET_INITIATOR: nat := 6

  /** JavaScript's largest safe integer plus one: no byte array is longer. */
  const SAFE_LENGTH_LIMIT: nat := 0x20_0000_0000_0000

  /** One frame's content: stream id, message type (`kind`, the source's `type` field) and optional payload. */
  datatype Message = Message(id: nat, kind: nat, data: Option<seq<byte>>)

  /** The types whose payload travels on the wire. */
  predicate CarriesData(t: nat) {
    t == NEW_STREAM || t == MESSAGE_INITIATOR || t == MESSAGE_RECEIVER
  }

  /** What the encoder accepts: a known type, an id whose header fits 32 bits, a payload of array length. */
  predicate Encodable(m: Message) {
    && m.kind <= RESET_INITIATOR
    && m.id < Header.ID_LIMIT
    && (m.data.Some? ==> |m.data.value| < SAFE_LENGTH_LIMIT)
  }

  /** The payload a frame carries: the data for data-carrying types, nothing otherwise. */
  function WirePayload(m: Message): (p: seq<byte>)
    ensures !CarriesData(m.kind) ==> p == []
    ensures CarriesData(m.kind) && m.data.Some? ==> p == m.data.value
  {
    if CarriesData(m.kind) && m.data.Some? then m.data.value else []
  }

  /** A message with the payload a peer's decoder reports: the wire payload on data-carrying types, none otherwise. */
  function Normalize(m: Message): (n: Message)
    ensures n.id == m.id && n.kind == m.kind
    ensures n.data.Some? <==> CarriesData(m.kind)
  {
    Message(m.id, m.kind, if CarriesData(m.kind) then Some(WirePayload(m)) else None)
  }

  /** A message shaped as the protocol builds them: payload present exactly on data-carrying types. */
  predicate WellFormed(m: Message) {
    m.data.Some? <==> CarriesData(m.kind)
  }

  lemma NormalizeWellFormed(m: Message)
    requires WellFormed(m)
    ensures Normalize(m) == m
  {
  }

  /** What an async source yields: one message, or an array of them (`Message | Message[]`). */
  datatype Item = Single(msg: Message) | Batch(msgs: seq<Message>)

  function ItemMessages(it: Item): seq<Message> {
    match it
    case Single(m) => [m]
    case Batch(ms) => ms
  }

  /** The messages of a source, arrays flattened, in order. */
  function Messages(items: seq<Item>): (ms: seq<Message>)
    ensures |items| == 0 ==> ms == []
  {
    if |items| == 0 then [] else ItemMessages(items[0]) + Messages(items[1..])
  }

  lemma {:induction false} MessagesAppend(a: seq<Item>, b: seq<Item>)
    ensures Messages(a + b) == Messages(a) + Messages(b)
    decreases |a|
  {
    if |a| > 0 {
      assert (a + b)[1..] == a[1..] + b;
      MessagesAppend(a[1..], b);
    } else {
      assert a + b == b;
    }
  }

  /** Which side of a stream a party plays. */
  datatype Direction = Initiator | Receiver

  function Opposite(d: Direction): Direction {
    if d == Initiator then Receiver else Initiator
  }

  /** The per-direction message types a stream sends. */
  datatype TypeTable = TypeTable(message: nat, close: nat, reset: nat)

  const InitiatorTypes := TypeTable(MESSAGE_INITIATOR, CLOSE_INITIATOR, RESET_INITIATOR)
  const ReceiverTypes := TypeTable(MESSAGE_RECEIVER, CLOSE_RECEIVER, RESET_RECEIVER)

  function Types(d: Direction): TypeTable {
    if d == Initiator then InitiatorTypes else ReceiverTypes
  }

  /** The registry an incoming non-NEW_STREAM frame is looked up in: `type & 1 == 1` means initiators. */
  function Route(t: nat): Direction {
    if t % 2 == 1 then Initiator else Receiver
  }

  /**
   * A frame sent by a stream of direction `d` is routed, on the other side,
   * to the registry of the opposite direction, where the peer keeps its end
   * of the same stream.
   */
  lemma CrossRouting(d: Direction)
    ensures Route(Types(d).message) == Opposite(d)
    ensures Route(Types(d).close) == Opposite(d)
    ensures Route(Types(d).reset) == Opposite(d)
  {
  }

  /** The tables of the two directions share no type, and neither contains NEW_STREAM. */
  lemma TablesDisjoint(d: Direction, t: nat)
    requires t == Types(d).message || t == Types(d).close || t == Types(d).reset
    ensures t != NEW_STREAM
    ensures t != Types(Opposite(d)).message && t != Types(Opposite(d)).close && t != Types(Opposite(d)).reset
    ensures CarriesData(t) <==> t == Types(d).message
  {
  }
}

=== FILE: multiplex.dfy ===
/**
 * The pull-stream multiplexer (src/multiplex.js) and its channels
 * (src/multiplex-channel.js). Frames arrive as (header, data) pairs; the
 * splitter opens, feeds, closes or fails channels by the header's flag.
 * A channel's outgoing side announces itself with an open frame and its
 * name, sends each write as a flag-2 frame, and ends with a flag-3 (clean)
 * or flag-5 (error) frame carrying a one-byte flush signal.
 */
module Multiplex {
  import opened Wrappers
  import opened Varint
  import Decimal
  import Header
  import PullEnd

  /** The ASCII bytes of "Channel destroyed". */
  const CHANNEL_DESTROYED: seq<byte> := [67, 104, 97, 110, 110, 101, 108, 32, 100, 101, 115, 116, 114, 111, 121, 101, 100]

  /** The flush signal a channel's last frame carries. */
  const SIGNAL_FLUSH: seq<byte> := [0]

  /** `id.toString()` as bytes. */
  function IdName(id: int): (r: seq<byte>)
    ensures 0 <= id ==> r == Decimal.ShowBytes(id)
  {
    if id < 0 then [45] + Decimal.ShowBytes(-id) else Decimal.ShowBytes(id)
  }

  /** The error message of a failed channel: the frame's data, or "Channel destroyed" when that is empty. */
  function ErrorMessage(data: seq<byte>): (r: seq<byte>)
    ensures |r| > 0
    ensures |data| > 0 ==> r == data
    ensures |data| == 0 ==> r == CHANNEL_DESTROYED
  {
    if |data| == 0 then CHANNEL_DESTROYED else data
  }

  // ---------------------------------------------------------------------
  // The incoming side of a channel (inChannel)
  // ---------------------------------------------------------------------

  /** A frame handed to a channel: the flag read from its header, and its data if the pair had any. */
  datatype Frame = Frame(flag: nat, data: Option<seq<byte>>)

  /** How a channel's readable side stands after its frames. */
  datatype Terminal =
    | Open                  // more may come
    | Done                  // ended cleanly
    | Failed(msg: seq<byte>) // ended with an error
    | Stalled               // a close frame was taken and never answered: nothing more is read
    | Crashed               // an error frame without data: reading its message throws

  datatype Outcome = Outcome(values: seq<seq<byte>>, end: Terminal)

  /**
   * The inChannel's per-frame mapping, over the frames it is handed: data
   * frames (flags 1 and 2) yield their data, an open frame (flag 0) and any
   * other flag yield nothing, an end frame (3, 4) stalls the channel, and
   * an error frame (5, 6) fails it with its message.
   */
  function InChannel(frames: seq<Frame>): (r: Outcome)
    ensures |r.values| <= |frames|
    ensures (forall i :: 0 <= i < |frames| ==> frames[i].flag !in {3, 4, 5, 6}) ==> r.end == Open
  {
    if |frames| == 0 then Outcome([], Open)
    else
      var f := frames[0];
      assert forall i :: 1 <= i < |frames| ==> frames[1..][i - 1] == frames[i];
      if f.flag == 1 || f.flag == 2 then
        var rest := InChannel(frames[1..]);
        if f.data.Some? then Outcome([f.data.value] + rest.values, rest.end) else rest
      else if f.flag == 3 || f.flag == 4 then Outcome([], Stalled)
      else if f.flag == 5 || f.flag == 6 then
        if f.data.None? then Outcome([], Crashed) else Outcome([], Failed(ErrorMessage(f.data.value)))
      else InChannel(frames[1..])
  }

  /** The data a run of data frames carries, in order. */
  function DataFrames(writes: seq<seq<byte>>, flag: nat): (r: seq<Frame>)
    ensures |r| == |writes|
    ensures forall i :: 0 <= i < |writes| ==> r[i] == Frame(flag, Some(writes[i]))
  {
    seq(|writes|, i requires 0 <= i < |writes| => Frame(flag, Some(writes[i])))
  }

  /** A channel reads back exactly the data of the data frames it is handed, after an open frame. */
  lemma {:induction false} InChannelData(name: seq<byte>, writes: seq<seq<byte>>)
    ensures InChannel([Frame(0, Some(name))] + DataFrames(writes, 2)) == Outcome(writes, Open)
  {
    var fs := [Frame(0, Some(name))] + DataFrames(writes, 2);
    assert fs[1..] == DataFrames(writes, 2);
    InChannelWrites(writes);
  }

  lemma {:induction false} InChannelWrites(writes: seq<seq<byte>>)
    ensures InChannel(DataFrames(writes, 2)) == Outcome(writes, Open)
    decreases |writes|
  {
    if |writes| > 0 {
      assert DataFrames(writes, 2)[1..] == DataFrames(writes[1..], 2);
      InChannelWrites(writes[1..]);
      assert [writes[0]] + writes[1..] == writes;
    }
  }

  /** Each flag's action, one frame at a time. */
  lemma InChannelFlags(flag: nat, d: seq<byte>)
    ensures flag == 1 || flag == 2 ==> InChannel([Frame(flag, Some(d))]) == Outcome([d], Open)
    ensures flag == 3 || flag == 4 ==> InChannel([Frame(flag, Some(d))]) == Outcome([], Stalled)
    ensures flag == 5 || flag == 6 ==> InChannel([Frame(flag, Some(d))]) == Outcome([], Failed(ErrorMessage(d)))
    ensures flag == 0 || flag >= 7 ==> InChannel([Frame(flag, Some(d))]) == Outcome([], Open)
  {
    assert [Frame(flag, Some(d))][1..] == [];
  }

  // ---------------------------------------------------------------------
  // The outgoing side of a channel (outChannel)
  // ---------------------------------------------------------------------

  /** How the data written to a channel's sink ends. */
  datatype SinkEnd = StillOpen | CleanEnd | ErrorEnd

  /** The values the sink's pipeline maps: each write under flag 2, then the flush signal under flag 3 or 5. */
  function Items(writes: seq<seq<byte>>, end: SinkEnd): (r: seq<Frame>)
    ensures |r| == |writes| + (if end == StillOpen then 0 else 1)
  {
    DataFrames(writes, 2)
    + match end
      case StillOpen => []
      case CleanEnd => [Frame(3, Some(SIGNAL_FLUSH))]
      case ErrorEnd => [Frame(5, Some(SIGNAL_FLUSH))]
  }

  /** The writes as answers of the sink's source. */
  function Answers(writes: seq<seq<byte>>): (r: seq<PullEnd.Read<seq<byte>, string>>)
    ensures |r| == |writes| && PullEnd.NoEnd(r)
    ensures forall i :: 0 <= i < |writes| ==> r[i] == PullEnd.Value(writes[i])
  {
    seq(|writes|, i requires 0 <= i < |writes| => PullEnd.Value(writes[i]))
  }

  /**
   * The sink's end hook sets flag 3 and returns the flush signal: on a
   * clean end it yields exactly the data of the items, writes first.
   */
  lemma CleanEndHook(writes: seq<seq<byte>>)
    ensures var out := PullEnd.Run(PullEnd.Initial, PullEnd.Hook(SIGNAL_FLUSH), Answers(writes) + [PullEnd.End]).1;
      var items := Items(writes, CleanEnd);
      |out| == |items| && forall i :: 0 <= i < |items| ==> out[i] == PullEnd.Value(items[i].data)
  {
    var e: seq<PullEnd.Read<seq<byte>, string>> := [];
    PullEnd.CleanEnd(PullEnd.Hook(SIGNAL_FLUSH), Answers(writes), e);
    assert Answers(writes) + [PullEnd.End] + e == Answers(writes) + [PullEnd.End];
  }

  /** An error end passes the hook by: the error reaches the catch, which sets flag 5 and yields the flush signal instead. */
  lemma ErrorEndHook(writes: seq<seq<byte>>, err: string)
    ensures var out := PullEnd.Run(PullEnd.Initial, PullEnd.Hook(SIGNAL_FLUSH), Answers(writes) + [PullEnd.Failed(err)]).1;
      var items := Items(writes, ErrorEnd);
      && |out| == |items|
      && (forall i :: 0 <= i < |writes| ==> out[i] == PullEnd.Value(items[i].data))
      && out[|writes|] == PullEnd.Failed(err) && items[|writes|] == Frame(5, Some(SIGNAL_FLUSH))
  {
    PullEnd.ErrorEnd(PullEnd.Hook(SIGNAL_FLUSH), Answers(writes), err);
  }

  /** The header of a frame of channel `id` with `flag`. */
  function H(id: nat, flag: nat): (r: seq<byte>)
    requires id < Header.ID_LIMIT && flag < 8
    ensures Header.ReadHeader(r) == Some(Header.Fields(8 * id + flag, flag, id))
  {
    Header.RoundTrip(id, Header.Plain(flag), []);
    assert Header.CreateHeader(id, Header.Plain(flag)) + [] == Header.CreateHeader(id, Header.Plain(flag));
    Header.CreateHeader(id, Header.Plain(flag))
  }

  predicate Sendable(items: seq<Frame>) {
    forall i :: 0 <= i < |items| ==> items[i].flag < 8 && items[i].data.Some?
  }

  /** Each item's buffers: its header, then its data. */
  function Wrap(id: nat, items: seq<Frame>): (r: seq<seq<byte>>)
    requires id < Header.ID_LIMIT && Sendable(items)
    ensures |r| == 2 * |items|
    decreases |items|
  {
    if |items| == 0 then []
    else [H(id, items[0].flag), items[0].data.value] + Wrap(id, items[1..])
  }

  /**
   * The buffers a channel's sink puts out: nothing until the first value;
   * then the open header and the name before the first value's frame; the
   * name defaults to the id's decimal string.
   */
  function OutChannel(id: nat, name: Option<seq<byte>>, writes: seq<seq<byte>>, end: SinkEnd): (r: seq<seq<byte>>)
    requires id < Header.ID_LIMIT
    ensures |writes| == 0 && end == StillOpen ==> r == []
    ensures |writes| > 0 || end != StillOpen ==>
      && |r| == 2 + 2 * (|writes| + (if end == StillOpen then 0 else 1))
      && r[0] == H(id, 0)
      && r[1] == name.GetOr(Decimal.ShowBytes(id))
  {
    var items := Items(writes, end);
    if |items| == 0 then []
    else [H(id, 0), name.GetOr(Decimal.ShowBytes(id))] + Wrap(id, items)
  }

  // ---------------------------------------------------------------------
  // The multiplexer
  // ---------------------------------------------------------------------

  /** An entry of `_streams`: a channel (by its index in `channels`), or null once closed. */
  datatype Slot = Live(index: nat) | Nulled

  /** How a channel's incoming side was aborted by the splitter. */
  datatype Abort = AbortEnd | AbortErr(msg: seq<byte>)

  datatype Channel = Channel(id: int, name: seq<byte>, frames: seq<Frame>, aborted: Option<Abort>)

  /** The events the multiplexer emits. */
  datatype Event = StreamOpened(id: int) | ErrorEvent(msg: seq<byte>)

  datatype Mux = Mux(
    localIds: nat,
    streams: map<int, Slot>,
    /** Every channel created, in order; `_streams` points into it. */
    channels: seq<Channel>,
    /** The channels whose outgoing side was added to the merged source, in order. */
    sources: seq<nat>,
    events: seq<Event>,
    /** Whether an 'error' listener is installed; emitting 'error' without one throws. */
    errorListener: bool)

  predicate Inv(m: Mux) {
    && m.localIds % 2 == 0
    && (forall id :: id in m.streams && m.streams[id].Live? ==>
          m.streams[id].index < |m.channels| && m.channels[m.streams[id].index].id == id)
    && (forall i :: 0 <= i < |m.sources| ==> m.sources[i] < |m.channels|)
  }

  function Create(errorListener: bool): (m: Mux)
    ensures Inv(m) && m.localIds == 0 && m.streams == map[]
  {
    Mux(0, map[], [], [], [], errorListener)
  }

  /** `new Channel(id, name)`: the name defaults to the id's decimal string. */
  function NewChannel(id: int, name: Option<seq<byte>>): (c: Channel)
    ensures c.id == id && c.frames == [] && c.aborted == None
    ensures c.name == (if name.Some? then name.value else IdName(id))
  {
    Channel(id, name.GetOr(IdName(id)), [], None)
  }

  /** `_nextId(initiator)`: take the counter, advance it by two, and add one for an initiator. */
  function NextId(m: Mux, initiator: bool): (r: (Mux, nat))
    requires Inv(m)
    ensures Inv(r.0) && r.0.localIds == m.localIds + 2
    ensures r.1 % 2 == (if initiator then 1 else 0)
    ensures m.localIds <= r.1 < r.0.localIds
    ensures r.0 == m.(localIds := m.localIds + 2)
  {
    var id := m.localIds;
    (m.(localIds := id + 2), if initiator then id + 1 else id)
  }

  /** Register a channel under `id`, replacing whatever was there, and add its outgoing side to the merged source. */
  function Register(m: Mux, c: Channel): (r: (Mux, nat))
    requires Inv(m)
    ensures Inv(r.0) && r.1 == |m.channels| && r.1 < |r.0.channels|
    ensures r.0.channels == m.channels + [c]
    ensures r.0.localIds == m.localIds && r.0.events == m.events && r.0.errorListener == m.errorListener
    ensures r.0.streams == m.streams[c.id := Live(r.1)]
    ensures r.0.sources == m.sources + [r.1]
  {
    var idx := |m.channels|;
    (m.(channels := m.channels + [c], streams := m.streams[c.id := Live(idx)], sources := m.sources + [idx]), idx)
  }

  /**
   * `createStream(id, name)` as written: without an id, it allocates one
   * as an initiator — on every peer alike.
   */
  function CreateStream(m: Mux, id: Option<nat>, name: Option<seq<byte>>): (r: (Mux, nat))
    requires Inv(m)
    ensures Inv(r.0) && r.1 < |r.0.channels|
    ensures id.Some? ==> r.0.channels[r.1].id == id.value && r.0.localIds == m.localIds
    ensures id.None? ==> r.0.channels[r.1].id == m.localIds + 1 && r.0.localIds == m.localIds + 2
    ensures var n := r.0.channels[r.1].id;
      && r.1 == |m.channels|
      && r.0.channels == m.channels + [NewChannel(n, name)]
      && r.0.streams == m.streams[n := Live(r.1)]
      && r.0.sources == m.sources + [r.1]
      && r.0.events == m.events && r.0.errorListener == m.errorListener
  {
    var (m1, n) := if id.Some? then (m, id.value) else NextId(m, true);
    Register(m1, NewChannel(n, name))
  }

  /** `createStream` with the allocating side's role passed through, so that the two peers draw from disjoint ids. */
  function CreateStreamAs(m: Mux, initiator: bool, id: Option<nat>, name: Option<seq<byte>>): (r: (Mux, nat))
    requires Inv(m)
    ensures Inv(r.0) && r.1 < |r.0.channels|
    ensures id.Some? ==> r.0.channels[r.1].id == id.value && r.0.localIds == m.localIds
    ensures id.None? ==> r.0.channels[r.1].id == m.localIds + (if initiator then 1 else 0) && r.0.localIds == m.localIds + 2
    ensures id.None? ==> r.0.channels[r.1].id % 2 == (if initiator then 1 else 0)
    ensures var n := r.0.channels[r.1].id;
      && r.1 == |m.channels|
      && r.0.channels == m.channels + [NewChannel(n, name)]
      && r.0.streams == m.streams[n := Live(r.1)]
      && r.0.sources == m.sources + [r.1]
      && r.0.events == m.events && r.0.errorListener == m.errorListener
  {
    var (m1, n) := if id.Some? then (m, id.value) else NextId(m, initiator);
    Register(m1, NewChannel(n, name))
  }

  /** Ids allocated one after another increase strictly. */
  lemma NextIdIncreases(m: Mux, a: bool, b: bool)
    requires Inv(m)
    ensures NextId(m, a).1 < NextId(NextId(m, a).0, b).1
  {
  }

  /** As written, two fresh peers that each open a stream both choose id 1. */
  lemma PeersCollide()
    ensures CreateStream(Create(true), None, None).0.channels[0].id == 1
  {
  }

  /**
   * As written, a fresh peer that has accepted the other side's stream 1
   * and then opens a stream of its own replaces the accepted channel under
   * id 1: later frames for the other side's stream reach the new channel.
   */
  lemma ReplacesAccepted(m: Mux)
    requires Inv(m) && m.localIds == 0 && IsLive(m, 1)
    ensures var (r, idx) := CreateStream(m, None, None);
      r.streams[1] == Live(idx) && m.streams[1] != Live(idx)
  {
  }

  /** With the role passed through, an initiator's and a receiver's allocated ids never meet. */
  lemma PeersApart(a: Mux, b: Mux, na: Option<seq<byte>>, nb: Option<seq<byte>>)
    requires Inv(a) && Inv(b)
    ensures var (ra, ia) := CreateStreamAs(a, true, None, na);
            var (rb, ib) := CreateStreamAs(b, false, None, nb);
      ra.channels[ia].id != rb.channels[ib].id
  {
  }

  /** With the role passed through, a receiver opening a stream leaves every initiator-allocated (odd) id's entry alone. */
  lemma KeepsPeerStreams(m: Mux, name: Option<seq<byte>>, k: int)
    requires Inv(m) && k % 2 == 1 && k in m.streams
    ensures CreateStreamAs(m, false, None, name).0.streams[k] == m.streams[k]
  {
  }

  /** What the splitter does with one input when nothing throws: the mux afterwards, and the channel the frame was handed to. */
  datatype Split = Split(mux: Mux, routed: Option<nat>)

  /** Why the splitter throws. */
  datatype Crash =
    | BadHeader              // the header's varint does not decode
    | MissingChannel(id: int) // `_streams[id]` is undefined or null
    | NoData                 // an error frame without data
    | UnhandledError(msg: seq<byte>) // 'error' emitted without a listener

  /** One (header, data) pair from the batcher; either part may be missing at the end of the input. */
  datatype Input = Input(header: Option<seq<byte>>, data: Option<seq<byte>>)

  /** Hand a frame to a channel's incoming side. */
  function Deliver(m: Mux, idx: nat, f: Frame): (r: Mux)
    requires idx < |m.channels|
    ensures |r.channels| == |m.channels| && r.channels[idx].frames == m.channels[idx].frames + [f]
    ensures forall i :: 0 <= i < |m.channels| && i != idx ==> r.channels[i] == m.channels[i]
    ensures r.channels[idx].id == m.channels[idx].id && r.channels[idx].aborted == m.channels[idx].aborted
    ensures r.channels[idx].name == m.channels[idx].name
    ensures r.streams == m.streams && r.sources == m.sources && r.events == m.events && r.localIds == m.localIds
    ensures r.errorListener == m.errorListener
    ensures Inv(m) ==> Inv(r)
  {
    var c := m.channels[idx];
    m.(channels := m.channels[idx := c.(frames := c.frames + [f])])
  }

  function AbortChannel(m: Mux, idx: nat, a: Abort): (r: Mux)
    requires idx < |m.channels|
    ensures |r.channels| == |m.channels| && r.channels[idx].aborted == Some(a)
    ensures forall i :: 0 <= i < |m.channels| && i != idx ==> r.channels[i] == m.channels[i]
    ensures r.channels[idx].id == m.channels[idx].id && r.channels[idx].frames == m.channels[idx].frames
    ensures r.streams == m.streams && r.sources == m.sources && r.events == m.events && r.localIds == m.localIds
    ensures r.errorListener == m.errorListener
    ensures Inv(m) ==> Inv(r)
  {
    var c := m.channels[idx];
    m.(channels := m.channels[idx := c.(aborted := Some(a))])
  }

  /** `this._streams[id] = null`: the entry stays, no longer live. */
  function Forget(m: Mux, id: int): (r: Mux)
    requires Inv(m)
    ensures Inv(r) && r.streams == m.streams[id := Nulled]
    ensures r.channels == m.channels && r.sources == m.sources && r.events == m.events
    ensures r.localIds == m.localIds && r.errorListener == m.errorListener
  {
    m.(streams := m.streams[id := Nulled])
  }

  predicate IsLive(m: Mux, id: int) {
    id in m.streams && m.streams[id].Live?
  }

  /**
   * `_split(input)`: an open frame (flag 0) goes to the channel with its id,
   * created — and announced — if there is none; an end or error frame
   * (flags 3 to 6) nulls the entry and aborts the channel, with an error
   * for 5 and 6; any other frame goes to the registered channel. An error
   * frame reads its data (`data.toString()`) before it touches the channel.
   */
  function SplitOne(m: Mux, input: Input): (r: Result<Split, Crash>)
    requires Inv(m)
    ensures r.Ok? ==> Inv(r.value.mux)
    ensures input.header.None? ==> r == Ok(Split(m, None))
  {
    if input.header.None? then Ok(Split(m, None))
    else match Header.ReadHeader(input.header.value)
      case None => Err(BadHeader)
      case Some(fields) =>
        var id, flag := fields.id, fields.flag;
        var f := Frame(flag, input.data);
        if flag == 0 then
          if IsLive(m, id) then
            var idx := m.streams[id].index;
            Ok(Split(Deliver(m, idx, f), Some(idx)))
          else
            var (m1, idx) := Register(m, NewChannel(id, None));
            var m2 := m1.(events := m1.events + [StreamOpened(id)]);
            Ok(Split(Deliver(m2, idx, f), Some(idx)))
        else if 3 <= flag <= 6 then
          if flag > 4 && input.data.None? then Err(NoData)
          else if !IsLive(m, id) then Err(MissingChannel(id))
          else
            var idx := m.streams[id].index;
            var m1 := Forget(m, id);
            if flag > 4 then
              var msg := ErrorMessage(input.data.value);
              var m2 := AbortChannel(m1, idx, AbortErr(msg));
              if !m.errorListener then Err(UnhandledError(msg))
              else Ok(Split(m2.(events := m2.events + [ErrorEvent(msg)]), None))
            else Ok(Split(AbortChannel(m1, idx, AbortEnd), None))
        else if IsLive(m, id) then
          var idx := m.streams[id].index;
          Ok(Split(Deliver(m, idx, f), Some(idx)))
        else Err(MissingChannel(id))
  }

  /** The splitter over a run of inputs, stopping at the first throw. */
  function SplitAll(m: Mux, inputs: seq<Input>): (r: Result<Mux, Crash>)
    requires Inv(m)
    ensures r.Ok? ==> Inv(r.value)
    ensures 0 < |inputs| && SplitOne(m, inputs[0]).Err? ==> r == Err(SplitOne(m, inputs[0]).error)
    decreases |inputs|
  {
    if |inputs| == 0 then Ok(m)
    else match SplitOne(m, inputs[0])
      case Err(e) => Err(e)
      case Ok(s) => SplitAll(s.mux, inputs[1..])
  }

  /** The batcher: consecutive buffers paired as (header, data); a lone last buffer has no data. */
  function Pairs(bufs: seq<seq<byte>>): (r: seq<Input>)
    ensures |r| == (|bufs| + 1) / 2
    ensures forall i :: 0 <= i < |r| ==> r[i].header == Some(bufs[2 * i])
    ensures forall i :: 0 <= i < |r| ==> r[i].data == (if 2 * i + 1 < |bufs| then Some(bufs[2 * i + 1]) else None)
    decreases |bufs|
  {
    if |bufs| == 0 then []
    else if |bufs| == 1 then [Input(Some(bufs[0]), None)]
    else [Input(Some(bufs[0]), Some(bufs[1]))] + Pairs(bufs[2..])
  }

  /** A channel's readable side: what its frames yield, ended by the splitter's abort if it came while still open. */
  function Readable(c: Channel): (r: Outcome)
    ensures r.values == InChannel(c.frames).values
    ensures InChannel(c.frames).end != Open || c.aborted.None? ==> r.end == InChannel(c.frames).end
    ensures InChannel(c.frames).end == Open && c.aborted == Some(AbortEnd) ==> r.end == Done
    ensures InChannel(c.frames).end == Open && c.aborted.Some? && c.aborted.value.AbortErr? ==>
              r.end == Failed(c.aborted.value.msg)
  {
    var o := InChannel(c.frames);
    if o.end != Open || c.aborted.None? then o
    else match c.aborted.value
      case AbortEnd => Outcome(o.values, Done)
      case AbortErr(msg) => Outcome(o.values, Failed(msg))
  }

  /**
   * Any frame other than an open frame, for an id without a live channel,
   * throws on the missing channel — except an error frame without data,
   * which throws on reading the data first.
   */
  lemma MissingThrows(m: Mux, h: seq<byte>, data: Option<seq<byte>>)
    requires Inv(m)
    requires Header.ReadHeader(h).Some? && Header.ReadHeader(h).value.flag != 0
    requires !IsLive(m, Header.ReadHeader(h).value.id)
    ensures var fields := Header.ReadHeader(h).value;
      SplitOne(m, Input(Some(h), data))
        == if 5 <= fields.flag <= 6 && data.None? then Err(NoData) else Err(MissingChannel(fields.id))
  {
  }

  /** An end frame (flag 3 or 4) nulls the entry and ends the channel's incoming side; a later data frame for the id throws. */
  lemma EndNulls(m: Mux, id: nat, flag: nat, data: Option<seq<byte>>, later: seq<byte>)
    requires Inv(m) && IsLive(m, id) && id < Header.ID_LIMIT
    requires flag == 3 || flag == 4
    ensures var r := SplitOne(m, Input(Some(H(id, flag)), data));
      && r.Ok? && r.value.routed == None
      && r.value.mux.streams[id] == Nulled
      && r.value.mux.channels[m.streams[id].index].aborted == Some(AbortEnd)
      && SplitOne(r.value.mux, Input(Some(H(id, 2)), Some(later))) == Err(MissingChannel(id))
  {
  }

  /** An error frame (flag 5 or 6) fails the channel with its data as the message — "Channel destroyed" if empty — and emits 'error'. */
  lemma ErrorFails(m: Mux, id: nat, flag: nat, data: seq<byte>)
    requires Inv(m) && IsLive(m, id) && id < Header.ID_LIMIT && m.errorListener
    requires flag == 5 || flag == 6
    ensures var r := SplitOne(m, Input(Some(H(id, flag)), Some(data)));
      && r.Ok?
      && r.value.mux.streams[id] == Nulled
      && r.value.mux.channels[m.streams[id].index].aborted == Some(AbortErr(ErrorMessage(data)))
      && r.value.mux.events == m.events + [ErrorEvent(ErrorMessage(data))]
  {
  }

  /** Without an 'error' listener, an error frame (flag 5 or 6) throws. */
  lemma ErrorWithoutListener(m: Mux, id: nat, flag: nat, data: seq<byte>)
    requires Inv(m) && IsLive(m, id) && id < Header.ID_LIMIT && !m.errorListener
    requires flag == 5 || flag == 6
    ensures SplitOne(m, Input(Some(H(id, flag)), Some(data))) == Err(UnhandledError(ErrorMessage(data)))
  {
  }

  /** An open frame for an id already live reuses its channel, announcing nothing. */
  lemma OpenReuses(m: Mux, id: nat, name: seq<byte>)
    requires Inv(m) && IsLive(m, id) && id < Header.ID_LIMIT
    ensures var r := SplitOne(m, Input(Some(H(id, 0)), Some(name)));
      && r.Ok? && r.value.routed == Some(m.streams[id].index)
      && r.value.mux.events == m.events
      && r.value.mux.streams == m.streams
  {
  }

  /** What the batcher hands the splitter for a run of sendable items: one (header, data) pair each. */
  function Inputs(id: nat, items: seq<Frame>): (r: seq<Input>)
    requires id < Header.ID_LIMIT && Sendable(items)
    ensures |r| == |items|
    decreases |items|
  {
    if |items| == 0 then []
    else [Input(Some(H(id, items[0].flag)), items[0].data)] + Inputs(id, items[1..])
  }

  lemma {:induction false} PairsWrap(id: nat, items: seq<Frame>)
    requires id < Header.ID_LIMIT && Sendable(items)
    ensures Pairs(Wrap(id, items)) == Inputs(id, items)
    decreases |items|
  {
    if |items| > 0 {
      var w := Wrap(id, items);
      assert w[2..] == Wrap(id, items[1..]);
      PairsWrap(id, items[1..]);
    }
  }

  /** The batcher pairs a channel's output into the open pair (header, name), then one pair per write and one for the end. */
  lemma OutChannelPairs(id: nat, name: Option<seq<byte>>, writes: seq<seq<byte>>, end: SinkEnd)
    requires id < Header.ID_LIMIT
    requires |writes| > 0 || end != StillOpen
    ensures Pairs(OutChannel(id, name, writes, end))
         == [Input(Some(H(id, 0)), Some(name.GetOr(Decimal.ShowBytes(id))))] + Inputs(id, Items(writes, end))
  {
    var out := OutChannel(id, name, writes, end);
    assert out[2..] == Wrap(id, Items(writes, end));
    PairsWrap(id, Items(writes, end));
  }

  lemma ItemsCons(writes: seq<seq<byte>>, end: SinkEnd)
    requires |writes| > 0
    ensures Items(writes, end) == [Frame(2, Some(writes[0]))] + Items(writes[1..], end)
  {
    assert DataFrames(writes, 2) == [Frame(2, Some(writes[0]))] + DataFrames(writes[1..], 2);
  }

  /**
   * A data pair (flag 1 or 2, or the unassigned flag 7) for a live channel
   * hands the channel the frame, and the splitter goes on with the rest.
   */
  lemma StepData(m: Mux, id: nat, flag: nat, data: Option<seq<byte>>, rest: seq<Input>)
    requires Inv(m) && IsLive(m, id) && id < Header.ID_LIMIT
    requires flag == 1 || flag == 2 || flag == 7
    ensures Inv(Deliver(m, m.streams[id].index, Frame(flag, data)))
    ensures SplitAll(m, [Input(Some(H(id, flag)), data)] + rest)
         == SplitAll(Deliver(m, m.streams[id].index, Frame(flag, data)), rest)
  {
    var ins := [Input(Some(H(id, flag)), data)] + rest;
    assert ins[0] == Input(Some(H(id, flag)), data) && ins[1..] == rest;
  }

  /** The mux after a live channel's end pair: entry nulled, channel aborted, and an 'error' event for an error end. */
  function EndStep(m: Mux, id: nat, end: SinkEnd): (r: Mux)
    requires Inv(m) && IsLive(m, id)
    ensures Inv(r)
  {
    var idx := m.streams[id].index;
    match end
    case StillOpen => m
    case CleanEnd => AbortChannel(Forget(m, id), idx, AbortEnd)
    case ErrorEnd =>
      var m2 := AbortChannel(Forget(m, id), idx, AbortErr(SIGNAL_FLUSH));
      m2.(events := m2.events + [ErrorEvent(SIGNAL_FLUSH)])
  }

  /** The end pair of a channel aborts it — with the flush signal as the error for flag 5 — and nulls its entry. */
  lemma StepEnd(m: Mux, id: nat, end: SinkEnd)
    requires Inv(m) && m.errorListener && IsLive(m, id) && id < Header.ID_LIMIT
    requires end != StillOpen
    ensures SplitAll(m, [Input(Some(H(id, if end == CleanEnd then 3 else 5)), Some(SIGNAL_FLUSH))]) == Ok(EndStep(m, id, end))
  {
    var flag := if end == CleanEnd then 3 else 5;
    var ins := [Input(Some(H(id, flag)), Some(SIGNAL_FLUSH))];
    assert ins[0] == Input(Some(H(id, flag)), Some(SIGNAL_FLUSH)) && ins[1..] == [];
    assert ErrorMessage(SIGNAL_FLUSH) == SIGNAL_FLUSH;
  }

  /** What the end step does to the channel: it keeps its id, name and frames and takes the abort the end calls for. */
  lemma EndStepChannel(m: Mux, id: nat, end: SinkEnd)
    requires Inv(m) && IsLive(m, id)
    requires m.channels[m.streams[id].index].aborted == None
    ensures var idx := m.streams[id].index;
      var r := EndStep(m, id, end);
      && |r.channels| == |m.channels|
      && r.channels[idx] == m.channels[idx].(aborted := EndAbort(end))
      && r.events == m.events + (if end == ErrorEnd then [ErrorEvent(SIGNAL_FLUSH)] else [])
  {
  }

  /** An open frame for an id that is not live registers a new channel named by the id, announces it, and hands it the frame. */
  lemma StepOpen(m: Mux, id: nat, name: seq<byte>, rest: seq<Input>)
    returns (m1: Mux)
    requires Inv(m) && !IsLive(m, id) && id < Header.ID_LIMIT
    ensures Inv(m1)
    ensures SplitAll(m, [Input(Some(H(id, 0)), Some(name))] + rest) == SplitAll(m1, rest)
    ensures m1.channels == m.channels + [Channel(id, IdName(id), [Frame(0, Some(name))], None)]
    ensures m1.streams == m.streams[id := Live(|m.channels|)]
    ensures m1.events == m.events + [StreamOpened(id)]
    ensures m1.errorListener == m.errorListener
  {
    var ins := [Input(Some(H(id, 0)), Some(name))] + rest;
    assert ins[0] == Input(Some(H(id, 0)), Some(name)) && ins[1..] == rest;
    var (r1, idx) := Register(m, NewChannel(id, None));
    var r2 := r1.(events := r1.events + [StreamOpened(id)]);
    m1 := Deliver(r2, idx, Frame(0, Some(name)));
    assert [] + [Frame(0, Some(name))] == [Frame(0, Some(name))];
    assert m1.channels == m.channels + [Channel(id, IdName(id), [Frame(0, Some(name))], None)];
  }

  /** The mux after the splitter hands live channel `id` each write and then its end pair. */
  function Feed(m: Mux, id: nat, writes: seq<seq<byte>>, end: SinkEnd): (r: Mux)
    requires Inv(m) && IsLive(m, id)
    ensures Inv(r)
    decreases |writes|
  {
    if |writes| == 0 then EndStep(m, id, end)
    else Feed(Deliver(m, m.streams[id].index, Frame(2, Some(writes[0]))), id, writes[1..], end)
  }

  /**
   * The splitter over a channel's data pairs and its end pair: the channel
   * is handed every write, then aborted as the end says.
   */
  lemma {:induction false} FeedWrites(m: Mux, id: nat, writes: seq<seq<byte>>, end: SinkEnd)
    requires Inv(m) && m.errorListener && IsLive(m, id) && id < Header.ID_LIMIT
    ensures SplitAll(m, Inputs(id, Items(writes, end))) == Ok(Feed(m, id, writes, end))
    decreases |writes|
  {
    if |writes| > 0 {
      InputsCons(id, writes, end);
      StepData(m, id, 2, Some(writes[0]), Inputs(id, Items(writes[1..], end)));
      FeedWrites(Deliver(m, m.streams[id].index, Frame(2, Some(writes[0]))), id, writes[1..], end);
    } else {
      FeedEnd(m, id, end);
    }
  }

  lemma InputsCons(id: nat, writes: seq<seq<byte>>, end: SinkEnd)
    requires id < Header.ID_LIMIT && |writes| > 0
    ensures Inputs(id, Items(writes, end)) == [Input(Some(H(id, 2)), Some(writes[0]))] + Inputs(id, Items(writes[1..], end))
  {
    ItemsCons(writes, end);
    var items := Items(writes, end);
    assert items[1..] == Items(writes[1..], end);
  }

  /** The end pair alone. */
  lemma FeedEnd(m: Mux, id: nat, end: SinkEnd)
    requires Inv(m) && m.errorListener && IsLive(m, id) && id < Header.ID_LIMIT
    ensures SplitAll(m, Inputs(id, Items([], end))) == Ok(EndStep(m, id, end))
  {
    if end == StillOpen {
      assert Inputs(id, Items([], end)) == [];
    } else {
      var flag := if end == CleanEnd then 3 else 5;
      assert Items([], end) == [Frame(flag, Some(SIGNAL_FLUSH))];
      assert Inputs(id, Items([], end)) == [Input(Some(H(id, flag)), Some(SIGNAL_FLUSH))];
      StepEnd(m, id, end);
    }
  }

  /** What feeding does to the channel: every write appended as a data frame, then the abort the end calls for. */
  lemma {:induction false} FeedChannel(m: Mux, id: nat, writes: seq<seq<byte>>, end: SinkEnd)
    requires Inv(m) && IsLive(m, id)
    requires m.channels[m.streams[id].index].aborted == None
    ensures Fed(m, Feed(m, id, writes, end), m.streams[id].index, writes, end)
    decreases |writes|
  {
    var idx := m.streams[id].index;
    if |writes| > 0 {
      var m1 := Deliver(m, idx, Frame(2, Some(writes[0])));
      FeedChannel(m1, id, writes[1..], end);
      FedStep(m, m1, Feed(m1, id, writes[1..], end), idx, writes, end);
    } else {
      EndStepChannel(m, id, end);
      assert DataFrames(writes, 2) == [];
      assert m.channels[idx].frames + DataFrames(writes, 2) == m.channels[idx].frames;
    }
  }

  /** What the peer's abort leaves on a channel, by the way its sender ended. */
  function EndAbort(end: SinkEnd): Option<Abort> {
    match end
    case StillOpen => None
    case CleanEnd => Some(AbortEnd)
    case ErrorEnd => Some(AbortErr(SIGNAL_FLUSH))
  }

  /**
   * The splitter has fed channel `idx` of `m` the writes and the end: `r`
   * holds the same channels, with the data frames appended to that one and
   * its abort set, and an error event for an error end.
   */
  predicate Fed(m: Mux, r: Mux, idx: nat, writes: seq<seq<byte>>, end: SinkEnd)
    requires idx < |m.channels|
  {
    && |r.channels| == |m.channels|
    && r.channels[idx].id == m.channels[idx].id
    && r.channels[idx].name == m.channels[idx].name
    && r.channels[idx].frames == m.channels[idx].frames + DataFrames(writes, 2)
    && r.channels[idx].aborted == EndAbort(end)
    && r.events == m.events + (if end == ErrorEnd then [ErrorEvent(SIGNAL_FLUSH)] else [])
  }

  lemma FedStep(m: Mux, m1: Mux, r: Mux, idx: nat, writes: seq<seq<byte>>, end: SinkEnd)
    requires idx < |m.channels| && |writes| > 0
    requires m1 == Deliver(m, idx, Frame(2, Some(writes[0])))
    requires Fed(m1, r, idx, writes[1..], end)
    ensures Fed(m, r, idx, writes, end)
  {
    FramesCons(m.channels[idx].frames, writes);
  }

  lemma FramesCons(fs: seq<Frame>, writes: seq<seq<byte>>)
    requires |writes| > 0
    ensures fs + DataFrames(writes, 2) == (fs + [Frame(2, Some(writes[0]))]) + DataFrames(writes[1..], 2)
  {
    assert DataFrames(writes, 2) == [Frame(2, Some(writes[0]))] + DataFrames(writes[1..], 2);
  }

  /**
   * One channel's output, paired and split by a peer that has no live
   * channel under its id, opens one channel there, named by the id — the
   * name sent is not used — which reads back every write, in order. A
   * clean end ends it; an error end fails it with the flush signal as its
   * message.
   */
  lemma PeerReads(p: Mux, id: nat, name: Option<seq<byte>>, writes: seq<seq<byte>>, end: SinkEnd)
    requires Inv(p) && p.errorListener && !IsLive(p, id) && id < Header.ID_LIMIT
    requires |writes| > 0 || end != StillOpen
    ensures var r := SplitAll(p, Pairs(OutChannel(id, name, writes, end)));
      && r.Ok?
      && |r.value.channels| == |p.channels| + 1
      && var c := r.value.channels[|p.channels|];
      && c.id == id && c.name == Decimal.ShowBytes(id)
      && Readable(c) == Outcome(writes, match end case StillOpen => Open case CleanEnd => Done case ErrorEnd => Failed(SIGNAL_FLUSH))
      && r.value.events == p.events + [StreamOpened(id)] + (if end == ErrorEnd then [ErrorEvent(SIGNAL_FLUSH)] else [])
  {
    var nm := name.GetOr(Decimal.ShowBytes(id));
    var idx := |p.channels|;
    var rest := Inputs(id, Items(writes, end));
    OutChannelPairs(id, name, writes, end);
    var m0 := StepOpen(p, id, nm, rest);
    assert m0.channels[idx] == Channel(id, IdName(id), [Frame(0, Some(nm))], None);
    assert m0.streams[id].index == idx;
    FeedWrites(m0, id, writes, end);
    FeedChannel(m0, id, writes, end);
    var r := Feed(m0, id, writes, end);
    assert SplitAll(p, Pairs(OutChannel(id, name, writes, end))) == SplitAll(m0, rest) == Ok(r);
    var c := r.channels[idx];
    assert c.frames == [Frame(0, Some(nm))] + DataFrames(writes, 2);
    ReadsBack(c, nm, writes, end);
  }

  lemma ReadsBack(c: Channel, nm: seq<byte>, writes: seq<seq<byte>>, end: SinkEnd)
    requires c.frames == [Frame(0, Some(nm))] + DataFrames(writes, 2)
    requires c.aborted == EndAbort(end)
    ensures Readable(c) == Outcome(writes, match end case StillOpen => Open case CleanEnd => Done case ErrorEnd => Failed(SIGNAL_FLUSH))
  {
    InChannelData(nm, writes);
  }

  /** Every frame handed to a channel so far is an open or data frame: end and error frames never reach a channel. */
  predicate OnlyOpenAndData(m: Mux) {
    forall i, j :: 0 <= i < |m.channels| && 0 <= j < |m.channels[i].frames| ==> !(3 <= m.channels[i].frames[j].flag <= 6)
  }

  lemma SplitOneKeeps(m: Mux, input: Input)
    requires Inv(m) && OnlyOpenAndData(m)
    ensures SplitOne(m, input).Ok? ==> OnlyOpenAndData(SplitOne(m, input).value.mux)
  {
  }

  /**
   * The splitter keeps end and error frames from the channels, so a
   * channel's incoming side never stalls or fails on a frame of its own:
   * it ends only through the splitter's abort.
   */
  lemma {:induction false} SplitAllKeeps(m: Mux, inputs: seq<Input>)
    requires Inv(m) && OnlyOpenAndData(m)
    ensures var r := SplitAll(m, inputs);
      r.Ok? ==> OnlyOpenAndData(r.value) && forall i :: 0 <= i < |r.value.channels| ==> Readable(r.value.channels[i]).end !in {Stalled, Crashed}
    decreases |inputs|
  {
    if |inputs| > 0 {
      SplitOneKeeps(m, inputs[0]);
      if SplitOne(m, inputs[0]).Ok? {
        SplitAllKeeps(SplitOne(m, inputs[0]).value.mux, inputs[1..]);
      }
    } else {
      forall i | 0 <= i < |m.channels| ensures Readable(m.channels[i]).end !in {Stalled, Crashed} {
        assert forall j :: 0 <= j < |m.channels[i].frames| ==> !(3 <= m.channels[i].frames[j].flag <= 6);
      }
    }
  }
}

=== FILE: muxer.dfy ===
/**
 * The muxer (src/index.ts, src/mplex.js): it hands out sequential stream
 * ids, keeps initiator and receiver streams in two registries, forwards
 * what its streams send to one outbound queue, dispatches incoming frames
 * to streams, and aborts every stream when the outbound queue ends.
 *
 * Streams are the values of the `Stream` module; a stream's `send` and
 * `onEnd` hooks are the muxer's `Commit`.
 */
module Muxer {
  import opened Wrappers
  import opened Varint
  import opened Message
  import opened Registry
  import Stream
  import RestrictSize
  import Decimal
  import Frame

  /** Whether an `onStream` handler is installed, and the `maxMsgSize` option. */
  datatype Options = Options(onStream: bool, maxMsgSize: Option<nat>)

  /** Why the muxer's inbound side stops. */
  datatype Error =
    | Duplicate(direction: Direction, id: nat)  // `${type} stream ${id} already exists!`
    | MsgTooBig                                 // ERR_MSG_TOO_BIG from the size guard
    | Failed(reason: Stream.Error)              // the connection's source failed

  /** The error streams are aborted with when the inbound side stops with `e`. */
  function Reason(e: Error): Stream.Error {
    match e
    case Duplicate(_, _) => Stream.Other("stream already exists")
    case MsgTooBig => Stream.Other("ERR_MSG_TOO_BIG")
    case Failed(r) => r
  }

  datatype Muxer = Muxer(
    options: Options,
    nextId: nat,
    initiators: Registry<Stream.Stream>,
    receivers: Registry<Stream.Stream>,
    /** Messages pushed to the outbound queue before it ended. */
    outbox: seq<Message>,
    outEnded: bool,
    outError: Option<Stream.Error>,
    /** Ids of the streams handed to `onStream`. */
    accepted: seq<nat>,
    /** The streams `onEnd` removed, in order (`onStreamEnd`). */
    streamEnds: seq<(Direction, nat)>,
    /** Those streams as they were when they ended: the objects handed to `onStreamEnd`, still held by their users. */
    endedStreams: seq<Stream.Stream>)

  function Registered(m: Muxer, d: Direction): Registry<Stream.Stream> {
    if d == Initiator then m.initiators else m.receivers
  }

  function WithRegistry(m: Muxer, d: Direction, r: Registry<Stream.Stream>): (m': Muxer)
    ensures Registered(m', d) == r && Registered(m', Opposite(d)) == Registered(m, Opposite(d))
  {
    if d == Initiator then m.(initiators := r) else m.(receivers := r)
  }

  /** A registered stream: under its own id, in the registry of its direction, well-behaved and not yet ended. */
  predicate GoodEntry(d: Direction, e: Entry<Stream.Stream>) {
    && e.value.id == e.key
    && e.value.direction == d
    && Stream.Inv(e.value)
    && e.value.onEndCalls == []
  }

  predicate RegistryOk(r: Registry<Stream.Stream>, d: Direction) {
    Distinct(r) && forall e :: e in r ==> GoodEntry(d, e)
  }

  /** The muxer invariant; initiator ids are all below the next id to hand out. */
  predicate Inv(m: Muxer) {
    && m.options.maxMsgSize != Some(0)
    && RegistryOk(m.initiators, Initiator)
    && RegistryOk(m.receivers, Receiver)
    && (forall e :: e in m.initiators ==> e.key < m.nextId)
  }

  function Create(options: Options): (m: Muxer)
    requires options.maxMsgSize != Some(0)
    ensures Inv(m) && m.nextId == 0 && Streams(m) == []
  {
    Muxer(options, 0, [], [], [], false, None, [], [], [])
  }

  /** The `streams` getter: initiator streams, then receiver streams, each in insertion order. */
  function Streams(m: Muxer): (r: seq<Stream.Stream>)
    ensures |r| == |m.initiators| + |m.receivers|
    ensures forall i :: 0 <= i < |m.initiators| ==> r[i] == m.initiators[i].value
    ensures forall i :: 0 <= i < |m.receivers| ==> r[|m.initiators| + i] == m.receivers[i].value
  {
    Values(m.initiators) + Values(m.receivers)
  }

  /**
   * A stream's hooks after it changed from `before` to `after`: whatever
   * it sent is pushed to the outbound queue (dropped once that has ended),
   * and if its `onEnd` ran, its id is deleted from its registry; otherwise
   * the registry holds its new state.
   */
  function Commit(m: Muxer, d: Direction, before: Stream.Stream, after: Stream.Stream): Muxer
    requires Distinct(Registered(m, d)) && before.sent <= after.sent
  {
    var out := if m.outEnded then m.outbox else m.outbox + after.sent[|before.sent|..];
    if |after.onEndCalls| > |before.onEndCalls| then
      WithRegistry(m, d, Delete(Registered(m, d), after.id)).(outbox := out, streamEnds := m.streamEnds + [(d, after.id)],
                                                              endedStreams := m.endedStreams + [after])
    else
      WithRegistry(m, d, Set(Registered(m, d), after.id, after)).(outbox := out)
  }

  /** One event on a registered stream, as seen by the muxer. */
  function Apply(m: Muxer, d: Direction, s: Stream.Stream, ev: Stream.Event): (r: Muxer)
    requires Inv(m) && Entry(s.id, s) in Registered(m, d)
    requires Stream.Enabled(s, ev) && 0 < s.maxMsgSize && Stream.Step(s, ev).Ok?
    ensures Inv(r)
    ensures r.options == m.options && r.nextId == m.nextId && r.outEnded == m.outEnded && r.accepted == m.accepted
    ensures Registered(r, Opposite(d)) == Registered(m, Opposite(d))
  {
    Stream.SentOnlyGrows(s, ev);
    var after := Stream.Step(s, ev).value;
    CommitInv(m, d, s, ev);
    Commit(m, d, s, after)
  }

  lemma CommitInv(m: Muxer, d: Direction, s: Stream.Stream, ev: Stream.Event)
    requires Inv(m) && Entry(s.id, s) in Registered(m, d)
    requires Stream.Enabled(s, ev) && 0 < s.maxMsgSize && Stream.Step(s, ev).Ok?
    requires s.sent <= Stream.Step(s, ev).value.sent
    ensures Inv(Commit(m, d, s, Stream.Step(s, ev).value))
  {
    var after := Stream.Step(s, ev).value;
    assert GoodEntry(d, Entry(s.id, s));
    Stream.StepInv(s, ev);
    Stream.StepKeepsIdentity(s, ev);
    var r := Registered(m, d);
    var r' := Registered(Commit(m, d, s, after), d);
    if |after.onEndCalls| > |s.onEndCalls| {
      DeleteDistinct(r, after.id);
    } else {
      SetDistinct(r, after.id, after);
      assert GoodEntry(d, Entry(after.id, after));
      if d == Initiator {
        assert Entry(s.id, s) in m.initiators;
      }
    }
  }

  /** The outcome of opening a stream: the muxer afterwards, and the new stream's id or the error thrown. */
  datatype Opened = Opened(muxer: Muxer, result: Result<nat, Error>)

  /**
   * `newStream(name)`: take the next id (the counter advances even if the
   * call then throws), name the stream after its id unless a name is
   * given, and register an initiator stream under that id.
   */
  function NewStream(m: Muxer, name: Option<seq<byte>>): (r: Opened)
    requires Inv(m)
    ensures r.muxer.nextId == m.nextId + 1
    ensures r.muxer.(nextId := m.nextId, initiators := m.initiators) == m
    ensures r.result.Ok? ==> r.result.value == m.nextId && Has(r.muxer.initiators, m.nextId)
    ensures r.result.Err? <==> Has(m.initiators, m.nextId)
    ensures r.result.Err? ==> r.muxer.initiators == m.initiators
    ensures r.result.Ok? ==>
              r.muxer.initiators == m.initiators + [Entry(m.nextId, NewInitiator(m, name))]
  {
    var id := m.nextId;
    var m1 := m.(nextId := id + 1);
    if Has(m.initiators, id) then Opened(m1, Err(Duplicate(Initiator, id)))
    else
      var s := NewInitiator(m, name);
      assert Entry(id, s) in Set(m.initiators, id, s);
      Opened(m1.(initiators := Set(m.initiators, id, s)), Ok(id))
  }

  /** The stream `newStream(name)` creates: an initiator under the next id, named after it unless a name is given. */
  function NewInitiator(m: Muxer, name: Option<seq<byte>>): (s: Stream.Stream)
    requires Inv(m)
    ensures Stream.Inv(s) && s.id == m.nextId && s.direction == Initiator && s.sent == [] && s.onEndCalls == []
    ensures s.name == (if name.Some? then name.value else Decimal.ShowBytes(m.nextId))
  {
    Stream.Create(m.nextId, Some(name.GetOr(Decimal.ShowBytes(m.nextId))), Some(Initiator), m.options.maxMsgSize)
  }

  /** Initiator ids never collide: `newStream` never throws, and appends its stream at the end of the registry. */
  lemma NewStreamSucceeds(m: Muxer, name: Option<seq<byte>>)
    requires Inv(m)
    ensures var r := NewStream(m, name);
      && r.result == Ok(m.nextId)
      && Inv(r.muxer)
      && Keys(r.muxer.initiators) == Keys(m.initiators) + [m.nextId]
      && r.muxer.initiators == m.initiators + [Entry(m.nextId, NewInitiator(m, name))]
      && Get(r.muxer.initiators, m.nextId).value.name == (if name.Some? then name.value else Decimal.ShowBytes(m.nextId))
  {
    var id := m.nextId;
    var s := NewInitiator(m, name);
    var r := NewStream(m, name);
    SetDistinct(m.initiators, id, s);
    assert r.muxer.initiators == m.initiators + [Entry(id, s)];
    assert Keys(m.initiators + [Entry(id, s)]) == Keys(m.initiators) + [id];
    assert GoodEntry(Initiator, Entry(id, s));
    GetView(r.muxer.initiators, id);
    SetView(m.initiators, id, s);
  }

  /** The stream event an incoming frame type triggers: MESSAGE pushes data, CLOSE closes, RESET resets; other types are ignored. */
  function IncomingEvent(msg: Message): (ev: Option<Stream.Event>)
    ensures ev.Some? <==> 1 <= msg.kind <= 6
    ensures ev.Some? ==> !ev.value.SinkItem? && !ev.value.SinkDone? && !ev.value.SinkOpen?
  {
    if msg.kind == MESSAGE_INITIATOR || msg.kind == MESSAGE_RECEIVER then Some(Stream.PushEv(msg.data.GetOr([])))
    else if msg.kind == CLOSE_INITIATOR || msg.kind == CLOSE_RECEIVER then Some(Stream.CloseEv)
    else if msg.kind == RESET_INITIATOR || msg.kind == RESET_RECEIVER then Some(Stream.ResetEv)
    else None
  }

  /** The muxer after one incoming frame, or the error that stops the inbound side. */
  datatype Handled = Handled(muxer: Muxer, error: Option<Error>)

  /**
   * `_handleIncoming`: with an `onStream` handler, NEW_STREAM registers a
   * receiver stream named by the frame's data, throwing if the id is
   * taken. Any other frame goes to the initiator registry when its type is
   * odd, the receiver registry when even; a frame for an unknown id is
   * dropped.
   */
  function HandleIncoming(m: Muxer, msg: Message): (r: Handled)
    requires Inv(m)
    ensures Inv(r.muxer)
    ensures r.error.Some? ==> r.muxer == m
    ensures r.muxer.outEnded == m.outEnded && r.muxer.options == m.options
  {
    if msg.kind == NEW_STREAM && m.options.onStream then Accept(m, msg) else Handled(Dispatch(m, msg), None)
  }

  /** NEW_STREAM with an `onStream` handler: register a receiver stream, or throw if its id is taken. */
  function Accept(m: Muxer, msg: Message): (r: Handled)
    requires Inv(m)
    ensures Inv(r.muxer)
    ensures r.error.Some? ==> r.muxer == m
    ensures r.muxer.outEnded == m.outEnded && r.muxer.options == m.options
  {
    if Has(m.receivers, msg.id) then Handled(m, Some(Duplicate(Receiver, msg.id)))
    else
      var s := Stream.Create(msg.id, Some(msg.data.GetOr([])), Some(Receiver), m.options.maxMsgSize);
      SetDistinct(m.receivers, msg.id, s);
      Handled(m.(receivers := Set(m.receivers, msg.id, s), accepted := m.accepted + [msg.id]), None)
  }

  /** Any other frame: look its id up in the registry its type's low bit selects, and apply the frame's event. */
  function Dispatch(m: Muxer, msg: Message): (r: Muxer)
    requires Inv(m)
    ensures Inv(r)
    ensures r.outEnded == m.outEnded && r.options == m.options
  {
    var d := Route(msg.kind);
    var found := Get(Registered(m, d), msg.id);
    var ev := IncomingEvent(msg);
    if found.None? || ev.None? then m
    else
      assert GoodEntry(d, Entry(msg.id, found.value));
      Apply(m, d, found.value, ev.value)
  }

  /** A peer's NEW_STREAM for a receiver id already in use stops the inbound side, changing nothing. */
  lemma DuplicateReceiver(m: Muxer, msg: Message)
    requires Inv(m) && m.options.onStream && msg.kind == NEW_STREAM && Has(m.receivers, msg.id)
    ensures HandleIncoming(m, msg) == Handled(m, Some(Duplicate(Receiver, msg.id)))
  {
  }

  /** An accepted NEW_STREAM adds one receiver stream, named by the frame's data, at the end of the registry. */
  lemma AcceptStream(m: Muxer, msg: Message)
    requires Inv(m) && m.options.onStream && msg.kind == NEW_STREAM && !Has(m.receivers, msg.id)
    ensures var r := HandleIncoming(m, msg).muxer;
      && r.receivers == m.receivers + [Entry(msg.id, Stream.Create(msg.id, Some(msg.data.GetOr([])), Some(Receiver), m.options.maxMsgSize))]
      && r.initiators == m.initiators
      && r.accepted == m.accepted + [msg.id]
  {
  }

  /** A frame for an id with no stream in its registry changes nothing. */
  lemma UnknownIdDropped(m: Muxer, msg: Message)
    requires Inv(m) && !(msg.kind == NEW_STREAM && m.options.onStream)
    requires !Has(Registered(m, Route(msg.kind)), msg.id)
    ensures HandleIncoming(m, msg) == Handled(m, None)
  {
  }

  /** MESSAGE for a registered stream pushes its data onto the stream's read queue; nothing is sent or ended. */
  lemma DispatchMessage(m: Muxer, msg: Message, s: Stream.Stream)
    requires Inv(m) && (msg.kind == MESSAGE_RECEIVER || msg.kind == MESSAGE_INITIATOR)
    requires Get(Registered(m, Route(msg.kind)), msg.id) == Some(s)
    ensures var h := HandleIncoming(m, msg);
      && h.error == None
      && Get(Registered(h.muxer, Route(msg.kind)), msg.id) == Some(Stream.Push(s, msg.data.GetOr([])))
      && h.muxer.outbox == m.outbox
      && h.muxer.streamEnds == m.streamEnds
  {
    var d := Route(msg.kind);
    assert GoodEntry(d, Entry(msg.id, s));
    var ev := Stream.PushEv(msg.data.GetOr([]));
    assert IncomingEvent(msg) == Some(ev);
    var after := Stream.Push(s, msg.data.GetOr([]));
    assert Stream.Step(s, ev) == Ok(after);
    assert Dispatch(m, msg) == Apply(m, d, s, ev);
    CommitUnended(m, d, s, after);
    GetSet(Registered(m, d), msg.id, after);
  }

  /** A change that ends nothing and sends nothing only replaces the stream's entry. */
  lemma CommitUnended(m: Muxer, d: Direction, before: Stream.Stream, after: Stream.Stream)
    requires Distinct(Registered(m, d)) && after.sent == before.sent && after.onEndCalls == before.onEndCalls
    ensures Commit(m, d, before, after) == WithRegistry(m, d, Set(Registered(m, d), after.id, after))
  {
    assert after.sent[|before.sent|..] == [];
    assert m.outbox + [] == m.outbox;
  }

  /**
   * CLOSE or RESET for a registered stream calls its `close` or `reset`,
   * which end both halves: the stream is dropped from its registry and its
   * end reported, and whatever it sends on the way reaches the queue while
   * the queue is open.
   */
  lemma DispatchEnd(m: Muxer, msg: Message, s: Stream.Stream)
    requires Inv(m) && CLOSE_RECEIVER <= msg.kind <= RESET_INITIATOR
    requires Get(Registered(m, Route(msg.kind)), msg.id) == Some(s)
    ensures var ev := if msg.kind <= CLOSE_INITIATOR then Stream.CloseEv else Stream.ResetEv;
      && IncomingEvent(msg) == Some(ev)
      && Stream.Inv(s) && 0 < s.maxMsgSize && Stream.Step(s, ev).Ok?
      && var h := HandleIncoming(m, msg);
      && h.error == None
      && !Has(Registered(h.muxer, Route(msg.kind)), msg.id)
      && h.muxer.streamEnds == m.streamEnds + [(Route(msg.kind), msg.id)]
      && h.muxer.endedStreams == m.endedStreams + [Stream.Step(s, ev).value]
      && h.muxer.outbox == (if m.outEnded then m.outbox else m.outbox + Stream.NewSends(s, ev))
  {
    var d := Route(msg.kind);
    assert GoodEntry(d, Entry(msg.id, s));
    var ev := if msg.kind <= CLOSE_INITIATOR then Stream.CloseEv else Stream.ResetEv;
    Stream.EndingEvent(s, ev);
    var after := Stream.Step(s, ev).value;
    assert IncomingEvent(msg) == Some(ev);
    assert Dispatch(m, msg) == Apply(m, d, s, ev);
    var sends := Stream.NewSends(s, ev);
    assert after.sent[|s.sent|..] == sends;
    CommitEnded(m, d, s, after);
  }

  /** A change that ends the stream drops its entry and hands it to `onStreamEnd`. */
  lemma CommitEnded(m: Muxer, d: Direction, before: Stream.Stream, after: Stream.Stream)
    requires Distinct(Registered(m, d)) && before.sent <= after.sent && |after.onEndCalls| > |before.onEndCalls|
    ensures var r := Commit(m, d, before, after);
      && Registered(r, d) == Delete(Registered(m, d), after.id)
      && r.outbox == (if m.outEnded then m.outbox else m.outbox + after.sent[|before.sent|..])
      && r.streamEnds == m.streamEnds + [(d, after.id)]
      && r.endedStreams == m.endedStreams + [after]
  {
  }

  /** CLOSE on a stream whose sink is running answers with CLOSE, when the queue is open. */
  lemma DispatchClose(m: Muxer, msg: Message, s: Stream.Stream)
    requires Inv(m) && !m.outEnded && (msg.kind == CLOSE_RECEIVER || msg.kind == CLOSE_INITIATOR)
    requires Get(Registered(m, Route(msg.kind)), msg.id) == Some(s) && Stream.Running(s)
    ensures HandleIncoming(m, msg).muxer.outbox == m.outbox + [Message(msg.id, Types(Route(msg.kind)).close, None)]
  {
    DispatchEnd(m, msg, s);
    assert GoodEntry(Route(msg.kind), Entry(msg.id, s));
    Stream.CloseRunning(s);
  }

  /** RESET sends nothing back when the stream's sink has been opened. */
  lemma DispatchReset(m: Muxer, msg: Message, s: Stream.Stream)
    requires Inv(m) && (msg.kind == RESET_RECEIVER || msg.kind == RESET_INITIATOR)
    requires Get(Registered(m, Route(msg.kind)), msg.id) == Some(s) && s.sinkInProgress
    ensures HandleIncoming(m, msg).muxer.outbox == m.outbox
  {
    DispatchEnd(m, msg, s);
    assert GoodEntry(Route(msg.kind), Entry(msg.id, s));
    Stream.ResetSends(s);
  }

  /**
   * Handling a frame touches only the stream it is addressed to: every
   * other id maps to the same stream afterwards, in both registries.
   */
  lemma {:induction false} HandleLocal(m: Muxer, msg: Message, d: Direction, k: nat)
    requires Inv(m)
    requires k != msg.id
    ensures Get(Registered(HandleIncoming(m, msg).muxer, d), k) == Get(Registered(m, d), k)
  {
    if msg.kind == NEW_STREAM && m.options.onStream {
      AcceptLocal(m, msg, d, k);
    } else {
      var d' := Route(msg.kind);
      var found := Get(Registered(m, d'), msg.id);
      var ev := IncomingEvent(msg);
      if found.Some? && ev.Some? {
        var s := found.value;
        assert GoodEntry(d', Entry(msg.id, s));
        Stream.SentOnlyGrows(s, ev.value);
        Stream.StepKeepsIdentity(s, ev.value);
        CommitLocal(m, d', s, Stream.Step(s, ev.value).value, d, k);
      }
    }
  }

  /** Accepting a stream leaves every other id's stream as it was. */
  lemma AcceptLocal(m: Muxer, msg: Message, d: Direction, k: nat)
    requires Inv(m) && k != msg.id
    ensures Get(Registered(Accept(m, msg).muxer, d), k) == Get(Registered(m, d), k)
  {
    var r := Accept(m, msg).muxer;
    GetView(Registered(r, d), k);
    GetView(Registered(m, d), k);
    if !Has(m.receivers, msg.id) && d == Receiver {
      var s := Stream.Create(msg.id, Some(msg.data.GetOr([])), Some(Receiver), m.options.maxMsgSize);
      SetView(m.receivers, msg.id, s);
    }
  }

  /** Committing one stream's change leaves every other id's stream as it was. */
  lemma CommitLocal(m: Muxer, d: Direction, before: Stream.Stream, after: Stream.Stream, d2: Direction, k: nat)
    requires Distinct(Registered(m, d)) && before.sent <= after.sent && k != after.id
    ensures Get(Registered(Commit(m, d, before, after), d2), k) == Get(Registered(m, d2), k)
  {
    var r := Commit(m, d, before, after);
    GetView(Registered(r, d2), k);
    GetView(Registered(m, d2), k);
    if d2 == d {
      if |after.onEndCalls| > |before.onEndCalls| {
        DeleteView(Registered(m, d), after.id);
      } else {
        SetView(Registered(m, d), after.id, after);
      }
    }
  }

  /** Handle frames in order, stopping at the first that throws. */
  function HandleAll(m: Muxer, msgs: seq<Message>): (r: Handled)
    requires Inv(m)
    ensures Inv(r.muxer)
    ensures r.muxer.outEnded == m.outEnded && r.muxer.options == m.options
    decreases |msgs|
  {
    if |msgs| == 0 then Handled(m, None)
    else
      var h := HandleIncoming(m, msgs[0]);
      if h.error.Some? then h else HandleAll(h.muxer, msgs[1..])
  }

  /** Frames are handled one after another: handling `a + b` is handling `a`, then (unless it threw) `b`. */
  lemma {:induction false} HandleAllAppend(m: Muxer, a: seq<Message>, b: seq<Message>)
    requires Inv(m)
    ensures var h := HandleAll(m, a);
      HandleAll(m, a + b) == if h.error.Some? then h else HandleAll(h.muxer, b)
    decreases |a|
  {
    if |a| > 0 {
      assert (a + b)[0] == a[0] && (a + b)[1..] == a[1..] + b;
      var h := HandleIncoming(m, a[0]);
      if h.error.None? {
        HandleAllAppend(h.muxer, a[1..], b);
      }
    } else {
      assert a + b == b;
    }
  }

  /** Abort the streams registered under `ids` in direction `d`, one after another. */
  function AbortEach(m: Muxer, d: Direction, ids: seq<nat>, err: Option<Stream.Error>): (r: Muxer)
    requires Inv(m)
    ensures Inv(r)
    ensures r.options == m.options && r.nextId == m.nextId && r.outEnded == m.outEnded
    ensures Registered(r, Opposite(d)) == Registered(m, Opposite(d))
    decreases |ids|
  {
    if |ids| == 0 then m
    else AbortEach(AbortId(m, d, ids[0], err), d, ids[1..], err)
  }

  /** `s.abort(err)` for the stream registered under `id`, if it still is. */
  function AbortId(m: Muxer, d: Direction, id: nat, err: Option<Stream.Error>): (r: Muxer)
    requires Inv(m)
    ensures Inv(r)
    ensures r.options == m.options && r.nextId == m.nextId && r.outEnded == m.outEnded
    ensures Registered(r, Opposite(d)) == Registered(m, Opposite(d))
  {
    var found := Get(Registered(m, d), id);
    if found.None? then m
    else
      assert GoodEntry(d, Entry(id, found.value));
      Apply(m, d, found.value, Stream.AbortEv(err))
  }

  /** An abort always ends a registered stream, so the muxer drops it: aborting the first stream leaves the others, in order. */
  lemma AbortEnds(m: Muxer, d: Direction, err: Option<Stream.Error>)
    requires Inv(m) && 0 < |Registered(m, d)|
    ensures var e := Registered(m, d)[0];
      var r := AbortId(m, d, e.key, err);
      && Registered(r, d) == Registered(m, d)[1..]
      && r.streamEnds == m.streamEnds + [(d, e.key)]
      && r.endedStreams == m.endedStreams + [Stream.CloseAll(e.value, Stream.AbortSignal, err)]
      && (m.outEnded ==> r.outbox == m.outbox && r.outError == m.outError)
  {
    var reg := Registered(m, d);
    var e := reg[0];
    assert e in reg;
    assert GoodEntry(d, e);
    assert Get(reg, e.key) == Some(e.value) by {
      GetView(reg, e.key);
    }
    var s := e.value;
    Stream.StepInv(s, Stream.AbortEv(err));
    Stream.StepKeepsIdentity(s, Stream.AbortEv(err));
    Stream.SentOnlyGrows(s, Stream.AbortEv(err));
    DeleteFirst(reg);
  }

  /** The first abort of a sweep over a registry, and what is left to sweep. */
  lemma AbortStep(m: Muxer, d: Direction, err: Option<Stream.Error>) returns (m1: Muxer)
    requires Inv(m) && 0 < |Registered(m, d)|
    ensures Inv(m1)
    ensures var ids := Keys(Registered(m, d));
      && AbortEach(m, d, ids, err) == AbortEach(m1, d, Keys(Registered(m1, d)), err)
      && Keys(Registered(m1, d)) == ids[1..]
      && Registered(m1, d) == Registered(m, d)[1..]
      && m1.streamEnds == m.streamEnds + [(d, ids[0])]
      && m1.endedStreams == m.endedStreams + [Stream.CloseAll(Registered(m, d)[0].value, Stream.AbortSignal, err)]
      && m1.outEnded == m.outEnded
      && (m.outEnded ==> m1.outbox == m.outbox && m1.outError == m.outError)
  {
    var ids := Keys(Registered(m, d));
    AbortEnds(m, d, err);
    m1 := AbortId(m, d, ids[0], err);
    assert Keys(Registered(m1, d)) == ids[1..];
  }

  /** Aborting every stream of a registry, in iteration order, empties it. */
  lemma {:induction false} AbortEachEmpties(m: Muxer, d: Direction, err: Option<Stream.Error>)
    requires Inv(m)
    ensures Registered(AbortEach(m, d, Keys(Registered(m, d)), err), d) == []
    decreases |Registered(m, d)|
  {
    if |Registered(m, d)| > 0 {
      var m1 := AbortStep(m, d, err);
      AbortEachEmpties(m1, d, err);
    }
  }

  /** Each aborted stream's end is reported once, in registry order. */
  lemma {:induction false} AbortEachReports(m: Muxer, d: Direction, err: Option<Stream.Error>)
    requires Inv(m)
    ensures AbortEach(m, d, Keys(Registered(m, d)), err).streamEnds == m.streamEnds + EndPairs(d, Keys(Registered(m, d)))
    decreases |Registered(m, d)|
  {
    var ids := Keys(Registered(m, d));
    if |ids| > 0 {
      var m1 := AbortStep(m, d, err);
      AbortEachReports(m1, d, err);
      ReportsJoin(m.streamEnds, d, ids);
    }
  }

  /** Each stream of the sweep is handed over as `abort(err)` left it, in registry order. */
  lemma {:induction false} AbortEachDrops(m: Muxer, d: Direction, err: Option<Stream.Error>)
    requires Inv(m)
    ensures AbortEach(m, d, Keys(Registered(m, d)), err).endedStreams == m.endedStreams + Aborted(Values(Registered(m, d)), err)
    decreases |Registered(m, d)|
  {
    var reg := Registered(m, d);
    if |reg| > 0 {
      var m1 := AbortStep(m, d, err);
      AbortEachDrops(m1, d, err);
      AbortedJoin(m.endedStreams, reg, err);
    }
  }

  /** Every stream of `ss` after `abort(err)`, in order. */
  function Aborted(ss: seq<Stream.Stream>, err: Option<Stream.Error>): (r: seq<Stream.Stream>)
    ensures |r| == |ss|
  {
    if |ss| == 0 then [] else [Stream.CloseAll(ss[0], Stream.AbortSignal, err)] + Aborted(ss[1..], err)
  }

  lemma AbortedJoin(ended: seq<Stream.Stream>, reg: Registry<Stream.Stream>, err: Option<Stream.Error>)
    requires 0 < |reg|
    ensures (ended + [Stream.CloseAll(reg[0].value, Stream.AbortSignal, err)]) + Aborted(Values(reg[1..]), err)
            == ended + Aborted(Values(reg), err)
  {
    var vs := Values(reg);
    ValuesTail(reg);
    assert vs[0] == reg[0].value && vs[1..] == Values(reg[1..]);
    var head := [Stream.CloseAll(reg[0].value, Stream.AbortSignal, err)];
    var rest := Aborted(Values(reg[1..]), err);
    assert Aborted(vs, err) == head + rest;
    Stream.AppendAssoc(ended, head, rest);
  }

  lemma ReportsJoin(ends: seq<(Direction, nat)>, d: Direction, ids: seq<nat>)
    requires 0 < |ids|
    ensures (ends + [(d, ids[0])]) + EndPairs(d, ids[1..]) == ends + EndPairs(d, ids)
  {
    var rest := EndPairs(d, ids[1..]);
    assert EndPairs(d, ids) == [(d, ids[0])] + rest;
    assert (ends + [(d, ids[0])]) + rest == ends + ([(d, ids[0])] + rest);
  }

  /** Aborts after the outbound queue has ended put nothing on it. */
  lemma {:induction false} AbortEachQuiet(m: Muxer, d: Direction, err: Option<Stream.Error>)
    requires Inv(m) && m.outEnded
    ensures var r := AbortEach(m, d, Keys(Registered(m, d)), err);
      r.outbox == m.outbox && r.outError == m.outError
    decreases |Registered(m, d)|
  {
    if |Registered(m, d)| > 0 {
      var m1 := AbortStep(m, d, err);
      AbortEachQuiet(m1, d, err);
    }
  }

  /** The `onStreamEnd` reports for the streams `ids` of direction `d`, in order. */
  function EndPairs(d: Direction, ids: seq<nat>): (r: seq<(Direction, nat)>)
    ensures |r| == |ids|
  {
    if |ids| == 0 then [] else [(d, ids[0])] + EndPairs(d, ids[1..])
  }

  /**
   * The end of the outbound queue (its `onEnd`): once only, every
   * initiator stream and then every receiver stream is aborted with the
   * queue's error, in registry order.
   */
  function EndOutbound(m: Muxer, err: Option<Stream.Error>): (r: Muxer)
    requires Inv(m)
    ensures Inv(r) && r.outEnded
    ensures m.outEnded ==> r == m
  {
    if m.outEnded then m
    else
      var m1 := m.(outEnded := true, outError := err);
      var m2 := AbortEach(m1, Initiator, Keys(m1.initiators), err);
      AbortEach(m2, Receiver, Keys(m2.receivers), err)
  }

  /** When the outbound queue ends, every stream is aborted and dropped: initiators first, then receivers. */
  lemma AbortAll(m: Muxer, err: Option<Stream.Error>)
    requires Inv(m) && !m.outEnded
    ensures var r := EndOutbound(m, err);
      && Streams(r) == []
      && r.outError == err
      && r.outbox == m.outbox
      && r.streamEnds == m.streamEnds + EndPairs(Initiator, Keys(m.initiators)) + EndPairs(Receiver, Keys(m.receivers))
      && r.endedStreams == m.endedStreams + Aborted(Values(m.initiators), err) + Aborted(Values(m.receivers), err)
  {
    var m1 := m.(outEnded := true, outError := err);
    AbortEachEmpties(m1, Initiator, err);
    AbortEachReports(m1, Initiator, err);
    AbortEachQuiet(m1, Initiator, err);
    AbortEachDrops(m1, Initiator, err);
    var m2 := AbortEach(m1, Initiator, Keys(m1.initiators), err);
    AbortEachEmpties(m2, Receiver, err);
    AbortEachReports(m2, Receiver, err);
    AbortEachQuiet(m2, Receiver, err);
    AbortEachDrops(m2, Receiver, err);
  }

  /**
   * The muxer's sink over the decoded inbound frames (already grouped as
   * the decoder yields them), then `failure` if the connection's source
   * fails after them: frames pass the size guard, are handled in order,
   * and the outbound queue is ended — with the first error, if any.
   */
  function SinkRun(m: Muxer, items: seq<Item>, failure: Option<Stream.Error>): (r: Muxer)
    requires Inv(m)
    ensures Inv(r) && r.outEnded
  {
    var g := RestrictSize.Restrict(items, m.options.maxMsgSize);
    var h := HandleAll(m, Messages(g.passed));
    var err := if h.error.Some? then Some(Reason(h.error.value))
               else if g.error.Some? then Some(Reason(MsgTooBig))
               else failure;
    EndOutbound(h.muxer, err)
  }

  /** However the inbound side ends, cleanly or not, no stream survives it. */
  lemma SinkEndsAll(m: Muxer, items: seq<Item>, failure: Option<Stream.Error>)
    requires Inv(m) && !m.outEnded
    ensures Streams(SinkRun(m, items, failure)) == []
  {
    var g := RestrictSize.Restrict(items, m.options.maxMsgSize);
    var h := HandleAll(m, Messages(g.passed));
    var err := if h.error.Some? then Some(Reason(h.error.value))
               else if g.error.Some? then Some(Reason(MsgTooBig))
               else failure;
    AbortAll(h.muxer, err);
  }

  /** An oversized frame stops the inbound side after the frames before it were handled, and aborts the streams with ERR_MSG_TOO_BIG. */
  lemma OversizeStops(m: Muxer, items: seq<Item>, k: nat)
    requires Inv(m) && !m.outEnded
    requires k < |items| && !RestrictSize.ItemFits(items[k], RestrictSize.EffectiveMax(m.options.maxMsgSize))
    requires forall i :: 0 <= i < k ==> RestrictSize.ItemFits(items[i], RestrictSize.EffectiveMax(m.options.maxMsgSize))
    requires HandleAll(m, Messages(items[..k])).error.None?
    ensures SinkRun(m, items, None).outError == Some(Stream.Other("ERR_MSG_TOO_BIG"))
  {
    RestrictSize.FirstOversize(items, RestrictSize.EffectiveMax(m.options.maxMsgSize), k);
    var h := HandleAll(m, Messages(items[..k]));
    AbortAll(h.muxer, Some(Reason(MsgTooBig)));
  }

  /** A user's event on one of its registered streams: only opening the sink can throw, and a throw changes nothing. */
  function StreamEvent(m: Muxer, d: Direction, id: nat, ev: Stream.Event): (r: Result<Muxer, Stream.Error>)
    requires Inv(m) && Has(Registered(m, d), id)
    requires Stream.Enabled(Get(Registered(m, d), id).value, ev)
    ensures r.Ok? ==> Inv(r.value)
    ensures r.Err? <==> ev == Stream.SinkOpen && Get(Registered(m, d), id).value.sinkInProgress
  {
    var s := Get(Registered(m, d), id).value;
    assert GoodEntry(d, Entry(id, s));
    match Stream.Step(s, ev)
    case Err(e) => Err(e)
    case Ok(_) => Ok(Apply(m, d, s, ev))
  }

  /** What a stream sends reaches the outbound queue in order, while the queue is open. */
  lemma ForwardsSends(m: Muxer, d: Direction, id: nat, ev: Stream.Event)
    requires Inv(m) && Has(Registered(m, d), id) && !m.outEnded
    requires Stream.Enabled(Get(Registered(m, d), id).value, ev)
    requires StreamEvent(m, d, id, ev).Ok?
    ensures var s := Get(Registered(m, d), id).value;
      && Stream.Inv(s) && 0 < s.maxMsgSize && Stream.Step(s, ev).Ok?
      && StreamEvent(m, d, id, ev).value.outbox == m.outbox + Stream.NewSends(s, ev)
  {
    var s := Get(Registered(m, d), id).value;
    assert GoodEntry(d, Entry(id, s));
  }

  /**
   * The outbound path of src/mplex.js: the queue's batches pass the size
   * guard, then the encoder, whose bytes decode on the other side to the
   * messages that passed. The encoder is the one of src/encode.ts; only
   * the messages that pass the guard reach it.
   */
  method EncodeOutbound(p: Frame.Pool, items: seq<Item>, max: Option<nat>, spare: seq<byte>)
    returns (pool: Frame.Pool, out: seq<seq<byte>>, error: Option<RestrictSize.Error>)
    requires Frame.ValidPool(p) && |spare| == Frame.POOL_SIZE
    requires Frame.AllEncodable(Messages(RestrictSize.Restrict(items, max).passed))
    ensures Frame.ValidPool(pool)
    ensures error == RestrictSize.Restrict(items, max).error
    ensures Frame.DecodeAll(Frame.Flatten(out)) == Some(Frame.NormalizeAll(Messages(RestrictSize.Restrict(items, max).passed)))
  {
    var g := RestrictSize.Restrict(items, max);
    pool, out := Frame.EncodeSource(p, g.passed, spare);
    Frame.RoundTrip(Messages(g.passed));
    error := g.error;
  }

  /** Examples: a new muxer's first stream gets id 0, the next one id 1, registered after it. */
  lemma FirstStreamExample()
    ensures var o := NewStream(Create(Options(true, None)), None);
      o.result == Ok(0) && o.muxer.nextId == 1 && Keys(o.muxer.initiators) == [0]
  {
    var m := Create(Options(true, None));
    assert Keys(m.initiators) == [];
    NewStreamSucceeds(m, None);
    assert [] + [0] == [0];
  }

  lemma SecondStreamExample(m: Muxer)
    requires Inv(m) && m.nextId == 1 && Keys(m.initiators) == [0]
    ensures var o := NewStream(m, Some([120]));
      o.result == Ok(1) && Keys(o.muxer.initiators) == [0, 1]
  {
    NewStreamSucceeds(m, Some([120]));
    assert [0] + [1] == [0, 1];
  }
}

=== FILE: pull_end.dfy ===
/**
 * The pull-stream end hook (src/pull-end.js): values pass through; on a clean
 * end the hook runs once and its return value is emitted as a last value;
 * an error end is forwarded without running the hook; after the end every
 * read reports end.
 */
module PullEnd {
  import opened Wrappers

  /** One answer to a pull-stream read: a value, a clean end (`end === true`), or an error end. */
  datatype Read<V, E> = Value(v: V) | End | Failed(e: E)

  /** The `onEnd` argument: missing (a no-op returning `undefined`) or a hook returning `result`. */
  datatype Hook<V> = NoHook | Hook(result: V)

  /** What a clean end emits: the hook's return value, None standing for `undefined`. */
  function FinalValue<V>(h: Hook<V>): Option<V> {
    match h
    case NoHook => None
    case Hook(r) => Some(r)
  }

  /** The closure's state: the sticky `ended` flag, and how often the hook has run. */
  datatype State = State(ended: bool, hookCalls: nat)

  const Initial := State(false, 0)

  /** The downstream `callback` for one upstream answer. Emitted values are `Option<V>`, None for `undefined`. */
  function Step<V, E>(s: State, h: Hook<V>, a: Read<V, E>): (State, Read<Option<V>, E>) {
    if s.ended then (s, End)
    else if a.End? then (State(true, s.hookCalls + 1), Value(FinalValue(h)))
    else if a.Failed? then (s, Failed(a.e))
    else (s, Value(Some(a.v)))
  }

  /** The answers downstream sees for a sequence of upstream answers, and the final state. */
  function Run<V, E>(s: State, h: Hook<V>, answers: seq<Read<V, E>>): (r: (State, seq<Read<Option<V>, E>>))
    ensures |r.1| == |answers|
    ensures s.ended ==> r.0 == s
    ensures r.0.hookCalls == s.hookCalls + (if r.0.ended && !s.ended then 1 else 0)
    decreases |answers|
  {
    if |answers| == 0 then (s, [])
    else
      var first := Step(s, h, answers[0]);
      var rest := Run(first.0, h, answers[1..]);
      (rest.0, [first.1] + rest.1)
  }

  lemma RunOne<V, E>(s: State, h: Hook<V>, a: Read<V, E>)
    ensures Run(s, h, [a]) == (Step(s, h, a).0, [Step(s, h, a).1])
  {
    var one := [a];
    assert one[1..] == [];
    var st := Step(s, h, a);
    assert Run(st.0, h, one[1..]) == (st.0, []);
    assert [st.1] + [] == [st.1];
  }

  predicate NoEnd<V, E>(answers: seq<Read<V, E>>) {
    forall i :: 0 <= i < |answers| ==> answers[i].Value?
  }

  /** Upstream values as downstream sees them when passed through. */
  function Passed<V, E>(answers: seq<Read<V, E>>): (r: seq<Read<Option<V>, E>>)
    requires NoEnd(answers)
    ensures |r| == |answers|
    ensures forall i :: 0 <= i < |answers| ==> r[i] == Value(Some(answers[i].v))
  {
    seq(|answers|, i requires 0 <= i < |answers| => Value(Some(answers[i].v)))
  }

  function Ends<V, E>(n: nat): (r: seq<Read<Option<V>, E>>)
    ensures |r| == n
    ensures forall i :: 0 <= i < n ==> r[i] == End
  {
    seq(n, i => End)
  }

  /** Values before the end pass through unchanged. */
  lemma {:induction false} PassThrough<V, E>(s: State, h: Hook<V>, answers: seq<Read<V, E>>)
    requires !s.ended && NoEnd(answers)
    ensures Run(s, h, answers) == (s, Passed(answers))
    decreases |answers|
  {
    if |answers| > 0 {
      PassThrough(s, h, answers[1..]);
      assert Passed(answers) == [Value(Some(answers[0].v))] + Passed(answers[1..]);
    }
  }

  /** Once ended, every later read reports end and the hook does not run again. */
  lemma {:induction false} Sticky<V, E>(s: State, h: Hook<V>, answers: seq<Read<V, E>>)
    requires s.ended
    ensures Run(s, h, answers) == (s, Ends(|answers|))
    decreases |answers|
  {
    if |answers| > 0 {
      Sticky(s, h, answers[1..]);
      assert Ends<V, E>(|answers|) == [End] + Ends(|answers| - 1);
    }
  }

  lemma {:induction false} RunAppend<V, E>(s: State, h: Hook<V>, a: seq<Read<V, E>>, b: seq<Read<V, E>>)
    ensures Run(s, h, a + b) == (Run(Run(s, h, a).0, h, b).0, Run(s, h, a).1 + Run(Run(s, h, a).0, h, b).1)
    decreases |a|
  {
    if |a| == 0 {
      assert a + b == b;
      assert Run(s, h, a) == (s, []);
      assert [] + Run(s, h, b).1 == Run(s, h, b).1;
    } else {
      assert (a + b)[0] == a[0];
      assert (a + b)[1..] == a[1..] + b;
      var first := Step(s, h, a[0]);
      RunAppend(first.0, h, a[1..], b);
      var ra := Run(first.0, h, a[1..]);
      var rb := Run(ra.0, h, b);
      assert Run(s, h, a) == (ra.0, [first.1] + ra.1);
      assert Run(s, h, a + b) == (rb.0, [first.1] + (ra.1 + rb.1));
      assert [first.1] + (ra.1 + rb.1) == ([first.1] + ra.1) + rb.1;
    }
  }

  /**
   * A clean end after some values: the values, then the hook's value, then
   * end for every later read; the hook runs exactly once.
   */
  lemma CleanEnd<V, E>(h: Hook<V>, values: seq<Read<V, E>>, later: seq<Read<V, E>>)
    requires NoEnd(values)
    ensures Run(Initial, h, values + [End] + later)
         == (State(true, 1), Passed(values) + [Value(FinalValue(h))] + Ends(|later|))
  {
    var e: seq<Read<V, E>> := [End];
    RunOne<V, E>(Initial, h, End);
    PassThrough(Initial, h, values);
    RunAppend(Initial, h, values, e);
    Sticky(State(true, 1), h, later);
    RunAppend(Initial, h, values + e, later);
  }

  /** An error end is forwarded and the hook is not run. */
  lemma ErrorEnd<V, E>(h: Hook<V>, values: seq<Read<V, E>>, err: E)
    requires NoEnd(values)
    ensures Run(Initial, h, values + [Failed(err)]) == (Initial, Passed(values) + [Failed(err)])
  {
    var f: seq<Read<V, E>> := [Failed(err)];
    RunOne(Initial, h, Failed(err));
    PassThrough(Initial, h, values);
    RunAppend(Initial, h, values, f);
  }

  /** The source's tests: [1, 2] with a hook returning 3 gives [1, 2, 3]; with no hook the last value is `undefined`. */
  lemma Examples()
    ensures Run<int, string>(Initial, Hook(3), [Value(1), Value(2), End, End]).1
         == [Value(Some(1)), Value(Some(2)), Value(Some(3)), End]
    ensures Run<int, string>(Initial, NoHook, [Value(1), End]).1
         == [Value(Some(1)), Value(None)]
    ensures Run<int, string>(Initial, Hook(3), [Failed("fail")])
         == (Initial, [Failed("fail")])
  {
    var a: seq<Read<int, string>> := [Value(1), Value(2), End, End];
    assert a == [Value(1), Value(2)] + [End] + [End];
    CleanEnd<int, string>(Hook(3), [Value(1), Value(2)], [End]);
    var b: seq<Read<int, string>> := [Value(1), End];
    assert b == [Value(1)] + [End] + [];
    CleanEnd<int, string>(NoHook, [Value(1)], []);
    RunOne<int, string>(Initial, Hook(3), Failed("fail"));
  }
}

=== FILE: registry.dfy ===
/**
 * An insertion-ordered registry of streams by id: the JavaScript `Map`
 * the muxer keeps its initiator and receiver streams in (src/index.ts,
 * src/mplex.js). Iteration follows insertion order, setting an existing
 * key keeps its place, and deleting removes the entry. Its meaning as a
 * finite map is `View`.
 */
module Registry {
  import opened Wrappers

  datatype Entry<V> = Entry(key: nat, value: V)

  type Registry<V> = seq<Entry<V>>

  /** No key is registered twice. */
  predicate Distinct<V>(r: Registry<V>) {
    forall i, j :: 0 <= i < j < |r| ==> r[i].key != r[j].key
  }

  function Keys<V>(r: Registry<V>): (ks: seq<nat>)
    ensures |ks| == |r|
    ensures forall i :: 0 <= i < |r| ==> ks[i] == r[i].key
  {
    seq(|r|, i requires 0 <= i < |r| => r[i].key)
  }

  /** The registered values in iteration order (`map.values()`). */
  function Values<V>(r: Registry<V>): (vs: seq<V>)
    ensures |vs| == |r|
    ensures forall i :: 0 <= i < |r| ==> vs[i] == r[i].value
  {
    seq(|r|, i requires 0 <= i < |r| => r[i].value)
  }

  lemma ValuesTail<V>(r: Registry<V>)
    requires 0 < |r|
    ensures Values(r)[0] == r[0].value && Values(r)[1..] == Values(r[1..])
  {
  }

  /** The registry as a finite map; an earlier entry shadows a later one with the same key. */
  function View<V>(r: Registry<V>): map<nat, V> {
    if |r| == 0 then map[] else View(r[1..])[r[0].key := r[0].value]
  }

  function Get<V>(r: Registry<V>, k: nat): (v: Option<V>)
    ensures v.Some? ==> Entry(k, v.value) in r
    ensures v.None? ==> forall e :: e in r ==> e.key != k
  {
    if |r| == 0 then None
    else if r[0].key == k then Some(r[0].value)
    else
      assert forall e :: e in r ==> e == r[0] || e in r[1..];
      Get(r[1..], k)
  }

  predicate Has<V>(r: Registry<V>, k: nat) {
    Get(r, k).Some?
  }

  /** `map.set(k, v)`: replace in place, or append a new key. */
  function Set<V>(r: Registry<V>, k: nat, v: V): (r': Registry<V>)
    requires Distinct(r)
    ensures forall e :: e in r' ==> e == Entry(k, v) || (e in r && e.key != k)
    ensures Entry(k, v) in r'
    ensures Has(r, k) ==> |r'| == |r| && forall i :: 0 <= i < |r| ==> r'[i].key == r[i].key
    ensures !Has(r, k) ==> r' == r + [Entry(k, v)]
  {
    if |r| == 0 then [Entry(k, v)]
    else if r[0].key == k then
      assert forall e :: e in r[1..] ==> e.key != k;
      [Entry(k, v)] + r[1..]
    else
      DistinctTail(r);
      var rest := Set(r[1..], k, v);
      assert Get(r, k) == Get(r[1..], k);
      MemberCons(r[0], rest);
      MemberCons(r[0], r[1..]);
      assert r == [r[0]] + r[1..];
      [r[0]] + rest
  }

  lemma DistinctTail<V>(r: Registry<V>)
    requires Distinct(r) && 0 < |r|
    ensures Distinct(r[1..])
  {
    forall i, j | 0 <= i < j < |r| - 1
      ensures r[1..][i].key != r[1..][j].key
    {
      assert r[1..][i] == r[i + 1] && r[1..][j] == r[j + 1];
    }
  }

  lemma MemberCons<V>(x: Entry<V>, s: Registry<V>)
    ensures forall e :: e in [x] + s <==> e == x || e in s
  {
  }

  /** `map.delete(k)`: drop the entry, keeping the others in order. */
  function Delete<V>(r: Registry<V>, k: nat): (r': Registry<V>)
    ensures forall e :: e in r' ==> e in r && e.key != k
    ensures forall e :: e in r && e.key != k ==> e in r'
    ensures !Has(r, k) ==> r' == r
  {
    if |r| == 0 then []
    else
      assert forall e :: e in r ==> e == r[0] || e in r[1..];
      var rest := Delete(r[1..], k);
      if r[0].key == k then rest else [r[0]] + rest
  }

  /** Deleting from a concatenation deletes from each part: the surviving entries keep their order. */
  lemma {:induction false} DeleteAppend<V>(a: Registry<V>, b: Registry<V>, k: nat)
    ensures Delete(a + b, k) == Delete(a, k) + Delete(b, k)
    ensures Delete<V>([], k) == [] && forall e: Entry<V> :: Delete([e], k) == if e.key == k then [] else [e]
  {
    if |a| > 0 {
      assert (a + b)[0] == a[0] && (a + b)[1..] == a[1..] + b;
      DeleteAppend(a[1..], b, k);
    } else {
      assert a + b == b;
    }
  }

  /** Lookup agrees with the map view. */
  lemma {:induction false} GetView<V>(r: Registry<V>, k: nat)
    ensures Get(r, k) == (if k in View(r) then Some(View(r)[k]) else None)
  {
    if |r| > 0 && r[0].key != k {
      GetView(r[1..], k);
    }
  }

  /** Setting updates the map view at one key. */
  lemma {:induction false} SetView<V>(r: Registry<V>, k: nat, v: V)
    requires Distinct(r)
    ensures View(Set(r, k, v)) == View(r)[k := v]
  {
    if |r| == 0 {
      assert View([Entry(k, v)]) == View([])[k := v];
    } else if r[0].key == k {
      var r' := Set(r, k, v);
      assert r'[1..] == r[1..];
      assert View(r') == View(r[1..])[k := v];
      assert View(r) == View(r[1..])[k := r[0].value];
    } else {
      var rest := Set(r[1..], k, v);
      SetView(r[1..], k, v);
      var r' := [r[0]] + rest;
      assert r'[1..] == rest;
      assert View(r') == View(rest)[r[0].key := r[0].value];
      MapUpdatesCommute(View(r[1..]), r[0].key, r[0].value, k, v);
    }
  }

  /** After `set`, `get` of the key finds the value set. */
  lemma GetSet<V>(r: Registry<V>, k: nat, v: V)
    requires Distinct(r)
    ensures Get(Set(r, k, v), k) == Some(v)
  {
    GetView(Set(r, k, v), k);
    SetView(r, k, v);
  }

  lemma MapUpdatesCommute<V>(m: map<nat, V>, a: nat, x: V, b: nat, y: V)
    requires a != b
    ensures m[b := y][a := x] == m[a := x][b := y]
  {
  }

  /** Deleting removes one key from the map view, whatever the order of entries. */
  lemma {:induction false} DeleteView<V>(r: Registry<V>, k: nat)
    ensures View(Delete(r, k)) == View(r) - {k}
  {
    if |r| > 0 {
      DeleteView(r[1..], k);
      var rest := Delete(r[1..], k);
      if r[0].key == k {
        assert Delete(r, k) == rest;
        MapRemoveUpdated(View(r[1..]), k, r[0].value);
      } else {
        assert Delete(r, k) == [r[0]] + rest;
        assert ([r[0]] + rest)[1..] == rest;
        MapRemoveOther(View(r[1..]), r[0].key, r[0].value, k);
      }
    }
  }

  lemma MapRemoveUpdated<V>(m: map<nat, V>, k: nat, v: V)
    ensures m[k := v] - {k} == m - {k}
  {
  }

  lemma MapRemoveOther<V>(m: map<nat, V>, a: nat, x: V, k: nat)
    requires a != k
    ensures (m - {k})[a := x] == m[a := x] - {k}
  {
  }

  /** Setting and deleting keep keys distinct. */
  lemma SetDistinct<V>(r: Registry<V>, k: nat, v: V)
    requires Distinct(r)
    ensures Distinct(Set(r, k, v))
  {
    var r' := Set(r, k, v);
    if !Has(r, k) {
      forall i, j | 0 <= i < j < |r'|
        ensures r'[i].key != r'[j].key
      {
        if j == |r| {
          assert r'[i] in r;
        }
      }
    } else {
      forall i, j | 0 <= i < j < |r'|
        ensures r'[i].key != r'[j].key
      {
        assert r'[i].key == r[i].key && r'[j].key == r[j].key;
      }
    }
  }

  lemma {:induction false} DeleteDistinct<V>(r: Registry<V>, k: nat)
    requires Distinct(r)
    ensures Distinct(Delete(r, k))
  {
    if |r| > 0 {
      DeleteDistinct(r[1..], k);
      var rest := Delete(r[1..], k);
      if r[0].key != k {
        assert forall e :: e in rest ==> e in r[1..];
        forall j | 0 < j < |rest| + 1
          ensures ([r[0]] + rest)[j].key != r[0].key
        {
          assert rest[j - 1] in r[1..];
        }
      }
    }
  }

  /** Registries with distinct keys agree with their views on membership: a key is in the view iff some entry has it. */
  lemma {:induction false} ViewDomain<V>(r: Registry<V>, k: nat)
    ensures k in View(r) <==> exists e :: e in r && e.key == k
  {
    if |r| > 0 {
      ViewDomain(r[1..], k);
      assert forall e :: e in r ==> e == r[0] || e in r[1..];
    }
  }

  /** Deleting the first key of a registry with distinct keys leaves the rest, in order. */
  lemma DeleteFirst<V>(r: Registry<V>)
    requires Distinct(r) && 0 < |r|
    ensures Delete(r, r[0].key) == r[1..]
  {
  }

  /** Examples: `set` of absent keys appends, `set` of a present key replaces in place, `delete` drops the entry. */
  lemma SetIntoEmpty()
    ensures Set([], 3, 10) == [Entry(3, 10)]
  {
  }

  lemma SetAbsentExample(r: Registry<int>)
    requires r == [Entry(3, 10)]
    ensures Distinct(r) && Set(r, 1, 20) == [Entry(3, 10), Entry(1, 20)]
  {
    assert r[1..] == [];
  }

  lemma SetPresentExample(r: Registry<int>)
    requires r == [Entry(3, 10), Entry(1, 20)]
    ensures Distinct(r) && Set(r, 3, 30) == [Entry(3, 30), Entry(1, 20)]
    ensures Values(r) == [10, 20]
  {
    assert r[0].key == 3 && r[1..] == [Entry(1, 20)];
  }

  lemma DeleteExample(r: Registry<int>)
    requires r == [Entry(3, 10), Entry(1, 20)]
    ensures Delete(r, 3) == [Entry(1, 20)]
  {
    assert r[1..] == [Entry(1, 20)];
    assert r[1..][1..] == [];
    assert Delete(r[1..], 3) == [Entry(1, 20)] + Delete([], 3);
  }
}

=== FILE: restrict_size.dfy ===
/**
 * The size guard (src/restrict-size.js): messages pass through unchanged
 * until one carries data longer than the maximum; that one fails the whole
 * source with ERR_MSG_TOO_BIG.
 */
module RestrictSize {
  import opened Wrappers
  import opened Varint
  import opened Message

  /** 1 MiB: the default maximum payload. */
  const MAX_MSG_SIZE: nat := 0x10_0000

  /** `max || MAX_MSG_SIZE`: an absent or zero maximum means the default. */
  function EffectiveMax(max: Option<nat>): (r: nat)
    ensures 0 < r
    ensures max.Some? && max.value != 0 ==> r == max.value
    ensures max == None || max == Some(0) ==> r == MAX_MSG_SIZE
  {
    if max.Some? && max.value != 0 then max.value else MAX_MSG_SIZE
  }

  /** `checkSize` does not throw: the message has no data or its data is at most `limit` long. */
  predicate Fits(m: Message, limit: nat) {
    m.data.None? || |m.data.value| <= limit
  }

  /** Every message of the item passes `checkSize` (an array is checked element by element). */
  predicate ItemFits(it: Item, limit: nat) {
    forall m :: m in ItemMessages(it) ==> Fits(m, limit)
  }

  datatype Error = MsgTooBig

  /** What the guarded source yields, and the error it ends with, if any. */
  datatype Outcome = Outcome(passed: seq<Item>, error: Option<Error>)

  /** The guard's loop over a whole source: yield each item that fits, stop at the first that does not. */
  function Guard(items: seq<Item>, limit: nat): (r: Outcome)
    ensures |r.passed| <= |items| && r.passed == items[..|r.passed|]
    ensures forall i :: 0 <= i < |r.passed| ==> ItemFits(r.passed[i], limit)
    ensures r.error.None? <==> r.passed == items
    ensures r.error.Some? ==> !ItemFits(items[|r.passed|], limit)
  {
    if |items| == 0 then Outcome([], None)
    else if !ItemFits(items[0], limit) then Outcome([], Some(MsgTooBig))
    else
      var rest := Guard(items[1..], limit);
      Outcome([items[0]] + rest.passed, rest.error)
  }

  /** `restrictSize(max)(source)`. */
  function Restrict(items: seq<Item>, max: Option<nat>): Outcome {
    Guard(items, EffectiveMax(max))
  }

  /** The guard passes exactly the items before the first that does not fit, and then fails. */
  lemma FirstOversize(items: seq<Item>, limit: nat, k: nat)
    requires k < |items| && !ItemFits(items[k], limit)
    requires forall i :: 0 <= i < k ==> ItemFits(items[i], limit)
    ensures Guard(items, limit) == Outcome(items[..k], Some(MsgTooBig))
  {
    GuardError(items, limit);
  }

  /** The only error the guard reports is ERR_MSG_TOO_BIG. */
  lemma {:induction false} GuardError(items: seq<Item>, limit: nat)
    ensures Guard(items, limit).error.Some? ==> Guard(items, limit).error == Some(MsgTooBig)
  {
    if |items| > 0 && ItemFits(items[0], limit) {
      GuardError(items[1..], limit);
    }
  }

  /** A message without data passes whatever the limit. */
  lemma NoDataPasses(m: Message, limit: nat)
    requires m.data.None?
    ensures Guard([Single(m)], limit) == Outcome([Single(m)], None)
  {
    assert ItemFits(Single(m), limit);
  }

  /** A payload exactly at the limit passes; one byte more fails. */
  lemma Boundary(id: nat, kind: nat, d: seq<byte>, limit: nat)
    requires |d| == limit
    ensures Guard([Single(Message(id, kind, Some(d)))], limit).error == None
    ensures Guard([Single(Message(id, kind, Some(d + [0])))], limit).error == Some(MsgTooBig)
  {
    assert ItemFits(Single(Message(id, kind, Some(d))), limit);
    assert !Fits(Message(id, kind, Some(d + [0])), limit);
    assert Message(id, kind, Some(d + [0])) in ItemMessages(Single(Message(id, kind, Some(d + [0]))));
  }

  /** An array is yielded only if every element fits; one oversized element fails it whole. */
  lemma BatchAllOrNothing(ms: seq<Message>, limit: nat, k: nat)
    requires k < |ms| && !Fits(ms[k], limit)
    ensures Guard([Batch(ms)], limit) == Outcome([], Some(MsgTooBig))
  {
    assert ms[k] in ItemMessages(Batch(ms));
  }

  /** The source's test: with a maximum of 32, payloads of 8, 32, 64 and 16 bytes let the first two through. */
  lemma ExampleFromTests(d0: seq<byte>, d1: seq<byte>, d2: seq<byte>, d3: seq<byte>)
    requires |d0| == 8 && |d1| == 32 && |d2| == 64 && |d3| == 16
    ensures var items := [Single(Message(0, 1, Some(d0))), Single(Message(0, 1, Some(d1))),
                          Single(Message(0, 1, Some(d2))), Single(Message(0, 1, Some(d3)))];
      Restrict(items, Some(32)) == Outcome(items[..2], Some(MsgTooBig))
  {
    var items := [Single(Message(0, 1, Some(d0))), Single(Message(0, 1, Some(d1))),
                  Single(Message(0, 1, Some(d2))), Single(Message(0, 1, Some(d3)))];
    assert ItemFits(items[0], 32) && ItemFits(items[1], 32);
    assert Message(0, 1, Some(d2)) in ItemMessages(items[2]);
    assert Guard(items[2..], 32) == Outcome([], Some(MsgTooBig));
    assert items[1..][1..] == items[2..];
    assert Guard(items[1..], 32) == Outcome([items[1]], Some(MsgTooBig));
    assert items[..2] == [items[0]] + [items[1]];
  }
}

=== FILE: stream.dfy ===
/**
 * The per-stream state machine (src/stream.js). A stream has a read half
 * (`source`) and a write half (`sink`) that end independently, each once;
 * `onEnd` runs when the second half ends, with the error recorded when the
 * first one did. Writing goes through a single sink, which announces an
 * initiator's stream with NEW_STREAM, slices data into MESSAGE frames of at
 * most `maxMsgSize` bytes, and ends with CLOSE or RESET.
 *
 * The asynchronous parts (promises, abort controllers, the pushable queue)
 * are modelled as atomic events applied in order: a cancellation signal
 * raised while the sink runs finishes the sink at once.
 */
module Stream {
  import opened Wrappers
  import opened Varint
  import opened Message
  import Decimal
  import RestrictSize

  /**
   * Errors, by the `code` they carry. `Other` stands for any error raised
   * outside the stream (a failing data source, an abort reason); its code
   * may be any string, including the codes of the named errors.
   */
  datatype Error =
    | StreamReset        // ERR_MPLEX_STREAM_RESET
    | StreamAbort        // ERR_MPLEX_STREAM_ABORT
    | WriteClosed        // MPLEX_WRITE_STREAM_CLOSED
    | SinkAlreadyOpened  // ERR_SINK_ALREADY_OPENED
    | StreamClosed       // ERR_STREAM_CLOSED
    | Other(code: string)

  const RESET_CODE := "ERR_MPLEX_STREAM_RESET"
  const WRITE_CLOSED_CODE := "MPLEX_WRITE_STREAM_CLOSED"

  /** An error's `code` property, which the sink's `catch` compares. */
  function Code(e: Error): (c: string)
    ensures c == RESET_CODE <==> e == StreamReset || e == Other(RESET_CODE)
    ensures c == WRITE_CLOSED_CODE <==> e == WriteClosed || e == Other(WRITE_CLOSED_CODE)
  {
    match e
    case StreamReset => RESET_CODE
    case StreamAbort => "ERR_MPLEX_STREAM_ABORT"
    case WriteClosed => WRITE_CLOSED_CODE
    case SinkAlreadyOpened => "ERR_SINK_ALREADY_OPENED"
    case StreamClosed => "ERR_STREAM_CLOSED"
    case Other(c) => c
  }

  /** The sink ends as if its source were exhausted: no error, or one coded MPLEX_WRITE_STREAM_CLOSED. */
  predicate EndsCleanly(err: Option<Error>) {
    err.None? || Code(err.value) == WRITE_CLOSED_CODE
  }

  /** An error coded ERR_MPLEX_STREAM_RESET: the peer already knows, so no RESET is sent. */
  predicate IsReset(err: Option<Error>) {
    err.Some? && Code(err.value) == RESET_CODE
  }

  /** The three cancellation signals wrapped around a sink's source. */
  datatype Signal = AbortSignal | ResetSignal | WriteCloseSignal

  /** The error an in-flight write fails with when a signal is raised. */
  function SignalError(sig: Signal): Error {
    match sig
    case AbortSignal => StreamAbort
    case ResetSignal => StreamReset
    case WriteCloseSignal => WriteClosed
  }

  datatype Half = Source | Sink

  datatype Stream = Stream(
    id: nat,
    direction: Direction,
    name: seq<byte>,
    maxMsgSize: nat,
    sourceEnded: bool,
    sinkEnded: bool,
    /** The error recorded when the first half ended. */
    endErr: Option<Error>,
    sinkInProgress: bool,
    /** Data pushed to the read side, and the error its queue ended with. */
    inbox: seq<seq<byte>>,
    readError: Option<Error>,
    /** Every message handed to the muxer's `send`, in order. */
    sent: seq<Message>,
    /** The argument of every `onEnd` call, in order. */
    onEndCalls: seq<Option<Error>>)

  /** The stream factory's option defaults: the name is the id's decimal string, the type initiator, the slice size 1 MiB. */
  function Create(id: nat, name: Option<seq<byte>>, direction: Option<Direction>, maxMsgSize: Option<nat>): (s: Stream)
    requires maxMsgSize != Some(0)
    ensures Inv(s)
    ensures s.id == id && !s.sourceEnded && !s.sinkEnded && s.sent == [] && s.onEndCalls == []
    ensures s.name == (if name.Some? then name.value else Decimal.ShowBytes(id))
    ensures s.direction == (if direction == Some(Receiver) then Receiver else Initiator)
    ensures s.maxMsgSize == (if maxMsgSize.Some? then maxMsgSize.value else RestrictSize.MAX_MSG_SIZE)
  {
    var d := if direction == Some(Receiver) then Receiver else Initiator;
    assert direction.GetOr(Initiator) == d;
    var s := Stream(id, d, name.GetOr(Decimal.ShowBytes(id)), maxMsgSize.GetOr(RestrictSize.MAX_MSG_SIZE),
                    false, false, None, false, [], None, [], []);
    assert Inv(s);
    s
  }

  /** The stream's external id: `i<id>` for an initiator, `r<id>` for a receiver. */
  function ExternalId(s: Stream): (r: string)
    ensures 2 <= |r|
    ensures r[0] == (if s.direction == Initiator then 'i' else 'r')
    ensures forall i :: 1 <= i < |r| ==> Decimal.IsDigit(r[i])
    ensures Decimal.Parse(r[1..]) == s.id
  {
    Decimal.ParseShow(s.id);
    var tag := if s.direction == Initiator then 'i' else 'r';
    assert ([tag] + Decimal.Show(s.id))[1..] == Decimal.Show(s.id);
    [tag] + Decimal.Show(s.id)
  }

  /** Two streams share an external id only if they have the same direction and id. */
  lemma ExternalIdInjective(a: Stream, b: Stream)
    requires ExternalId(a) == ExternalId(b)
    ensures a.direction == b.direction && a.id == b.id
  {
    assert ExternalId(a)[0] == ExternalId(b)[0];
    assert ExternalId(a)[1..] == ExternalId(b)[1..];
  }

  /** `sent[i]` is a message this stream may send, where it may send it. */
  predicate SentOk(s: Stream, i: int)
    requires 0 <= i < |s.sent|
  {
    var m := s.sent[i];
    var t := Types(s.direction);
    && m.id == s.id
    && (m.kind == NEW_STREAM ==> i == 0 && s.direction == Initiator)
    && (m.kind == NEW_STREAM || m.kind == t.message || m.kind == t.close || m.kind == t.reset)
    && (m.kind == t.message ==> m.data.Some? && 0 < |m.data.value| <= s.maxMsgSize)
    && (m.kind == t.close || m.kind == t.reset ==> i == |s.sent| - 1 && s.sinkEnded)
  }

  /**
   * The stream invariant: `onEnd` has run exactly when both halves have
   * ended, with the recorded error; a sink that ended was opened; an
   * initiator's first message is NEW_STREAM with its name; every message
   * carries the stream's id and a type of its direction's table; CLOSE or
   * RESET is the last message and only follows the end of the sink.
   */
  predicate Inv(s: Stream) {
    && 0 < s.maxMsgSize
    && (s.sinkEnded ==> s.sinkInProgress)
    && |s.onEndCalls| == (if s.sourceEnded && s.sinkEnded then 1 else 0)
    && (|s.onEndCalls| == 1 ==> s.onEndCalls[0] == s.endErr)
    && (|s.sent| > 0 ==> s.sinkInProgress)
    && (s.direction == Initiator && s.sinkInProgress ==> |s.sent| > 0 && s.sent[0] == Message(s.id, NEW_STREAM, Some(s.name)))
    && (forall i :: 0 <= i < |s.sent| ==> SentOk(s, i))
  }

  /** `end(type, err)`: the first end of a half records it; the second half's end calls `onEnd`. */
  function End(s: Stream, half: Half, err: Option<Error>): (r: Stream)
    ensures (if half == Source then s.sourceEnded else s.sinkEnded) ==> r == s
    ensures r.sourceEnded == (s.sourceEnded || half.Source?)
    ensures r.sinkEnded == (s.sinkEnded || half.Sink?)
    ensures !s.sourceEnded && !s.sinkEnded ==> r.endErr == err && r.onEndCalls == s.onEndCalls
    ensures s.sourceEnded != s.sinkEnded ==> r.endErr == s.endErr
    ensures s.sourceEnded != s.sinkEnded && !(if half == Source then s.sourceEnded else s.sinkEnded)
            ==> r.onEndCalls == s.onEndCalls + [s.endErr]
    ensures r.sent == s.sent && r.inbox == s.inbox && r.sinkInProgress == s.sinkInProgress
  {
    if half == Source then
      if s.sourceEnded then s
      else if s.sinkEnded then s.(sourceEnded := true, onEndCalls := s.onEndCalls + [s.endErr])
      else s.(sourceEnded := true, endErr := err)
    else
      if s.sinkEnded then s
      else if s.sourceEnded then s.(sinkEnded := true, onEndCalls := s.onEndCalls + [s.endErr])
      else s.(sinkEnded := true, endErr := err)
  }

  /** `_send`: hand a message to the muxer unless the sink has ended. */
  function Send(s: Stream, m: Message): (r: Stream)
    ensures s.sinkEnded ==> r == s
    ensures !s.sinkEnded ==> r == s.(sent := s.sent + [m])
  {
    if s.sinkEnded then s else s.(sent := s.sent + [m])
  }

  /**
   * `stream.source.end(err)`: end the read queue with `err`; its end hook
   * ends the source half. The hook runs here at once; in the code it runs
   * when the stream's reader reads the end.
   */
  function EndSource(s: Stream, err: Option<Error>): Stream {
    if s.sourceEnded then s else End(s.(readError := err), Source, err)
  }

  /** Opening the sink: refused while one is in progress, and after the sink has ended. */
  function OpenSink(s: Stream): (r: Result<Stream, Error>)
    ensures s.sinkInProgress ==> r == Err(SinkAlreadyOpened)
    ensures !s.sinkInProgress && s.sinkEnded ==> r == Err(StreamClosed)
    ensures r.Ok? ==> r.value.sinkInProgress && !r.value.sinkEnded
    ensures r.Ok? && s.direction == Initiator ==> r.value.sent == s.sent + [Message(s.id, NEW_STREAM, Some(s.name))]
    ensures r.Ok? && s.direction == Receiver ==> r.value.sent == s.sent
  {
    if s.sinkInProgress then Err(SinkAlreadyOpened)
    else if s.sinkEnded then Err(StreamClosed)
    else
      var s1 := s.(sinkInProgress := true);
      Ok(if s.direction == Initiator then Send(s1, Message(s.id, NEW_STREAM, Some(s.name))) else s1)
  }

  /** The sink is running: opened and not yet ended. */
  predicate Running(s: Stream) {
    s.sinkInProgress && !s.sinkEnded
  }

  function Concat(chunks: seq<seq<byte>>): seq<byte> {
    if |chunks| == 0 then [] else chunks[0] + Concat(chunks[1..])
  }

  /**
   * How a written item is sliced: frames of exactly `max` bytes while more
   * than `max` remain, then the rest. An empty item gives no frame.
   */
  function Chunks(data: seq<byte>, max: nat): (r: seq<seq<byte>>)
    requires 0 < max
    ensures Concat(r) == data
    ensures forall i :: 0 <= i < |r| ==> 0 < |r[i]| <= max
    ensures forall i :: 0 <= i < |r| - 1 ==> |r[i]| == max
    decreases |data|
  {
    if |data| == 0 then []
    else if |data| <= max then
      assert Concat([data]) == data + Concat([]);
      [data]
    else
      var rest := Chunks(data[max..], max);
      assert ([data[..max]] + rest)[1..] == rest;
      assert data == data[..max] + data[max..];
      [data[..max]] + rest
  }

  /** The sink's inner `while (data.length)` loop, slice by slice. */
  method SliceItem(data: seq<byte>, max: nat) returns (frames: seq<seq<byte>>)
    requires 0 < max
    ensures frames == Chunks(data, max)
    ensures Concat(frames) == data
  {
    frames := [];
    var rest := data;
    assert frames + Chunks(rest, max) == Chunks(data, max);
    while |rest| > 0
      invariant frames + Chunks(rest, max) == Chunks(data, max)
      decreases |rest|
    {
      ChunksStep(rest, max);
      if |rest| <= max {
        frames := frames + [rest];
        rest := [];
        break;
      }
      AppendAssoc(frames, [rest[..max]], Chunks(rest[max..], max));
      frames := frames + [rest[..max]];
      rest := rest[max..];
    }
  }

  /** One slice of the sink's loop: a short remainder is the last chunk, a long one loses its first `max` bytes. */
  lemma ChunksStep(rest: seq<byte>, max: nat)
    requires 0 < max && 0 < |rest|
    ensures |rest| <= max ==> Chunks(rest, max) == [rest] && Chunks([], max) == []
    ensures |rest| > max ==> Chunks(rest, max) == [rest[..max]] + Chunks(rest[max..], max)
  {
  }

  lemma AppendAssoc<T>(a: seq<T>, b: seq<T>, c: seq<T>)
    ensures a + (b + c) == a + b + c
  {
  }

  function MessageFrames(id: nat, kind: nat, chunks: seq<seq<byte>>): (r: seq<Message>)
    ensures |r| == |chunks|
    ensures forall i :: 0 <= i < |r| ==> r[i] == Message(id, kind, Some(chunks[i]))
  {
    seq(|chunks|, i requires 0 <= i < |chunks| => Message(id, kind, Some(chunks[i])))
  }

  /** The payloads of a run of messages, empty for those without data. */
  function Payloads(ms: seq<Message>): (r: seq<seq<byte>>)
    ensures |r| == |ms|
  {
    seq(|ms|, i requires 0 <= i < |ms| => ms[i].data.GetOr([]))
  }

  /** One item pulled by the running sink: sent as MESSAGE frames of at most `maxMsgSize` bytes. */
  function Write(s: Stream, data: seq<byte>): (r: Stream)
    requires Running(s) && 0 < s.maxMsgSize
    ensures r.(sent := s.sent) == s && s.sent <= r.sent
    ensures Concat(Payloads(r.sent[|s.sent|..])) == data
    ensures forall i :: |s.sent| <= i < |r.sent| ==>
              && r.sent[i].id == s.id && r.sent[i].kind == Types(s.direction).message
              && r.sent[i].data.Some? && 0 < |r.sent[i].data.value| <= s.maxMsgSize
  {
    var chunks := Chunks(data, s.maxMsgSize);
    var frames := MessageFrames(s.id, Types(s.direction).message, chunks);
    var r := s.(sent := s.sent + frames);
    assert r.sent[|s.sent|..] == frames;
    assert Payloads(frames) == chunks;
    r
  }

  /**
   * The end of the running sink, decided by the error's code. A clean end,
   * or an error coded MPLEX_WRITE_STREAM_CLOSED, sends CLOSE and ends the
   * sink without an error. Any other error sends RESET (except one coded
   * ERR_MPLEX_STREAM_RESET, which the peer already knows of), ends the
   * read queue with the error and ends the sink with it.
   */
  function FinishSink(s: Stream, err: Option<Error>): (r: Stream)
    requires Running(s)
    ensures r.sinkEnded
    ensures EndsCleanly(err) ==>
              r.sent == s.sent + [Message(s.id, Types(s.direction).close, None)] && r.sourceEnded == s.sourceEnded
    ensures EndsCleanly(err) && !s.sourceEnded ==> r.onEndCalls == s.onEndCalls && r.endErr == None
    ensures !EndsCleanly(err) ==> r.sourceEnded
    ensures !EndsCleanly(err) && !IsReset(err) ==> r.sent == s.sent + [Message(s.id, Types(s.direction).reset, None)]
    ensures IsReset(err) ==> r.sent == s.sent
  {
    if EndsCleanly(err) then
      End(Send(s, Message(s.id, Types(s.direction).close, None)), Sink, None)
    else
      var s1 := if IsReset(err) then s else Send(s, Message(s.id, Types(s.direction).reset, None));
      End(EndSource(s1, err), Sink, err)
  }

  /** `closeWrite(controller)`: nothing once the sink has ended; cancel a running sink; otherwise write nothing and close. */
  function CloseWrite(s: Stream, sig: Signal): (r: Stream)
    ensures s.sinkEnded ==> r == s
    ensures r.sinkEnded
  {
    if s.sinkEnded then s
    else if s.sinkInProgress then FinishSink(s, Some(SignalError(sig)))
    else
      var started := OpenSink(s);
      FinishSink(started.value, None)
  }

  /** `closeRead(err)`: nothing once the source has ended; otherwise end the read queue. */
  function CloseRead(s: Stream, err: Option<Error>): (r: Stream)
    ensures s.sourceEnded ==> r == s
    ensures r.sourceEnded
    ensures r.sent == s.sent && r.sinkEnded == s.sinkEnded
  {
    EndSource(s, err)
  }

  /**
   * `closeAll`: raise the write-side signal and end the read queue. The
   * sink reacts to the signal only after the read queue has been ended, so
   * the read half ends first.
   */
  function CloseAll(s: Stream, sig: Signal, err: Option<Error>): (r: Stream)
    ensures r.sourceEnded && r.sinkEnded
  {
    CloseWrite(CloseRead(s, err), sig)
  }

  /** A value pushed to the read queue; dropped once the queue has ended. */
  function Push(s: Stream, data: seq<byte>): (r: Stream)
    ensures s.sourceEnded ==> r == s
    ensures !s.sourceEnded ==> r == s.(inbox := s.inbox + [data])
  {
    if s.sourceEnded then s else s.(inbox := s.inbox + [data])
  }

  /** What can happen to a stream. */
  datatype Event =
    | SinkOpen                    // `sink(source)` is called
    | SinkItem(data: seq<byte>)   // the sink's source yields an item
    | SinkDone(err: Option<Error>) // the sink's source ends, cleanly or with an error
    | CloseEv                     // `close()`
    | CloseReadEv                 // `closeRead()`
    | CloseWriteEv                // `closeWrite()`
    | AbortEv(err: Option<Error>) // `abort(err)`
    | ResetEv                     // `reset()`
    | PushEv(data: seq<byte>)     // the muxer pushes received data

  /** Events of the sink's own loop only occur while it runs. */
  predicate Enabled(s: Stream, ev: Event) {
    (ev.SinkItem? || ev.SinkDone?) ==> Running(s)
  }

  /** One event. Only opening the sink can throw, and a throw leaves the stream as it was. */
  function Step(s: Stream, ev: Event): (r: Result<Stream, Error>)
    requires Enabled(s, ev) && 0 < s.maxMsgSize
    ensures r.Err? <==> ev == SinkOpen && (s.sinkInProgress || s.sinkEnded)
    ensures r.Err? ==> r.error == (if s.sinkInProgress then SinkAlreadyOpened else StreamClosed)
  {
    match ev
    case SinkOpen => OpenSink(s)
    case SinkItem(data) => Ok(Write(s, data))
    case SinkDone(err) => Ok(FinishSink(s, err))
    case CloseEv => Ok(CloseAll(s, WriteCloseSignal, None))
    case CloseReadEv => Ok(CloseRead(s, None))
    case CloseWriteEv => Ok(CloseWrite(s, WriteCloseSignal))
    case AbortEv(err) => Ok(CloseAll(s, AbortSignal, err))
    case ResetEv => Ok(CloseAll(s, ResetSignal, Some(StreamReset)))
    case PushEv(data) => Ok(Push(s, data))
  }

  /** Every message appended by a running sink's item is a well-sized MESSAGE frame. */
  lemma WriteInv(s: Stream, data: seq<byte>)
    requires Inv(s) && Running(s)
    ensures Inv(Write(s, data))
  {
    var r := Write(s, data);
    var chunks := Chunks(data, s.maxMsgSize);
    var frames := MessageFrames(s.id, Types(s.direction).message, chunks);
    forall i | 0 <= i < |r.sent|
      ensures SentOk(r, i)
    {
      if i < |s.sent| {
        assert r.sent[i] == s.sent[i];
        assert SentOk(s, i);
        var t := Types(s.direction);
        assert s.sent[i].kind != t.close && s.sent[i].kind != t.reset;
      } else {
        assert r.sent[i] == frames[i - |s.sent|];
      }
    }
  }

  /** Opening the sink keeps the invariant; the NEW_STREAM message, if any, is the first one. */
  lemma OpenSinkInv(s: Stream)
    requires Inv(s) && OpenSink(s).Ok?
    ensures Inv(OpenSink(s).value)
  {
    var r := OpenSink(s).value;
    assert s.sent == [];
    if s.direction == Initiator {
      assert r.sent == [Message(s.id, NEW_STREAM, Some(s.name))];
      assert SentOk(r, 0);
    }
  }

  /** Appending the last message of a sink and then ending it keeps the invariant. */
  lemma SendLastInv(s: Stream, m: Message, err: Option<Error>)
    requires Inv(s) && Running(s)
    requires m.id == s.id
    requires m.kind == Types(s.direction).close || m.kind == Types(s.direction).reset
    requires m.data == None
    ensures Inv(End(Send(s, m), Sink, err))
  {
    var r := End(Send(s, m), Sink, err);
    assert r.sent == s.sent + [m];
    forall i | 0 <= i < |r.sent|
      ensures SentOk(r, i)
    {
      if i < |s.sent| {
        assert r.sent[i] == s.sent[i];
        assert SentOk(s, i);
      }
    }
  }

  /** Ending the read queue keeps the invariant. */
  lemma EndSourceInv(s: Stream, err: Option<Error>)
    requires Inv(s)
    ensures Inv(EndSource(s, err))
  {
    var r := EndSource(s, err);
    forall i | 0 <= i < |r.sent|
      ensures SentOk(r, i)
    {
      assert SentOk(s, i);
    }
  }

  /** Ending the sink without a last message keeps the invariant. */
  lemma EndSinkInv(s: Stream, err: Option<Error>)
    requires Inv(s) && s.sinkInProgress
    ensures Inv(End(s, Sink, err))
  {
    var r := End(s, Sink, err);
    forall i | 0 <= i < |r.sent|
      ensures SentOk(r, i)
    {
      assert SentOk(s, i);
    }
  }

  lemma FinishSinkInv(s: Stream, err: Option<Error>)
    requires Inv(s) && Running(s)
    ensures Inv(FinishSink(s, err))
  {
    var t := Types(s.direction);
    if EndsCleanly(err) {
      SendLastInv(s, Message(s.id, t.close, None), None);
    } else if IsReset(err) {
      EndSourceInv(s, err);
      EndSinkInv(EndSource(s, err), err);
    } else {
      var m := Message(s.id, t.reset, None);
      var s1 := Send(s, m);
      // The RESET is appended before the read queue and the sink end.
      var s2 := EndSource(s1, err);
      assert s2.sent == s.sent + [m] && s2.sinkInProgress && !s2.sinkEnded;
      assert End(s2, Sink, err).sent == s.sent + [m];
      var r := End(s2, Sink, err);
      assert r == FinishSink(s, err);
      assert 0 < r.maxMsgSize && r.sinkEnded && r.sinkInProgress;
      assert r.sourceEnded && r.sinkEnded && |r.onEndCalls| == 1 && r.onEndCalls[0] == r.endErr by {
        if s.sourceEnded {
          assert s2 == s1;
        }
      }
      forall i | 0 <= i < |r.sent|
        ensures SentOk(r, i)
      {
        if i < |s.sent| {
          assert r.sent[i] == s.sent[i];
          assert SentOk(s, i);
        }
      }
    }
  }

  lemma CloseWriteInv(s: Stream, sig: Signal)
    requires Inv(s)
    ensures Inv(CloseWrite(s, sig))
  {
    if s.sinkEnded {
    } else if s.sinkInProgress {
      FinishSinkInv(s, Some(SignalError(sig)));
    } else {
      OpenSinkInv(s);
      FinishSinkInv(OpenSink(s).value, None);
    }
  }

  lemma PushInv(s: Stream, data: seq<byte>)
    requires Inv(s)
    ensures Inv(Push(s, data))
  {
    var r := Push(s, data);
    forall i | 0 <= i < |r.sent|
      ensures SentOk(r, i)
    {
      assert SentOk(s, i);
    }
  }

  /** Every event keeps the stream invariant. */
  lemma StepInv(s: Stream, ev: Event)
    requires Inv(s) && Enabled(s, ev) && Step(s, ev).Ok?
    ensures Inv(Step(s, ev).value)
  {
    match ev
    case SinkOpen => OpenSinkInv(s);
    case SinkItem(data) => WriteInv(s, data);
    case SinkDone(err) => FinishSinkInv(s, err);
    case CloseEv =>
      EndSourceInv(s, None);
      CloseWriteInv(CloseRead(s, None), WriteCloseSignal);
    case CloseReadEv => EndSourceInv(s, None);
    case CloseWriteEv => CloseWriteInv(s, WriteCloseSignal);
    case AbortEv(err) =>
      EndSourceInv(s, err);
      CloseWriteInv(CloseRead(s, err), AbortSignal);
    case ResetEv =>
      EndSourceInv(s, Some(StreamReset));
      CloseWriteInv(CloseRead(s, Some(StreamReset)), ResetSignal);
    case PushEv(data) => PushInv(s, data);
  }

  /** An opened sink never becomes openable again: after its end a second `sink` call fails with ERR_SINK_ALREADY_OPENED, never ERR_STREAM_CLOSED. */
  lemma SinkAfterEnd(s: Stream)
    requires Inv(s) && s.sinkEnded
    ensures OpenSink(s) == Err(SinkAlreadyOpened)
  {
  }

  /** Nothing is sent once the sink has ended, and no event removes a sent message. */
  lemma SentOnlyGrows(s: Stream, ev: Event)
    requires Inv(s) && Enabled(s, ev) && Step(s, ev).Ok?
    ensures s.sent <= Step(s, ev).value.sent
    ensures s.sinkEnded ==> Step(s, ev).value.sent == s.sent
  {
  }

  /** The messages one event sends: what it appends to `sent`. */
  function NewSends(s: Stream, ev: Event): (r: seq<Message>)
    requires Inv(s) && Enabled(s, ev) && 0 < s.maxMsgSize && Step(s, ev).Ok?
    ensures s.sent + r == Step(s, ev).value.sent
  {
    SentOnlyGrows(s, ev);
    var after := Step(s, ev).value.sent;
    assert after == after[..|s.sent|] + after[|s.sent|..];
    after[|s.sent|..]
  }

  /** The error handed to `onEnd` is fixed by the first half to end: later events do not change it. */
  lemma EndErrFixed(s: Stream, ev: Event)
    requires Inv(s) && Enabled(s, ev) && Step(s, ev).Ok?
    requires s.sourceEnded || s.sinkEnded
    ensures Step(s, ev).value.endErr == s.endErr
  {
  }

  /** `onEnd` runs at most once over any run of events, and once the stream has fully ended it has run. */
  lemma OnEndOnce(s: Stream, ev: Event)
    requires Inv(s) && Enabled(s, ev) && Step(s, ev).Ok?
    ensures |Step(s, ev).value.onEndCalls| <= 1
    ensures s.onEndCalls <= Step(s, ev).value.onEndCalls
    ensures var r := Step(s, ev).value; r.sourceEnded && r.sinkEnded ==> r.onEndCalls == [r.endErr]
  {
    StepInv(s, ev);
  }

  /** Closing the read half leaves a running sink running: the stream is half-closed. */
  lemma HalfClose(s: Stream)
    requires Running(s)
    ensures Running(CloseRead(s, None)) && CloseRead(s, None).sourceEnded
  {
  }

  /** `close()` on a running sink sends CLOSE; a fresh stream's `onEnd` then runs without error. */
  lemma CloseRunning(s: Stream)
    requires Inv(s) && Running(s)
    ensures var r := CloseAll(s, WriteCloseSignal, None);
      && r.sent == s.sent + [Message(s.id, Types(s.direction).close, None)]
      && (!s.sourceEnded ==> r.onEndCalls == [None] && r.readError == None)
  {
  }

  /** `close()` on a stream never written to opens its sink and closes it: an initiator announces the stream first. */
  lemma CloseUnopened(s: Stream)
    requires Inv(s) && !s.sinkInProgress
    ensures var r := CloseAll(s, WriteCloseSignal, None);
      r.sent == (if s.direction == Initiator then [Message(s.id, NEW_STREAM, Some(s.name))] else [])
                + [Message(s.id, Types(s.direction).close, None)]
  {
  }

  /** `abort(err)` on a running sink sends RESET, ends the read queue with `err`, and reports `err` to `onEnd`. */
  lemma AbortRunning(s: Stream, err: Option<Error>)
    requires Inv(s) && Running(s) && !s.sourceEnded
    ensures var r := CloseAll(s, AbortSignal, err);
      && r.sent == s.sent + [Message(s.id, Types(s.direction).reset, None)]
      && r.readError == err
      && r.onEndCalls == [err]
  {
  }

  /** `abort(err)` ends both halves; a read queue still open fails with `err`, which `onEnd` then reports. */
  lemma AbortWith(s: Stream, err: Option<Error>)
    requires Inv(s)
    ensures var r := CloseAll(s, AbortSignal, err);
      && r.sourceEnded && r.sinkEnded
      && r.readError == (if s.sourceEnded then s.readError else err)
      && (!s.sourceEnded && !s.sinkEnded ==> r.onEndCalls == [err])
  {
  }

  /** `reset()` (the peer's RESET) sends nothing, and ends both halves with ERR_MPLEX_STREAM_RESET. */
  lemma ResetRunning(s: Stream)
    requires Inv(s) && Running(s) && !s.sourceEnded
    ensures var r := CloseAll(s, ResetSignal, Some(StreamReset));
      && r.sent == s.sent
      && r.readError == Some(StreamReset)
      && r.onEndCalls == [Some(StreamReset)]
  {
  }

  /** `close()` and `reset()` end both halves, so `onEnd` has run; nothing sent is taken back and the id stays. */
  lemma EndingEvent(s: Stream, ev: Event)
    requires Inv(s) && (ev == CloseEv || ev == ResetEv)
    ensures Step(s, ev).Ok?
    ensures var a := Step(s, ev).value;
      && s.sent <= a.sent && a.id == s.id && a.sourceEnded && a.sinkEnded && |a.onEndCalls| == 1
  {
    StepInv(s, ev);
    StepKeepsIdentity(s, ev);
    SentOnlyGrows(s, ev);
  }

  /** `reset()` on a stream whose sink has been opened sends nothing. */
  lemma ResetSends(s: Stream)
    requires Inv(s) && s.sinkInProgress
    ensures CloseAll(s, ResetSignal, Some(StreamReset)).sent == s.sent
  {
  }

  /**
   * A failing source is judged by its error's code. An ordinary code
   * resets the stream: RESET is sent and the read queue fails with the
   * error. MPLEX_WRITE_STREAM_CLOSED closes the write half as a clean end
   * would, leaving the read half open. ERR_MPLEX_STREAM_RESET sends
   * nothing but fails the read queue as an ordinary error does.
   */
  lemma SourceFailure(s: Stream, code: string)
    requires Inv(s) && Running(s) && !s.sourceEnded
    ensures var r := FinishSink(s, Some(Other(code)));
      && (code != WRITE_CLOSED_CODE && code != RESET_CODE ==>
            r.sent == s.sent + [Message(s.id, Types(s.direction).reset, None)])
      && (code == WRITE_CLOSED_CODE ==>
            r.sent == s.sent + [Message(s.id, Types(s.direction).close, None)] && !r.sourceEnded && r.onEndCalls == [])
      && (code == RESET_CODE ==> r.sent == s.sent)
      && (code != WRITE_CLOSED_CODE ==> r.readError == Some(Other(code)) && r.onEndCalls == [Some(Other(code))])
  {
  }

  /** Written data arrives at the muxer whole and in order, in frames no larger than `maxMsgSize`. */
  lemma WriteDelivers(s: Stream, data: seq<byte>)
    requires Inv(s) && Running(s)
    ensures var r := Write(s, data);
      && s.sent <= r.sent
      && Concat(Payloads(r.sent[|s.sent|..])) == data
      && forall i :: |s.sent| <= i < |r.sent| ==>
           r.sent[i].kind == Types(s.direction).message && |r.sent[i].data.value| <= s.maxMsgSize
  {
    var r := Write(s, data);
    var chunks := Chunks(data, s.maxMsgSize);
    var frames := MessageFrames(s.id, Types(s.direction).message, chunks);
    assert r.sent[|s.sent|..] == frames;
    assert Payloads(frames) == chunks;
  }

  /** No event changes who a stream is: its id, direction, name and slice size. */
  lemma StepKeepsIdentity(s: Stream, ev: Event)
    requires Enabled(s, ev) && 0 < s.maxMsgSize && Step(s, ev).Ok?
    ensures SameIdentity(Step(s, ev).value, s)
  {
    match ev
    case SinkOpen => assert SameIdentity(OpenSink(s).value, s);
    case SinkItem(data) => assert SameIdentity(Write(s, data), s);
    case SinkDone(err) => FinishSinkIdentity(s, err);
    case CloseEv => CloseAllIdentity(s, WriteCloseSignal, None);
    case CloseReadEv => CloseReadIdentity(s, None);
    case CloseWriteEv => CloseWriteIdentity(s, WriteCloseSignal);
    case AbortEv(err) => CloseAllIdentity(s, AbortSignal, err);
    case ResetEv => CloseAllIdentity(s, ResetSignal, Some(StreamReset));
    case PushEv(data) => assert SameIdentity(Push(s, data), s);
  }

  lemma FinishSinkIdentity(s: Stream, err: Option<Error>)
    requires Running(s)
    ensures SameIdentity(FinishSink(s, err), s)
  {
  }

  lemma CloseReadIdentity(s: Stream, err: Option<Error>)
    ensures SameIdentity(CloseRead(s, err), s)
  {
  }

  lemma CloseWriteIdentity(s: Stream, sig: Signal)
    ensures SameIdentity(CloseWrite(s, sig), s)
  {
    if !s.sinkEnded {
      if s.sinkInProgress {
        FinishSinkIdentity(s, Some(SignalError(sig)));
      } else {
        FinishSinkIdentity(OpenSink(s).value, None);
      }
    }
  }

  lemma CloseAllIdentity(s: Stream, sig: Signal, err: Option<Error>)
    ensures SameIdentity(CloseAll(s, sig, err), s)
  {
    CloseReadIdentity(s, err);
    CloseWriteIdentity(CloseRead(s, err), sig);
  }

  /** Two states of one stream: same id, direction, name and size limit. */
  predicate SameIdentity(r: Stream, s: Stream) {
    r.id == s.id && r.direction == s.direction && r.name == s.name && r.maxMsgSize == s.maxMsgSize
  }
}

=== FILE: stream_init.dfy ===
/**
 * The TypeScript stream factory (src/stream.ts): how `createStream` maps
 * its options onto a stream's initial settings, and the one message each
 * `send*` hook hands to the muxer.
 */
module StreamInit {
  import opened Wrappers
  import opened Varint
  import opened Message
  import Decimal
  import RestrictSize
  import Stream

  /** `outbound` for the side that opened the stream, `inbound` for the side that accepted it. */
  datatype StreamDirection = Outbound | Inbound

  datatype Init = Init(
    externalId: string,
    streamId: nat,
    name: seq<byte>,
    direction: StreamDirection,
    maxDataSize: nat)

  /** `createStream`: `type` defaults to initiator, the name to the id's decimal string, the data size to 1 MiB. */
  function CreateStream(id: nat, name: Option<seq<byte>>, kind: Option<Direction>, maxMsgSize: Option<nat>): (r: Init)
    ensures r.streamId == id
    ensures r.direction == (if kind == Some(Receiver) then Inbound else Outbound)
    ensures r.externalId == (if r.direction == Outbound then "i" else "r") + Decimal.Show(id)
    ensures r.name == (if name.Some? then name.value else Decimal.ShowBytes(id))
    ensures r.maxDataSize == (if maxMsgSize.Some? then maxMsgSize.value else RestrictSize.MAX_MSG_SIZE)
  {
    var d := kind.GetOr(Initiator);
    Init((if d == Initiator then "i" else "r") + Decimal.Show(id),
         id, name.GetOr(Decimal.ShowBytes(id)),
         if d == Initiator then Outbound else Inbound,
         maxMsgSize.GetOr(RestrictSize.MAX_MSG_SIZE))
  }

  /** The message types a stream uses: outbound streams send initiator types. */
  function TypesOf(init: Init): TypeTable {
    if init.direction == Outbound then InitiatorTypes else ReceiverTypes
  }

  /** The hooks the generic stream calls to put its lifecycle on the wire. */
  datatype Action = SendNewStream | SendData(data: seq<byte>) | SendReset | SendCloseWrite | SendCloseRead

  /** The messages one hook hands to `send`: one for every hook except `sendCloseRead`, which mplex cannot express. */
  function Sent(init: Init, a: Action): (r: seq<Message>)
    ensures a == SendCloseRead <==> r == []
    ensures |r| <= 1
    ensures forall i :: 0 <= i < |r| ==> r[i].id == init.streamId
    ensures a == SendNewStream ==> r == [Message(init.streamId, NEW_STREAM, Some(init.name))]
    ensures a.SendData? ==> r == [Message(init.streamId, TypesOf(init).message, Some(a.data))]
    ensures a == SendReset ==> r == [Message(init.streamId, TypesOf(init).reset, None)]
    ensures a == SendCloseWrite ==> r == [Message(init.streamId, TypesOf(init).close, None)]
  {
    match a
    case SendNewStream => [Message(init.streamId, NEW_STREAM, Some(init.name))]
    case SendData(data) => [Message(init.streamId, TypesOf(init).message, Some(data))]
    case SendReset => [Message(init.streamId, TypesOf(init).reset, None)]
    case SendCloseWrite => [Message(init.streamId, TypesOf(init).close, None)]
    case SendCloseRead => []
  }

  /**
   * The TypeScript and the JavaScript factories agree: the same options
   * give the same stream id, external id, name, slice size and type table.
   */
  lemma FactoriesAgree(id: nat, name: Option<seq<byte>>, kind: Option<Direction>, maxMsgSize: Option<nat>)
    requires maxMsgSize != Some(0)
    ensures var init := CreateStream(id, name, kind, maxMsgSize);
            var s := Stream.Create(id, name, kind, maxMsgSize);
      && init.streamId == s.id
      && init.externalId == Stream.ExternalId(s)
      && init.name == s.name
      && init.maxDataSize == s.maxMsgSize
      && TypesOf(init) == Types(s.direction)
  {
  }

  /**
   * Every message a stream's hooks send, other than the NEW_STREAM
   * announcement, is routed on the other side to the registry of the
   * opposite direction — where the peer's end of the stream lives.
   */
  lemma HooksRouteToPeer(init: Init, a: Action)
    requires a != SendNewStream && a != SendCloseRead
    ensures var m := Sent(init, a)[0];
      Route(m.kind) == (if init.direction == Outbound then Receiver else Initiator)
  {
    var d := if init.direction == Outbound then Initiator else Receiver;
    assert TypesOf(init) == Types(d);
    CrossRouting(d);
  }

  /** Every announcement is sent with type NEW_STREAM, whatever the stream's direction, and carries its name. */
  lemma NewStreamTypeFixed(init: Init)
    ensures Sent(init, SendNewStream)[0].kind == NEW_STREAM
    ensures Sent(init, SendNewStream)[0].data == Some(init.name)
  {
  }

  lemma Examples()
  {
    var a := CreateStream(5, None, None, None);
    assert Decimal.Show(5) == "5";
    assert a.externalId == "i5";
    var b := CreateStream(7, Some([104, 105]), Some(Receiver), Some(16));
    assert Decimal.Show(7) == "7";
    assert b == Init("r7", 7, [104, 105], Inbound, 16);
    assert Sent(b, SendData([1])) == [Message(7, MESSAGE_RECEIVER, Some([1]))];
  }
}

=== FILE: varint.dfy ===
/**
 * Unsigned LEB128 varints (the multiformats unsigned-varint format): seven
 * payload bits per byte, least significant group first, the high bit of a
 * byte set when more bytes follow.
 */
module Varint {
  import opened Wrappers

  newtype byte = x: int | 0 <= x < 256

  /** The canonical (shortest) encoding of `n`. */
  function Encode(n: nat): (r: seq<byte>)
    ensures 1 <= |r|
    ensures r[|r| - 1] < 128
    ensures forall i :: 0 <= i < |r| - 1 ==> 128 <= r[i]
    decreases n
  {
    if n < 128 then [n as byte]
    else
      var rest := Encode(n / 128);
      var r := [(128 + n % 128) as byte] + rest;
      assert forall i :: 1 <= i < |r| ==> r[i] == rest[i - 1];
      r
  }

  /**
   * Reference decoder: reads one varint from the front of `s` and returns its
   * value with the number of bytes it occupied, or None when `s` ends before
   * a byte without the continuation bit.
   */
  function Decode(s: seq<byte>): (r: Option<(nat, nat)>)
    ensures r.Some? ==> 1 <= r.value.1 <= |s|
    ensures r.Some? ==> s[r.value.1 - 1] < 128
    decreases |s|
  {
    if |s| == 0 then None
    else if s[0] < 128 then Some((s[0] as nat, 1))
    else
      match Decode(s[1..])
      case None => None
      case Some((v, k)) => Some(((s[0] as nat - 128) + 128 * v, k + 1))
  }

  /** Decoding an encoding, whatever follows it, gives back the value and the encoding's length. */
  lemma {:induction false} DecodeEncode(n: nat, rest: seq<byte>)
    ensures Decode(Encode(n) + rest) == Some((n, |Encode(n)|))
    decreases n
  {
    if n < 128 {
      assert (Encode(n) + rest)[0] == n as byte;
    } else {
      var e := Encode(n);
      var tail := Encode(n / 128);
      assert e == [(128 + n % 128) as byte] + tail;
      assert (e + rest)[0] == (128 + n % 128) as byte;
      assert (e + rest)[1..] == tail + rest;
      DecodeEncode(n / 128, rest);
    }
  }

  /** A value takes a single byte exactly when it is below 128. */
  lemma SingleByte(n: nat)
    ensures |Encode(n)| == 1 <==> n < 128
  {
    if n >= 128 {
      assert |Encode(n)| == 1 + |Encode(n / 128)|;
    }
  }

  function Pow128(k: nat): (r: nat)
    ensures 1 <= r
  {
    if k == 0 then 1 else 128 * Pow128(k - 1)
  }

  /** A value below 128^k takes at most k bytes. */
  lemma {:induction false} EncodeLengthBound(n: nat, k: nat)
    requires 1 <= k
    requires n < Pow128(k)
    ensures |Encode(n)| <= k
    decreases k
  {
    if n >= 128 {
      assert k >= 2;
      assert n / 128 < Pow128(k - 1);
      EncodeLengthBound(n / 128, k - 1);
    }
  }

  /** A value below 2^31 (a packed frame header) takes at most five bytes. */
  lemma HeaderSized(n: nat)
    requires n < 0x8000_0000
    ensures |Encode(n)| <= 5
  {
    assert Pow128(5) == 0x8_0000_0000 by {
      assert Pow128(1) == 128;
      assert Pow128(2) == 16384;
      assert Pow128(3) == 2097152;
      assert Pow128(4) == 268435456;
    }
    EncodeLengthBound(n, 5);
  }

  /** A JavaScript safe integer (below 2^53) takes at most eight bytes. */
  lemma SafeIntegerSized(n: nat)
    requires n < 0x20_0000_0000_0000
    ensures |Encode(n)| <= 8
  {
    assert Pow128(8) == 0x100_0000_0000_0000 by {
      assert Pow128(1) == 128;
      assert Pow128(2) == 16384;
      assert Pow128(3) == 2097152;
      assert Pow128(4) == 268435456;
      assert Pow128(5) == 34359738368;
      assert Pow128(6) == 4398046511104;
      assert Pow128(7) == 562949953421312;
    }
    EncodeLengthBound(n, 8);
  }

  lemma Examples()
    ensures Encode(20) == [20]
    ensures Encode(300) == [172, 2]
    ensures Decode([172, 2]) == Some((300, 2))
  {
  }
}

=== FILE: wrappers.dfy ===
/** Option and Result, used for JavaScript's `null`/`undefined` and for thrown errors. */
module Wrappers {

  datatype Option<+T> = None | Some(value: T) {

    /** The value, or `default` when absent (JavaScript's `x ?? default`). */
    function GetOr(default: T): T {
      match this
      case Some(v) => v
      case None => default
    }
  }

  /** A computation that either returns a value or throws an error. */
  datatype Result<+R, +E> = Ok(value: R) | Err(error: E) {

    predicate IsFailure() {
      Err?
    }

    function PropagateFailure<U>(): Result<U, E>
      requires Err?
    {
      Err(error)
    }

    function Extract(): R
      requires Ok?
    {
      value
    }
  }
}
